=== FILE: README.md ===
# Bilibili account monitor — a verified model of its core

The monitor watches a list of targets. Each target is a QQ number paired with a Bilibili account.

Once per cycle it:
- asks the Bilibili web API whether each account is still active;
- works out how many days have passed since the account's last post;
- stores a check record in SQLite.

When an account has been silent for at least the configured number of days, it sends an e-mail alert. It does so only if:
- no alert went out for that target in the last 24 hours;
- a quorum of NTP servers confirms that the local clock can be trusted.

A small WSGI control panel exposes `/health`, `/status`, `/run_once` and `/config` behind a bearer token.

The Dafny modules follow the program's files:

| module | file | what it holds |
|---|---|---|
| `Base`, `PyText`, `JsonValues`, `Sorting` | — | Python values as the program sees them (`str.strip`, `str()`, truthiness, `len`, `dict.get`, `isinstance`), plus sorting |
| `Retry` | — | the bounded retry loop with `2 ** attempt` back-off that `get_user_info`, `get_user_dynamics` and `send_email` each write out by hand |
| `BilibiliChecker` | `bilibili_checker.py` | UID validation, the profile and feed requests, timestamp extraction, the activity verdict, inactive days |
| `TimeSync` | `time_sync.py` | the NTP request and reply decoding, sample collection, the median, the quorum and skew gate |
| `Database` | `database.py` | the two tables as append-only row sequences, key validation, latest check, recent notifications |
| `EmailSender` | `email_sender.py` | sender construction, the SMTP retry loop, the alert subject and body |
| `Config` | `main.py` | `_validate_config`, and the settings `check_target` reads |
| `Monitor` | `main.py` | `check_target`: detect, resolve days, record, then gate, notify and record the alert |
| `ControlPanel` | `control_panel.py` | request dispatch, bearer-token check, payloads, start and stop |

The model leaves the outside world as parameters:
- Every HTTP, SMTP and NTP exchange is a sequence of outcomes, one per attempt; an attempt past the end of the sequence fails transiently.
- The clock is one `now` per check.
- `json.loads` of a feed item's `extend_json` and `strftime` are function parameters.
- The database is two row sequences plus an `online` flag; while it is off-line, reads return nothing and writes fail.
- Times are `real` seconds since the Unix epoch.

## Model

| member | source | states |
|---|---|---|
| PyText.Strip | bilibili_checker.py:112-116 | the result has no whitespace at either end, and is empty exactly when the input is all whitespace |
| PyText.TrimStart | bilibili_checker.py:112-116 | `lstrip()` removes a leading run of whitespace and nothing else: the result is a suffix, all that was dropped is whitespace, and it does not start with whitespace |
| PyText.TrimEnd | bilibili_checker.py:112-116 | `rstrip()` removes a trailing run of whitespace and nothing else: the result is a prefix, all that was dropped is whitespace, and it does not end with whitespace |
| PyText.StripIsPaddedSlice | control_panel.py:76 | the stripped text is a stretch of the input with only whitespace before and after it |
| PyText.StripIdempotent | bilibili_checker.py:112-116 | stripping an already stripped UID or key changes nothing, so stored keys are canonical |
| PyText.StripKeepsNonSpace | email_sender.py:60-71 | a non-space character such as `@` survives stripping, so an address accepted before stripping still contains it afterwards |
| PyText.StripPadded | control_panel.py:76 | any whitespace padding around a word is removed and the word is returned unchanged |
| PyText.DecimalRoundTrip | email_sender.py:241 | reading the decimal rendering of a day count gives back that count |
| PyText.NatToDecimal | email_sender.py:241 | a day count is written as ASCII digits with no leading zero |
| PyText.SubstringOfConcatenation | main.py:181-183 | a string is found by `in` inside any string that contains it |
| PyText.IntToDecimal | main.py:302-303 | `str()` of an integer is non-empty, all digits, with a leading `-` for negatives |
| PyText.AsciiUpper | control_panel.py:44 | upper-casing keeps the length and maps each character on its own |
| JsonValues.GetOr | main.py:148 | `dict.get` with a default gives the stored value when the key is present and the default otherwise |
| JsonValues.Number | main.py:164 | a value counts as a number exactly when it is an int, a float or a bool |
| JsonValues.PyInt | main.py:168 | a value is an int exactly when it is an int or a bool, and it then agrees with its numeric reading |
| JsonValues.PyLen | bilibili_checker.py:246 | `len` is defined on strings, lists and dicts only, and is positive exactly when the value is truthy |
| JsonValues.PyIn | main.py:181-183 | `key in v` raises exactly when `v` has no length; it tests keys of a mapping, substrings of a string and elements of a list |
| JsonValues.PyStr | main.py:302-303 | `str()` gives a string back unchanged and writes an int in decimal |
| JsonValues.PyStrOfNonString | main.py:157 | `str()` of anything that is not a string is never blank, and looks like digits only when it is an int |
| JsonValues.BlankOnlyForStrings | main.py:157 | `str(v).strip()` is empty exactly when `v` is a string made only of whitespace |
| Retry.Loop | bilibili_checker.py:119-189 | the loop makes at most the budgeted attempts; it sleeps `2 ** attempt` after every transient failure except the last; it stops at the first success or terminal failure; all attempts before the last one failed transiently |
| Retry.AttemptSucceedsIff | bilibili_checker.py:119-189 | the loop answers `v` exactly when some attempt within the budget returns `v` and every earlier attempt failed transiently |
| Retry.FirstDecisiveAttempt | bilibili_checker.py:152-153 | the first non-transient attempt `k` ends the loop: `k+1` attempts, `k` sleeps, and that attempt's answer |
| Retry.AllTransientExhaustsBudget | bilibili_checker.py:159-189 | when only transient failures come back, the whole budget is used, with one sleep between consecutive attempts |
| Sorting.SortBy | database.py:408 | the result is ordered by the key and is a permutation of the input |
| Sorting.Insert | database.py:408 | inserting into an ordered sequence keeps it ordered and adds exactly the one element |
| Sorting.SortIgnoresOrder | time_sync.py:68 | two arrangements of the same samples sort to the same sequence |
| Sorting.SortedIsUnique | time_sync.py:68 | two ordered arrangements of the same samples are equal, so the median of the sorted samples is well defined |
| BilibiliChecker.CanonicalUid | bilibili_checker.py:112-116 | a valid UID is used stripped, and the stripped UID is still valid |
| BilibiliChecker.ClassifyProfileReply | bilibili_checker.py:131-189 | a failed request or a reply that is not a dict is retried; a `-404`/`-400` code, or code 0 with empty `data`, ends the loop with no profile; a success is code 0 with a non-empty dict `data`, which is the profile |
| BilibiliChecker.ClassifyFeedReply | bilibili_checker.py:236-290 | a failed request or a reply that is not a dict is retried; the loop ends with no feed exactly on a `-404`/`-400` code; a success is code 0, and the feed's count is the length of its items |
| BilibiliChecker.GetUserInfo | bilibili_checker.py:98-189 | an invalid UID fails before any request; otherwise at most `retry_times` attempts, and the `k`-th sleep lasts `2 ** k` seconds; a returned profile is always a non-empty dict |
| BilibiliChecker.EffectivePageSize | bilibili_checker.py:210-212 | the page size sent is always in 1..20; an in-range request is kept and anything else becomes 5 |
| BilibiliChecker.GetUserDynamics | bilibili_checker.py:191-290 | the request carries the stripped UID, the clamped page size and an empty offset; at most `retry_times` attempts, and the `k`-th sleep lasts `2 ** k` seconds; a returned feed's count is the length of its items |
| BilibiliChecker.RequestedPageSizeIsAccepted | bilibili_checker.py:216-220 | whatever page size the caller asks for, the request sent lies in the range the API accepts |
| BilibiliChecker.ChainTimestamp | bilibili_checker.py:351-369 | the author `pub_ts` wins when truthy, then the original post's `pub_ts`, then the `extend_json` timestamp |
| BilibiliChecker.ChainFindsAnyTruthySource | bilibili_checker.py:351-369 | the chain finds a timestamp exactly when at least one of the three sources holds a truthy one |
| BilibiliChecker.Normalise | bilibili_checker.py:377-379 | values above 10^10 are read as milliseconds and divided by 1000; others are kept as seconds |
| BilibiliChecker.RawTime | bilibili_checker.py:346-369 | an item yields a raw time only when it is a dict whose timestamp is a non-zero number, and that time is the chain's timestamp |
| BilibiliChecker.ItemTime | bilibili_checker.py:345-385 | an item is dated exactly when its normalised time is representable as a `datetime`; it aborts the scan exactly when the time exceeds `time_t`; every other item is skipped |
| BilibiliChecker.FirstDecisive | bilibili_checker.py:345-385 | the scan stops at the first item that is not skipped, and every item before it was skipped |
| BilibiliChecker.FirstActivityTime | bilibili_checker.py:345-385 | the feed's activity time is the first dated item's time; a time beyond `time_t` ends the check; a feed of skipped items yields none |
| BilibiliChecker.ProfileRejection | bilibili_checker.py:320-328 | the account is rejected exactly when there is no profile dict or its `face` is missing or null |
| BilibiliChecker.CheckUserActivity | bilibili_checker.py:292-408 | an invalid UID raises; both request loops stay within `retry_times`; an inactive verdict never carries a time; an inactive verdict after a feed request is the `time_t` overflow |
| BilibiliChecker.Verdict | bilibili_checker.py:320-401 | a rejected profile means inactive with no feed request; otherwise the feed decides, as for an existing account; an inactive verdict never carries a time |
| BilibiliChecker.ExistingAccount | bilibili_checker.py:331-401 | an existing account is active unless the feed scan hit a time beyond `time_t`; its last activity is known exactly when the scan found a dated item, and is that item's time |
| BilibiliChecker.InactiveDays | bilibili_checker.py:410-449 | no time gives -1; a time in the future gives 0; otherwise the result is the whole days elapsed |
| BilibiliChecker.InactiveDaysMonotone | bilibili_checker.py:437-443 | a later clock never reports fewer inactive days |
| BilibiliChecker.ActiveIffProfileHasFace | bilibili_checker.py:320-331 | for a valid UID, the account is active exactly when the profile request returned a dict with a non-null `face` and the feed scan did not overflow |
| BilibiliChecker.VerdictOfValidUid | bilibili_checker.py:313-401 | for a valid UID, the check runs the profile loop on the stripped UID and decides from its answer |
| BilibiliChecker.ActiveTimeComesFromFeed | bilibili_checker.py:340-401 | an active account's last activity is the first dated item of the fetched, non-empty feed, and unknown when there is no such item |
| BilibiliChecker.NotFoundIsNotRetried | bilibili_checker.py:152-153 | a `-404`/`-400` answer ends the profile loop after one attempt with no profile |
| BilibiliChecker.ProfileSurvivesTransientFailures | bilibili_checker.py:159-189 | a profile that arrives after `k` transient failures within the budget is found, after `k+1` attempts and `k` sleeps |
| BilibiliChecker.NonNumericTimestampSkipsItem | bilibili_checker.py:377-385 | an item whose timestamp is truthy but not a number is skipped, not fatal |
| BilibiliChecker.OutOfRangeTimestampEndsScan | bilibili_checker.py:380-385 | a first item whose time exceeds `time_t` ends the scan as a failed check, whatever follows |
| BilibiliChecker.MillisecondsAndSecondsAgree | bilibili_checker.py:377-379 | the same instant given in milliseconds or in seconds normalises to the same time |
| BilibiliChecker.DigitsAreCanonicalUid | bilibili_checker.py:112-116 | a UID of digits is valid and already in canonical form |
| BilibiliChecker.FirstAnswersSettleActivity | bilibili_checker.py:292-401 | when the first profile and feed answers are good, the account is active at the feed's first time after one attempt each |
| BilibiliChecker.ActiveAccountVerdict | bilibili_checker.py:292-401 | a worked example: a profile with a face and one feed item at 1600000000 give an active verdict at that time |
| BilibiliChecker.TenDaysInactive | bilibili_checker.py:443 | ten days and an hour of silence count as ten days |
| TimeSync.RequestPacket | time_sync.py:22 | the request is one 48-byte NTP header |
| TimeSync.RequestIsVersion3Client | time_sync.py:22 | the request's first byte says no leap warning, version 3, client mode, and every other byte is zero |
| TimeSync.Received | time_sync.py:24 | `recvfrom(48)` keeps the first 48 bytes of a datagram, or all of a shorter one |
| TimeSync.WordAt | time_sync.py:30 | a big-endian 32-bit word of the reply is an unsigned value below 2^32 |
| TimeSync.EncodeReply | time_sync.py:27-32 | the server reply that the round trip decodes is a 48-byte version-4 server packet |
| TimeSync.DecodeReply | time_sync.py:27-32 | fewer than 48 bytes is an error; otherwise the transmit seconds are moved from the 1900 epoch to the Unix epoch |
| TimeSync.QueryNtp | time_sync.py:20-32 | no answer is an error; a datagram fails exactly when it is shorter than 48 bytes |
| TimeSync.DecodeEncode | time_sync.py:27-32 | decoding a reply carrying `t` in its transmit timestamp gives back `t` |
| TimeSync.BigEndianRoundTrip | time_sync.py:30 | reading four bytes back as a big-endian word gives back the word |
| TimeSync.Successes | time_sync.py:57-63 | no more samples than servers |
| TimeSync.SuccessesAreTheUsableAnswers | time_sync.py:57-63 | every sample is some server's usable answer, and when all servers answer there is one sample per server |
| TimeSync.FailedServerIsSkipped | time_sync.py:62-63 | a failing server contributes nothing and the servers after it are still asked |
| TimeSync.MedianIsBetweenSamples | time_sync.py:68 | the median lies between the smallest and the largest sample |
| TimeSync.MedianIgnoresOrder | time_sync.py:68 | the median does not depend on the order in which servers answered |
| TimeSync.MedianOfSorted | time_sync.py:68 | for ordered samples the median is the middle sample, or the mean of the two middle ones |
| TimeSync.MedianResistsOneOutlier | time_sync.py:68 | with three answers, one wild clock cannot move the median off the middle one |
| TimeSync.TrustedTime | time_sync.py:35-73 | a time is trusted exactly when enough servers answered and their median is within the skew of the local clock; it is then that median; too few answers is reported as such |
| TimeSync.Gate | time_sync.py:65-73 | the quorum is checked before the skew, and an empty sample list with a zero quorum is the median's own error |
| TimeSync.TrustedTimeIsNearLocalClock | time_sync.py:69-71 | any trusted time is within the allowed skew of the local clock |
| TimeSync.QuorumComesFirst | time_sync.py:65-66 | with fewer answers than the quorum the gate refuses, whatever the answers say |
| Database.SaveCheckRecord | database.py:211-270 | a write fails exactly for an empty key, an off-line store or a day count the table's CHECK refuses; on success exactly one row with stripped keys is appended to the checks table |
| Database.SaveNotificationRecord | database.py:272-324 | a write fails exactly for an empty key, negative days or an off-line store; on success exactly one row is appended to the notifications table |
| Database.LatestAmong | database.py:350-355 | the result is a row of the target with the greatest check time, or none when the target has no rows |
| Database.LatestCheckRecord | database.py:326-370 | the latest check row of the target, or nothing for an empty key, an off-line store or a target with no rows |
| Database.EffectiveHours | database.py:394-396 | a negative window falls back to 24 hours |
| Database.NotificationsSince | database.py:404-413 | exactly the target's rows at or after the cutoff, each as often as it is stored |
| Database.RecentNotifications | database.py:372-424 | an empty key or an off-line store gives no rows; otherwise exactly the target's rows in the window, newest first |
| Database.NewestFirstOrder | database.py:408 | the same rows, newest first |
| Database.SavedCheckIsLatest | database.py:211-370 | a check saved later than every earlier check of its target is what the next latest-check query returns |
| Database.SavedNotificationIsRecent | database.py:272-424 | a notification just saved appears in the recent notifications of its target |
| Database.WritesTouchOnlyTheirTable | database.py:211-324 | saving a check leaves the notifications table alone, and saving a notification leaves the checks table alone |
| EmailSender.NewSender | email_sender.py:34-76 | construction fails, in the order written, for an empty server, a port outside 1..65535, an address without `@` or an empty password; on success the addresses are stripped and the other settings kept |
| EmailSender.RebuildingSenderIsIdentity | email_sender.py:56-71 | building a sender again from a built sender's settings gives back the same sender, whenever its server did not strip to nothing |
| EmailSender.BlankServerIsAccepted | email_sender.py:56-67 | a server name made only of whitespace passes the check and is stored as the empty string |
| EmailSender.TransportFor | email_sender.py:153-162 | direct SSL is used exactly when SSL is requested or the port is 465 |
| EmailSender.ClassifySmtp | email_sender.py:175-205 | a delivery succeeds; an authentication failure or a refused recipient ends the loop; a disconnect, another SMTP error or any other exception is retried |
| EmailSender.SendEmail | email_sender.py:109-207 | an empty subject or body sends nothing; at most `max_retries` connections, each over the chosen transport; the `k`-th sleep lasts `2 ** k` seconds; a sent mail means the last attempt delivered |
| EmailSender.SentIff | email_sender.py:134-207 | the mail is sent exactly when some attempt within the budget delivers and every earlier attempt failed in a retryable way |
| EmailSender.TerminalFailureIsNotRetried | email_sender.py:175-182 | an authentication failure or a refused recipient ends the loop at once, unsent |
| EmailSender.RetryableFailuresExhaustBudget | email_sender.py:183-205 | disconnects, other SMTP errors and other exceptions are retried until the budget is used up |
| EmailSender.NotificationSubject | email_sender.py:229 | the subject is never empty |
| EmailSender.SubjectFramesTarget | email_sender.py:229 | the subject starts with the prefix and the marker, and ends with the QQ number in parentheses |
| EmailSender.LastActiveLine | email_sender.py:244-247 | a known time is rendered by `strftime`, an unknown one as "无法确定" |
| EmailSender.LastActiveLineNamesTime | email_sender.py:244-247 | the line is the label followed by either the rendered time or the unknown marker |
| EmailSender.KnownTimeNeverReadsUnknown | email_sender.py:244-247 | a known time is never rendered like an unknown one, unless `strftime` itself prints the marker |
| EmailSender.NotificationBody | email_sender.py:232-258 | the plain-text body is never empty |
| EmailSender.JoinLines | email_sender.py:258 | joining two or more lines gives a non-empty text |
| EmailSender.SendNotificationEmail | email_sender.py:209-308 | an alert always makes at least one attempt when the budget allows one, and never more than the budget |
| EmailSender.FirstDeliveryIsSent | email_sender.py:209-308 | when the first attempt delivers, the alert is sent after one attempt |
| Config.FirstMissing | main.py:142-145 | names a required key that is absent, or none when all are present |
| Config.CheckTargetsFrom | main.py:152-158 | the targets from position `i` on pass exactly when each is a dict with non-blank `qq_number` and `bilibili_uid` |
| Config.CheckTargets | main.py:148-158 | the targets pass exactly when they form a non-empty list of valid targets; a non-list or empty list is "no targets" |
| Config.CheckSchedule | main.py:161-169 | the schedule passes exactly when the interval is a positive number and the threshold a non-negative int (bools count) |
| Config.CheckEmail | main.py:172-178 | the e-mail section passes exactly when the five keys are present and the port is a positive int |
| Config.CheckDatabase | main.py:181-183 | the database section passes exactly when `'path' in` it holds: a key of a mapping, a substring of a string, an element of a list; any other value makes `in` raise and is refused |
| Config.DatabaseIsOnlySearchedForPath | main.py:181-183 | a valid configuration stays valid when its database section is replaced by any string containing `path`, or by the list `["path"]` |
| Config.ScalarDatabaseRefused | main.py:181-183 | a database section that is `null`, a bool or a number is refused |
| Config.CheckPanel | main.py:186-192 | the panel section passes exactly when `enabled` is a bool if given and HTTPS comes with both files |
| Config.CheckTimeSync | main.py:195-203 | the time-sync section passes exactly when it is falsy, or a mapping whose servers are strings and whose skew and quorum, when given, are positive numbers |
| Config.CheckPresentSections | main.py:147-203 | once the sections are present, the checks pass exactly when the configuration is valid, with the database section tested by `in` as the program does; a bad target list is reported first |
| Config.ValidateConfig | main.py:134-205 | a configuration is accepted exactly when it is valid; a missing section is named; bad targets are reported before anything else |
| Config.EmptyTargetsRefused | main.py:149-150 | an empty target list is refused as "no targets" |
| Config.BooleanThresholdAccepted | main.py:168 | `true` passes as a threshold, because a bool is an int |
| Config.UnknownSectionsIgnored | main.py:141-205 | adding or changing a section the validator does not read never changes its verdict |
| Config.TimeSyncAsWritten | main.py:368-371 | the section is read only when it is a mapping; any other value (`null`, a list) raises |
| Config.EmptyTimeSyncSectionCrashesAsWritten | main.py:195-196 | `time_sync: null` still passes validation but cannot be read on the alert path |
| Config.TimeSyncSettingsOf | main.py:368-371 | limits are positive; a mapping reads as written and an empty section reads as the defaults 2.0 and 2 |
| Config.SettingsOf | main.py:358-398 | the threshold is the configured one; time-sync limits are positive; `notify_retries` is read, defaulting to 3 |
| Config.SettingsAsWritten | main.py:358-398 | the section is unreadable exactly when it is present and not a mapping; otherwise the settings are the intended ones |
| Monitor.KeyOf | main.py:302-303 | a missing key reads as the empty string |
| Monitor.TargetOf | main.py:298-308 | a target is usable exactly when it is a dict with non-blank stripped keys; the name defaults to `QQ_` plus the QQ number |
| Monitor.ValidatedTargetsAreChecked | main.py:152-158 | a target passes validation exactly when `check_target` accepts its keys |
| Monitor.HistoryTime | main.py:322-327 | the fallback time is the last activity stored in the target's newest check row, read only from an on-line store; with no row for the target there is none |
| Monitor.HistoryIsNewestSavedTime | main.py:322-327 | after a check row is saved with a time no earlier than the target's other rows, the fallback reads that row's stored time |
| Monitor.ResolveDays | main.py:316-339 | days are -1 exactly when neither the detector nor the history knows a time; the detector's time wins, and the history is noted |
| Monitor.DetectorTimeOverridesHistory | main.py:318-319 | when the detector knows a time, the stored history makes no difference |
| Monitor.DaysNeverDecrease | main.py:316-339 | a later clock never lowers the inactive days |
| Monitor.RecordCheck | main.py:342-355 | an on-line store gains exactly this check row, and a failed write leaves the store as it was |
| Monitor.NotifySleep | main.py:413 | every back-off sleep lasts 1 to 30 seconds |
| Monitor.NotifyLoop | main.py:397-414 | the alert is sent exactly when some call within the budget succeeds; a sleep follows every failure, the last one included |
| Monitor.Deliver | main.py:396-432 | the alert is notified exactly when some call within the budget sends; otherwise the whole budget is spent; a notification row is written only after a send |
| Monitor.TimeGated | main.py:367-382 | the check fails exactly when the time-sync section cannot be read or the median has no samples; mail is sent only on a trusted clock and within `notify_retries` calls |
| Monitor.Alert | main.py:362-434 | a notification in the last 24 hours suppresses the alert; otherwise the time gate decides, and any send needs a trusted clock |
| Monitor.Decide | main.py:316-441 | days are -1 exactly when no time is known; a target below the threshold is not alerted; any send needs an eligible target, no recent notification and a trusted clock; the check row is recorded first |
| Monitor.CheckKeys | main.py:310-448 | only an invalid UID or a crashed time gate fails the check; an invalid UID changes nothing; notifications only grow by an alert |
| Monitor.CheckTarget | main.py:278-448 | an unusable target fails without touching anything; otherwise only an invalid UID or a crashed time gate fails the check |
| Monitor.HistoryBridgesOneUnknownCheck | main.py:320-339 | a check that finds no time falls back to the stored time and counts days from it, but the row it saves holds no time, so a second such check finds no history and reports -1 days |
| Monitor.NoSecondAlertWithinADay | main.py:362-366 | once an alert is sent, no second alert goes out for that target within 24 hours |
| Monitor.UnknownDaysNeverAlert | main.py:360 | a target with unknown days is never alerted |
| Monitor.UnknownDaysStoredAsZero | main.py:350 | unknown days are stored as 0 in the check row |
| Monitor.UnreadableTimeSyncFailsAlertingCheck | main.py:368-369 | with `time_sync` present but not a mapping, an alert-worthy check fails with no mail sent; the intended reading alerts |
| Monitor.ValidConfigTargetsAreChecked | main.py:148-158 | every target of a valid configuration passes `check_target`'s key checks, and the time gate of its settings does not crash, for the finite numbers the model has |
| Monitor.CheckedTargetFailsOnlyOnUid | main.py:298-448 | for a usable target with a readable gate, the check fails exactly when the detector rejects the UID |
| Monitor.TenDayOldTargetIsAlertedOnce | main.py:358-428 | ten days of silence with a threshold of 7, a trusted clock and a first send that delivers give one alert and one notification row |
| ControlPanel.Dispatch | control_panel.py:42-68 | `/health` is anonymous; other paths need the token; 200 for the four routes; 404 for an authorised unknown route; 500 when a payload cannot be built |
| ControlPanel.IsAuthorized | control_panel.py:70-78 | with no token configured every request passes; otherwise a passing header starts with `Bearer `, and only a token without whitespace at either end can ever pass |
| ControlPanel.AuthorizedHeaderCarriesToken | control_panel.py:70-78 | a header that passes against a configured token is `Bearer `, then whitespace, the token itself, then whitespace |
| ControlPanel.EmptyTokenAdmitsAll | control_panel.py:71-72 | with no token configured, every request is authorised |
| ControlPanel.LowercaseSchemeIsRefused | control_panel.py:74-75 | the `Bearer ` prefix is case-sensitive |
| ControlPanel.PaddingAroundTokenIsIgnored | control_panel.py:76-77 | whitespace around the presented token is ignored |
| ControlPanel.PaddedTokenLocksPanel | control_panel.py:33-77 | a configured token with whitespace at either end can never be matched |
| ControlPanel.MethodIsCaseInsensitive | control_panel.py:44 | `post` runs a cycle just as `POST` does |
| ControlPanel.ConfigPayload | control_panel.py:101-110 | the config view has exactly four keys and is built only when both sections are mappings |
| ControlPanel.PasswordNeverRevealed | control_panel.py:101-110 | changing the SMTP password never changes the config view |
| ControlPanel.Start | control_panel.py:113-133 | a running panel is left alone; otherwise it starts exactly when the bind works and, with HTTPS, both files are named and wrapping the socket in TLS works; a failed bind is reported before the HTTPS checks |
| ControlPanel.Stop | control_panel.py:135-142 | after stopping, the panel is not serving |
| ControlPanel.StartStopIdempotent | control_panel.py:113-142 | starting twice is starting once, and stopping twice is stopping once |
| ControlPanel.ServingIffOpenedSinceLastStop | control_panel.py:113-142 | after any sequence of starts and stops, the panel serves exactly when a successful start happened after the last stop, or it was serving and nothing stopped it |

The lemmas `BilibiliChecker.ExampleUidIsValid`, `ExampleProfileIsFound`, `ExampleFeedIsFetched` and `ExampleItemTime` have no rows of their own. They are the steps of the worked example `BilibiliChecker.ActiveAccountVerdict`, kept apart so that each literal is unfolded on its own.

## Findings

| source | as written | input that shows it | evidently intended | confidence | as-written member | corrected member |
|---|---|---|---|---|---|---|
| main.py:195-196, main.py:368-371 | validation skips a falsy `time_sync` section, but the alert path calls `.get` on it; a non-mapping value raises `AttributeError`, `check_target` catches it at line 446 and returns `False`, and no alert is ever sent | `time_sync: null` (or `[]`) with a target past its threshold | a missing or empty section reads as the defaults (2.0 seconds skew, 2 servers) | not executed | Config.TimeSyncAsWritten, Config.EmptyTimeSyncSectionCrashesAsWritten, Config.SettingsAsWritten, Monitor.UnreadableTimeSyncFailsAlertingCheck | Config.TimeSyncSettingsOf, Config.SettingsOf |

## Left out

- I/O is abstract: HTTP, SMTP, NTP sockets, SQLite, files and threads are sequences of outcomes or the `online` flag; timeouts only appear as "no usable answer".
- The urllib3 adapter's own retries under each `requests` call (bilibili_checker.py:55-70) are not modelled; each modelled attempt is the outcome after those retries.
- Logging, the HTML body, MIME assembly, the JSON dump at the end of the alert body and `json.dumps` of panel payloads are left out; they are output only.
- `run_check_cycle`, the scheduler loop, signal handling, `health_check`, configuration loading and the environment overrides in `main.py` are outside this core; the panel's health probe and cycle run are boolean inputs and flags.
- `/status` fields that read the monitor's clock attributes (`start_time` and the cycle times) are not modelled; only the target count and the threshold lookup, which can fail, are.
- Local-time and daylight-saving arithmetic of `datetime.now()`, `fromtimestamp` and `fromisoformat` is replaced by Unix-second differences. There is one clock reading per check, where the program reads the clock several times.
- Microsecond rounding of `datetime` and the ISO-string storage of times are not modelled; stored times compare as instants.
- PyText.IsDigitString: accepts ASCII digits only, where Python's `str.isdigit` also accepts other Unicode digits such as "²" or Arabic-Indic digits, so `BilibiliChecker.ValidUid`, which `Monitor.CheckTarget` reaches through the detector, refuses some UIDs the program accepts; Unicode digit classes are outside the model.
- PyText.AsciiUpper: upper-cases ASCII letters only, standing in for Unicode `str.upper`; only the HTTP method is upper-cased, and methods are ASCII.
- JsonValues.PyStr: renders every float, list and dict as a fixed placeholder text, so two distinct float QQ numbers or UIDs map to the same key; Python's float formatting is outside the model.
- Config.ValidateConfig: a `check_config`, `email`, `control_panel` or `time_sync` section that is present, truthy where the program tests truthiness, and not a mapping is refused as malformed, where the program raises a `TypeError`, an `AttributeError` or a "missing key" `ValueError`; the verdict is the same and only the error kind differs. The `database` section is not in this list: it is tested with `in`, which a string or a list can pass.
- JsonValues.Json: a float is a `real`, so the NaN and infinities that YAML writes as `.nan`, `.inf` and `-.inf` are not modelled. Every comparison with NaN is false in Python, and the lines below depend on that.
- Config.ValidTimeSync: accepts `min_success` and `max_skew_sec` only as finite numbers. The program also accepts `.nan` for either, because `nan <= 0` is false at main.py:200-203. With `min_success: .nan`, the quorum test at time_sync.py:65 never refuses, and `median([])` raises when no server answers. With `max_skew_sec: .nan`, the skew test at time_sync.py:70 never refuses, so the skew check is off.
- Monitor.ValidConfigTargetsAreChecked: its promise that the time gate of a valid configuration never crashes holds for finite numbers only. With `min_success: .nan` and no NTP answer, the program's gate raises and `check_target` returns `False`.
- Float comparisons such as `max_skew_sec <= 0` on a non-numeric value, which raise `TypeError` in the program, are treated as failed checks.
- `datetime.fromtimestamp` limits use the UTC year range 1..9999 and a signed 64-bit `time_t`; platform-specific limits are not modelled.
- ControlPanel.Start: the bind and the TLS wrap are boolean inputs, so why they fail is not modelled. `ssl.wrap_socket` fails on unreadable certificate or key files, and it no longer exists from Python 3.12, where every HTTPS start fails; that case is `wrapOk = false`.
- ControlPanel.Dispatch: a `/run_once` cycle is assumed to return; an exception escaping `run_check_cycle`, which the program turns into a 500, is not modelled.

=== FILE: base.dfy ===
/** Small shared vocabulary: optional values, results, time and powers of two. */
module Base {

  /** The conventional Some/None datatype, standing in for Python's `Optional`. */
  datatype Option<+T> = None | Some(value: T)

  /** A value or an error: the model's stand-in for a Python function that may raise. */
  datatype Result<+T, +E> = Ok(value: T) | Err(error: E)

  /** A point in time, in seconds since the Unix epoch (Python float timestamps). */
  type Time = real

  const SecondsPerHour: int := 3600
  const SecondsPerDay: int := 86400

  /** 2 to the power `n`: the exponential backoff schedule `2 ** attempt`. */
  function Pow2(n: nat): (r: nat)
    ensures r >= 1
  {
    if n == 0 then 1 else 2 * Pow2(n - 1)
  }

  function Min(a: int, b: int): int
  {
    if a <= b then a else b
  }

  function Max(a: int, b: int): int
  {
    if a >= b then a else b
  }

  function Abs(x: real): (r: real)
    ensures r >= 0.0
    ensures r == x || r == -x
  {
    if x < 0.0 then -x else x
  }
}

=== FILE: bilibili_checker.dfy ===
/**
 * The activity detector: fetches a Bilibili account's profile and recent
 * feed through bounded retries and works out when the account was last
 * active.
 *
 * Every HTTP GET is an abstract outcome; `json.loads` of a feed item's
 * `extend_json` text is the parameter `decode`, and the `strftime` rendering
 * of a time is the parameter `fmt`.
 */
module BilibiliChecker {
  import opened Base
  import opened PyText
  import opened JsonValues
  import opened Retry

  /** How one HTTP GET ended, as the `requests` session reports it. */
  datatype HttpOutcome =
    | TimedOut            // requests.exceptions.Timeout
    | RequestFailed       // any other RequestException, a non-2xx status included
    | UndecodableBody     // response.json() raised
    | Reply(doc: Json)    // the decoded body

  /** What `get_user_dynamics` returns: the raw `items` value and its `len`. */
  datatype Feed = Feed(items: Json, count: nat)

  /** The query parameters of the feed request. */
  datatype FeedRequest = FeedRequest(hostMid: string, pageSize: int, offset: string)

  datatype FeedFetch = FeedFetch(request: FeedRequest, run: Run<Feed>)

  /** The `ValueError` raised for a malformed UID. */
  datatype UidError = InvalidUid(uid: string)

  /** The detector's verdict `(is_active, last_active_time, status_info)`. */
  datatype Activity = Activity(isActive: bool, lastActive: Option<Time>, note: string)

  /** The verdict together with the number of profile and feed requests made. */
  datatype Detection = Detection(activity: Activity, profileAttempts: nat, feedAttempts: nat)

  const DefaultRetryTimes: int := 3
  const DefaultPageSize: int := 5
  const MaxPageSize: int := 20
  /** Raw timestamps above this are taken to be in milliseconds. */
  const MillisecondThreshold: real := 10000000000.0
  /** `datetime.fromtimestamp` accepts timestamps from 0001-01-01 up to (excluding) 10000-01-01 (UTC). */
  const MinDatetimeTimestamp: real := -62135596800.0
  const DatetimeLimitTimestamp: real := 253402300800.0
  /** 2^63: a 64-bit `time_t` holds the whole seconds from -2^63 up to (excluding) 2^63. */
  const TimeTLimit: real := 9223372036854775808.0

  const ProfileMissingNote: string := "无法获取用户信息，可能账号不存在或已注销"
  const DeactivatedNote: string := "账号可能已注销"
  const CheckErrorPrefix: string := "检查过程发生错误: "
  const UsernameNote: string := "用户名: "
  const UnknownName: string := "未知"
  const LatestFeedNote: string := ", 最新动态时间: "
  const UnparsedFeedNote: string := ", 无法解析动态时间"
  const NoFeedNote: string := ", 无法获取动态信息（可能用户未发布动态或动态被隐藏）"
  const UnknownLastActiveNote: string := ", 无法确定最后活动时间"
  /** The catch-all's note for the `OverflowError` of an out-of-range timestamp. */
  const OverflowNote: string := CheckErrorPrefix + "timestamp out of range for platform time_t"

  /** `uid and str(uid).strip().isdigit()`. */
  predicate ValidUid(uid: string)
  {
    uid != "" && IsDigitString(Strip(uid))
  }

  /** The UID the requests carry: `str(uid).strip()`, itself valid. */
  function CanonicalUid(uid: string): (u: string)
    requires ValidUid(uid)
    ensures u == Strip(uid)
    ensures ValidUid(u)
  {
    StripIdempotent(uid);
    Strip(uid)
  }

  /** The API codes meaning "no such user" or "account cancelled": answered at once, never retried. */
  predicate IsNotFoundCode(code: Json)
  {
    EqualsInt(code, -404) || EqualsInt(code, -400)
  }

  /**
   * One profile request's outcome, as `get_user_info`'s loop body treats it.
   * A truthy `data` that is not a dict makes the debug line's
   * `user_info.get('name', ...)` raise; the catch-all retries the request.
   */
  function ClassifyProfileReply(o: HttpOutcome): (r: Step<Json>)
    ensures !(o.Reply? && o.doc.JObject?) ==> r.Transient?
    ensures o.Reply? && o.doc.JObject? && IsNotFoundCode(GetOr(o.doc.fields, "code", JNull)) ==> r.GiveUp?
    ensures r.Succeed? ==>
      && o.Reply? && o.doc.JObject? && EqualsInt(GetOr(o.doc.fields, "code", JNull), 0)
      && r.value == GetOr(o.doc.fields, "data", EmptyObject) && r.value.JObject? && Truthy(r.value)
    ensures r.GiveUp? <==>
      && o.Reply? && o.doc.JObject?
      && (|| IsNotFoundCode(GetOr(o.doc.fields, "code", JNull))
          || (EqualsInt(GetOr(o.doc.fields, "code", JNull), 0) && !Truthy(GetOr(o.doc.fields, "data", EmptyObject))))
  {
    match o
    case Reply(JObject(doc)) =>
      var code := GetOr(doc, "code", JNull);
      if EqualsInt(code, 0) then
        var info := GetOr(doc, "data", EmptyObject);
        if !Truthy(info) then GiveUp
        else if info.JObject? then Succeed(info)
        else Transient
      else if IsNotFoundCode(code) then GiveUp
      else Transient
    case _ => Transient
  }

  /** One feed request's outcome, as `get_user_dynamics`'s loop body treats it. */
  function ClassifyFeedReply(o: HttpOutcome): (r: Step<Feed>)
    ensures !(o.Reply? && o.doc.JObject?) ==> r.Transient?
    ensures r.GiveUp? <==> o.Reply? && o.doc.JObject? && IsNotFoundCode(GetOr(o.doc.fields, "code", JNull))
    ensures r.Succeed? ==>
      && o.Reply? && o.doc.JObject? && EqualsInt(GetOr(o.doc.fields, "code", JNull), 0)
      && PyLen(r.value.items) == Some(r.value.count)
  {
    match o
    case Reply(JObject(doc)) =>
      var code := GetOr(doc, "code", JNull);
      if EqualsInt(code, 0) then
        match GetOr(doc, "data", EmptyObject)
        case JObject(data) =>
          var items := GetOr(data, "items", JArray([]));
          (match PyLen(items)
           case Some(n) => Succeed(Feed(items, n))
           case None => Transient)
        case _ => Transient
      else if IsNotFoundCode(code) then GiveUp
      else Transient
    case _ => Transient
  }

  /** `get_user_info`: validate the UID, then up to `retryTimes` profile requests. */
  function GetUserInfo(uid: string, replies: seq<HttpOutcome>, retryTimes: int): (r: Result<Run<Json>, UidError>)
    ensures r.Err? <==> !ValidUid(uid)
    ensures r.Ok? ==> r.value.attempts <= Max(retryTimes, 0)
    ensures r.Ok? ==> (r.value.attempts == 0 <==> retryTimes <= 0)
    ensures r.Ok? && r.value.result.Some? ==> r.value.result.value.JObject? && Truthy(r.value.result.value)
    ensures r.Ok? ==> forall k | 0 <= k < |r.value.sleeps| :: r.value.sleeps[k] == Pow2(k)
  {
    if !ValidUid(uid) then Err(InvalidUid(uid))
    else
      var run := Attempt(replies, ClassifyProfileReply, retryTimes);
      assert run.result.Some? ==> StepAt(replies, ClassifyProfileReply, run.attempts - 1) == Succeed(run.result.value);
      Ok(run)
  }

  /** The page size actually requested: a value outside 1..20 is replaced by 5. */
  function EffectivePageSize(pageSize: int): (n: int)
    ensures 1 <= n <= MaxPageSize
    ensures 1 <= pageSize <= MaxPageSize ==> n == pageSize
    ensures !(1 <= pageSize <= MaxPageSize) ==> n == DefaultPageSize
  {
    if pageSize < 1 || pageSize > MaxPageSize then DefaultPageSize else pageSize
  }

  /** `get_user_dynamics`: validate the UID, clamp the page size, then up to `retryTimes` feed requests. */
  function GetUserDynamics(uid: string, pageSize: int, replies: seq<HttpOutcome>, retryTimes: int): (r: Result<FeedFetch, UidError>)
    ensures r.Err? <==> !ValidUid(uid)
    ensures r.Ok? ==> r.value.request == FeedRequest(Strip(uid), EffectivePageSize(pageSize), "")
    ensures r.Ok? ==> r.value.run.attempts <= Max(retryTimes, 0)
    ensures r.Ok? && r.value.run.result.Some? ==> Some(r.value.run.result.value.count) == PyLen(r.value.run.result.value.items)
    ensures r.Ok? ==> forall k | 0 <= k < |r.value.run.sleeps| :: r.value.run.sleeps[k] == Pow2(k)
  {
    if !ValidUid(uid) then Err(InvalidUid(uid))
    else
      var run := Attempt(replies, ClassifyFeedReply, retryTimes);
      assert run.result.Some? ==> StepAt(replies, ClassifyFeedReply, run.attempts - 1) == Succeed(run.result.value);
      Ok(FeedFetch(FeedRequest(Strip(uid), EffectivePageSize(pageSize), ""), run))
  }

  /** Whatever page size the caller asks for, the feed request carries one the API accepts, which clamping again keeps. */
  lemma RequestedPageSizeIsAccepted(uid: string, pageSize: int, replies: seq<HttpOutcome>, retryTimes: int)
    ensures var r := GetUserDynamics(uid, pageSize, replies, retryTimes);
      r.Ok? ==> var n := r.value.request.pageSize; 1 <= n <= MaxPageSize && EffectivePageSize(n) == n
  {
  }

  /** Timestamp source 1: `modules.module_author.pub_ts`, when both levels are dicts. */
  function AuthorPubTs(item: map<string, Json>): Json
  {
    match GetOr(item, "modules", EmptyObject)
    case JObject(modules) =>
      (match GetOr(modules, "module_author", EmptyObject)
       case JObject(author) => GetOr(author, "pub_ts", JNull)
       case _ => JNull)
    case _ => JNull
  }

  /** Timestamp source 2: the item's own `pub_ts`. */
  function RootPubTs(item: map<string, Json>): Json
  {
    GetOr(item, "pub_ts", JNull)
  }

  /** Timestamp source 3: `pub_ts or timestamp` inside the JSON text held in `extend_json`. */
  function ExtendJsonTs(item: map<string, Json>, decode: string -> Option<Json>): Json
  {
    match GetOr(item, "extend_json", JNull)
    case JStr(text) =>
      (match decode(text)
       case Some(JObject(ext)) =>
         var p := GetOr(ext, "pub_ts", JNull);
         if Truthy(p) then p else GetOr(ext, "timestamp", JNull)
       case _ => JNull)
    case _ => JNull
  }

  /** The fallback chain: a later source is consulted only while the earlier ones gave a falsy value. */
  function ChainTimestamp(item: map<string, Json>, decode: string -> Option<Json>): (v: Json)
    ensures Truthy(AuthorPubTs(item)) ==> v == AuthorPubTs(item)
    ensures !Truthy(AuthorPubTs(item)) && Truthy(RootPubTs(item)) ==> v == RootPubTs(item)
    ensures !Truthy(AuthorPubTs(item)) && !Truthy(RootPubTs(item)) ==> v == ExtendJsonTs(item, decode)
  {
    var a := AuthorPubTs(item);
    if Truthy(a) then a
    else
      var b := RootPubTs(item);
      if Truthy(b) then b else ExtendJsonTs(item, decode)
  }

  /** The chain yields a usable (truthy) value exactly when one of its three sources holds one. */
  lemma ChainFindsAnyTruthySource(item: map<string, Json>, decode: string -> Option<Json>)
    ensures Truthy(ChainTimestamp(item, decode)) <==>
      Truthy(AuthorPubTs(item)) || Truthy(RootPubTs(item)) || Truthy(ExtendJsonTs(item, decode))
  {
  }

  /** Millisecond timestamps (above 1e10) become seconds; anything else is already in seconds. */
  function Normalise(x: real): (t: real)
    ensures x > MillisecondThreshold ==> t * 1000.0 == x
    ensures x <= MillisecondThreshold ==> t == x
  {
    if x > MillisecondThreshold then x / 1000.0 else x
  }

  /** Whether `datetime.fromtimestamp` accepts the value rather than raising `ValueError` or `OSError`. */
  predicate Representable(t: real)
  {
    MinDatetimeTimestamp <= t < DatetimeLimitTimestamp
  }

  /** Whether the value converts to a 64-bit `time_t`; outside that range `fromtimestamp` raises `OverflowError`. */
  predicate FitsTimeT(t: real)
  {
    -TimeTLimit <= t < TimeTLimit
  }

  /** The raw timestamp an item offers: a dict whose chain value is truthy and numeric. */
  function RawTime(item: Json, decode: string -> Option<Json>): (x: Option<real>)
    ensures x.Some? ==> item.JObject? && x.value != 0.0
    ensures item.JObject? && Truthy(ChainTimestamp(item.fields, decode)) ==> x == Number(ChainTimestamp(item.fields, decode))
  {
    match item
    case JObject(fields) =>
      var ts := ChainTimestamp(fields, decode);
      if Truthy(ts) then Number(ts) else None
    case _ => None
  }

  /**
   * What one feed item contributes: a time, nothing (the loop moves on), or
   * an `OverflowError`, which the `except (ValueError, OSError)` around
   * `fromtimestamp` does not catch.
   */
  datatype ItemOutcome = Dated(t: Time) | Skipped | Overflowed

  /** The activity time one feed item yields once its raw timestamp is normalised. */
  function ItemTime(item: Json, decode: string -> Option<Json>): (r: ItemOutcome)
    ensures r.Dated? <==> RawTime(item, decode).Some? && Representable(Normalise(RawTime(item, decode).value))
    ensures r.Dated? ==> r.t == Normalise(RawTime(item, decode).value)
    ensures r.Overflowed? <==> RawTime(item, decode).Some? && !FitsTimeT(Normalise(RawTime(item, decode).value))
  {
    match RawTime(item, decode)
    case Some(x) =>
      var t := Normalise(x);
      if !FitsTimeT(t) then Overflowed
      else if Representable(t) then Dated(t)
      else Skipped
    case None => Skipped
  }

  /** Where the scan over the feed stops: the first item that does not skip, or the end of the list. */
  function FirstDecisive(items: seq<Json>, decode: string -> Option<Json>): (k: nat)
    ensures k <= |items|
    ensures forall j | 0 <= j < k :: ItemTime(items[j], decode).Skipped?
    ensures k < |items| ==> !ItemTime(items[k], decode).Skipped?
  {
    if items == [] then 0
    else if !ItemTime(items[0], decode).Skipped? then 0
    else
      var k := FirstDecisive(items[1..], decode);
      assert forall j | 1 <= j < |items| :: items[j] == items[1..][j - 1];
      k + 1
  }

  /** The result of the scan: the first time found, no usable time, or an escaping `OverflowError`. */
  datatype Scan = Found(t: Time) | Exhausted | Crashed

  /** The scan over the feed: the first item that does not skip decides, and the scan stops there. */
  function FirstActivityTime(items: seq<Json>, decode: string -> Option<Json>): (r: Scan)
    ensures var k := FirstDecisive(items, decode);
      && (r.Exhausted? <==> k == |items|)
      && (r.Found? <==> k < |items| && ItemTime(items[k], decode).Dated?)
      && (r.Found? ==> r.t == ItemTime(items[k], decode).t)
      && (r.Crashed? <==> k < |items| && ItemTime(items[k], decode).Overflowed?)
  {
    var k := FirstDecisive(items, decode);
    if k == |items| then Exhausted
    else
      match ItemTime(items[k], decode)
      case Dated(t) => Found(t)
      case _ => Crashed
  }

  /** What `for dynamic in items` visits that could be a dict: list elements; a dict or string yields only strings. */
  function ScanItems(items: Json): seq<Json>
  {
    if items.JArray? then items.items else []
  }

  /** The scan `check_user_activity` makes of a fetched feed; `None` when there is no feed or its `items` are falsy. */
  function FeedScan(feed: Option<Feed>, decode: string -> Option<Json>): Option<Scan>
  {
    if feed.Some? && Truthy(feed.value.items) then Some(FirstActivityTime(ScanItems(feed.value.items), decode)) else None
  }

  /**
   * The note of an inactive verdict when the profile alone settles it: no
   * profile at all, or a profile whose `face` is None. A profile that is not
   * a dict would raise on `.get` and be caught by the catch-all; `GetUserInfo`
   * never answers with one.
   */
  function ProfileRejection(profile: Option<Json>): (note: Option<string>)
    ensures note.None? <==> profile.Some? && profile.value.JObject? && GetOr(profile.value.fields, "face", JNull) != JNull
  {
    match profile
    case None => Some(ProfileMissingNote)
    case Some(JObject(info)) => if GetOr(info, "face", JNull) == JNull then Some(DeactivatedNote) else None
    case Some(other) => Some(CheckErrorPrefix + "'" + TypeName(other) + "' object has no attribute 'get'")
  }

  /** `user_info.get('name', '未知')` as the f-string renders it. */
  function ProfileName(info: Json): string
  {
    if info.JObject? then PyStr(GetOr(info.fields, "name", JStr(UnknownName))) else UnknownName
  }

  /**
   * `check_user_activity`: a malformed UID raises; a missing profile or a
   * profile without an avatar means inactive with no time and no feed
   * request; otherwise the account is active and the feed decides the time.
   */
  function CheckUserActivity(
    uid: string, profileReplies: seq<HttpOutcome>, feedReplies: seq<HttpOutcome>, retryTimes: int,
    decode: string -> Option<Json>, fmt: Time -> string): (r: Result<Detection, UidError>)
    ensures r.Err? <==> !ValidUid(uid)
    ensures r.Ok? ==> r.value.profileAttempts <= Max(retryTimes, 0) && r.value.feedAttempts <= Max(retryTimes, 0)
    ensures r.Ok? && !r.value.activity.isActive ==> r.value.activity.lastActive.None?
    ensures r.Ok? && !r.value.activity.isActive && r.value.feedAttempts > 0 ==> r.value.activity.note == OverflowNote
  {
    if !ValidUid(uid) then Err(InvalidUid(uid))
    else
      var u := CanonicalUid(uid);
      Ok(Verdict(u, GetUserInfo(u, profileReplies, retryTimes).value, feedReplies, retryTimes, decode, fmt))
  }

  /** `check_user_activity` after the profile lookup: the profile settles an inactive verdict, else the feed decides the time. */
  function Verdict(
    uid: string, profile: Run<Json>, feedReplies: seq<HttpOutcome>, retryTimes: int,
    decode: string -> Option<Json>, fmt: Time -> string): (d: Detection)
    requires ValidUid(uid) && profile.attempts <= Max(retryTimes, 0)
    ensures d.profileAttempts == profile.attempts && d.feedAttempts <= Max(retryTimes, 0)
    ensures ProfileRejection(profile.result).Some? ==> !d.activity.isActive && d.feedAttempts == 0
    ensures ProfileRejection(profile.result).None? ==>
      d.activity == ExistingAccount(uid, ProfileName(profile.result.value), feedReplies, retryTimes, decode, fmt).0
    ensures !d.activity.isActive ==> d.activity.lastActive.None?
    ensures !d.activity.isActive && d.feedAttempts > 0 ==> d.activity.note == OverflowNote
  {
    match ProfileRejection(profile.result)
    case Some(note) => Detection(Activity(false, None, note), profile.attempts, 0)
    case None =>
      var active := ExistingAccount(uid, ProfileName(profile.result.value), feedReplies, retryTimes, decode, fmt);
      Detection(active.0, profile.attempts, active.1)
  }

  /**
   * The rest of `check_user_activity` once the account is known to exist:
   * the feed decides the time, unless an item's timestamp overflows, which
   * ends the whole check in the catch-all.
   */
  function ExistingAccount(
    uid: string, name: string, feedReplies: seq<HttpOutcome>, retryTimes: int,
    decode: string -> Option<Json>, fmt: Time -> string): (r: (Activity, nat))
    requires ValidUid(uid)
    ensures var scan := FeedScan(FeedRun(feedReplies, retryTimes).result, decode);
      && r.1 == FeedRun(feedReplies, retryTimes).attempts
      && r.1 <= Max(retryTimes, 0)
      && (r.0.isActive <==> scan != Some(Crashed))
      && (r.0.lastActive.Some? <==> scan.Some? && scan.value.Found?)
      && (r.0.lastActive.Some? ==> r.0.lastActive.value == scan.value.t)
      && (!r.0.isActive ==> r.0.note == OverflowNote)
  {
    var feed := GetUserDynamics(uid, DefaultPageSize, feedReplies, retryTimes).value.run;
    var head := UsernameNote + name;
    match FeedScan(feed.result, decode)
    case Some(Crashed) => (Activity(false, None, OverflowNote), feed.attempts)
    case Some(Found(t)) => (Activity(true, Some(t), head + LatestFeedNote + fmt(t)), feed.attempts)
    case Some(Exhausted) => (Activity(true, None, head + UnparsedFeedNote + UnknownLastActiveNote), feed.attempts)
    case None => (Activity(true, None, head + NoFeedNote + UnknownLastActiveNote), feed.attempts)
  }

  /** `calculate_inactive_days`: -1 when unknown, 0 for a future time, else the whole days elapsed. */
  function InactiveDays(last: Option<Time>, now: Time): (d: int)
    ensures d == -1 <==> last.None?
    ensures last.Some? && now < last.value ==> d == 0
    ensures last.Some? && now >= last.value ==>
      d >= 0 && (d * SecondsPerDay) as real <= now - last.value < ((d + 1) * SecondsPerDay) as real
  {
    match last
    case None => -1
    case Some(t) => if now - t < 0.0 then 0 else ((now - t) / SecondsPerDay as real).Floor
  }

  /** A later clock never gives fewer inactive days. */
  lemma InactiveDaysMonotone(last: Option<Time>, now1: Time, now2: Time)
    requires now1 <= now2
    ensures InactiveDays(last, now1) <= InactiveDays(last, now2)
  {
    if last.Some? && now1 >= last.value {
      var d1 := InactiveDays(last, now1);
      var d2 := InactiveDays(last, now2);
      assert (d1 * SecondsPerDay) as real < ((d2 + 1) * SecondsPerDay) as real;
    }
  }

  /** The profile run `check_user_activity` makes for a valid UID. */
  function ProfileRun(uid: string, profileReplies: seq<HttpOutcome>, retryTimes: int): Run<Json>
  {
    Attempt(profileReplies, ClassifyProfileReply, retryTimes)
  }

  /** The feed run `check_user_activity` makes once the profile shows an existing account. */
  function FeedRun(feedReplies: seq<HttpOutcome>, retryTimes: int): Run<Feed>
  {
    Attempt(feedReplies, ClassifyFeedReply, retryTimes)
  }

  /**
   * A valid UID is judged active exactly when the profile run produced a dict
   * with a non-null `face` and the scan of the feed did not overflow.
   */
  lemma ActiveIffProfileHasFace(
    uid: string, profileReplies: seq<HttpOutcome>, feedReplies: seq<HttpOutcome>, retryTimes: int,
    decode: string -> Option<Json>, fmt: Time -> string)
    requires ValidUid(uid)
    ensures var r := CheckUserActivity(uid, profileReplies, feedReplies, retryTimes, decode, fmt);
      var p := ProfileRun(uid, profileReplies, retryTimes);
      && r.Ok?
      && r.value.profileAttempts == p.attempts
      && (r.value.activity.isActive <==>
            && p.result.Some? && GetOr(p.result.value.fields, "face", JNull) != JNull
            && FeedScan(FeedRun(feedReplies, retryTimes).result, decode) != Some(Crashed))
  {
    var u := VerdictOfValidUid(uid, profileReplies, feedReplies, retryTimes, decode, fmt);
    var p := ProfileRun(uid, profileReplies, retryTimes);
    if ProfileRejection(p.result).None? {
      var e := ExistingAccount(u, ProfileName(p.result.value), feedReplies, retryTimes, decode, fmt);
    }
  }

  /** For a valid UID the check runs the profile lookup on the stripped UID and hands its run to `Verdict`. */
  lemma VerdictOfValidUid(
    uid: string, profileReplies: seq<HttpOutcome>, feedReplies: seq<HttpOutcome>, retryTimes: int,
    decode: string -> Option<Json>, fmt: Time -> string) returns (u: string)
    requires ValidUid(uid)
    ensures ValidUid(u)
    ensures var p := ProfileRun(uid, profileReplies, retryTimes);
      && p.attempts <= Max(retryTimes, 0)
      && (p.result.Some? ==> p.result.value.JObject?)
      && CheckUserActivity(uid, profileReplies, feedReplies, retryTimes, decode, fmt)
           == Ok(Verdict(u, p, feedReplies, retryTimes, decode, fmt))
  {
    u := CanonicalUid(uid);
    var p := GetUserInfo(u, profileReplies, retryTimes).value;
    assert p == ProfileRun(uid, profileReplies, retryTimes);
  }

  /** The time an active verdict reports is the time the scan of a successfully fetched, non-empty feed found. */
  lemma ActiveTimeComesFromFeed(
    uid: string, profileReplies: seq<HttpOutcome>, feedReplies: seq<HttpOutcome>, retryTimes: int,
    decode: string -> Option<Json>, fmt: Time -> string)
    requires ValidUid(uid)
    requires CheckUserActivity(uid, profileReplies, feedReplies, retryTimes, decode, fmt).value.activity.isActive
    ensures var d := CheckUserActivity(uid, profileReplies, feedReplies, retryTimes, decode, fmt).value;
      var f := FeedRun(feedReplies, retryTimes);
      && d.feedAttempts == f.attempts
      && d.activity.lastActive ==
           (if f.result.Some? && Truthy(f.result.value.items) && FirstActivityTime(ScanItems(f.result.value.items), decode).Found?
            then Some(FirstActivityTime(ScanItems(f.result.value.items), decode).t) else None)
  {
  }

  /** A "not found" answer to the first profile request ends the lookup at once: one request, no sleep, no profile. */
  lemma NotFoundIsNotRetried(uid: string, doc: map<string, Json>, rest: seq<HttpOutcome>, retryTimes: int)
    requires ValidUid(uid) && retryTimes >= 1
    requires "code" in doc && IsNotFoundCode(doc["code"])
    ensures var r := GetUserInfo(uid, [Reply(JObject(doc))] + rest, retryTimes).value;
      r.result.None? && r.attempts == 1 && r.sleeps == []
  {
    FirstDecisiveAttempt([Reply(JObject(doc))] + rest, ClassifyProfileReply, retryTimes, 0);
  }

  /**
   * Transient failures on the first `k` profile requests followed by a good
   * answer still yield the profile, provided `k` stays below the retry count;
   * the loop has then slept 1, 2, 4, ... seconds, once per failure.
   */
  lemma ProfileSurvivesTransientFailures(uid: string, replies: seq<HttpOutcome>, retryTimes: int, k: nat, info: Json)
    requires ValidUid(uid) && k < retryTimes && k < |replies|
    requires forall i | 0 <= i < k :: ClassifyProfileReply(replies[i]).Transient?
    requires ClassifyProfileReply(replies[k]) == Succeed(info)
    ensures var r := GetUserInfo(uid, replies, retryTimes).value;
      && r.result == Some(info)
      && r.attempts == k + 1
      && |r.sleeps| == k
      && forall i | 0 <= i < k :: r.sleeps[i] == Pow2(i)
  {
    assert TransientBetween(replies, ClassifyProfileReply, 0, k) by {
      forall i | 0 <= i < k
        ensures StepAt(replies, ClassifyProfileReply, i).Transient?
      {
      }
    }
    FirstDecisiveAttempt(replies, ClassifyProfileReply, retryTimes, k);
  }

  /** A truthy timestamp that is not a number (a string, say) skips the item rather than ending the scan. */
  lemma NonNumericTimestampSkipsItem(fields: map<string, Json>, decode: string -> Option<Json>)
    requires Truthy(ChainTimestamp(fields, decode)) && Number(ChainTimestamp(fields, decode)).None?
    ensures ItemTime(JObject(fields), decode).Skipped?
  {
  }

  /**
   * A first usable timestamp beyond the platform's `time_t` ends the scan
   * with an error, whatever later items hold: the `OverflowError` is not among
   * the errors the scan skips.
   */
  lemma OutOfRangeTimestampEndsScan(first: Json, rest: seq<Json>, decode: string -> Option<Json>)
    requires RawTime(first, decode).Some? && !FitsTimeT(Normalise(RawTime(first, decode).value))
    ensures FirstActivityTime([first] + rest, decode) == Crashed
  {
    assert ([first] + rest)[0] == first;
  }

  /** A millisecond timestamp and the same instant in seconds give the same item time. */
  lemma MillisecondsAndSecondsAgree()
    ensures Normalise(1700000000000.0) == 1700000000.0
    ensures Normalise(1700000000.0) == 1700000000.0
  {
  }

  /** The profile answer of the worked example: code 0 and a dict with an avatar. */
  function ExampleProfile(): Json
  {
    JObject(map["code" := JInt(0), "data" := JObject(map["face" := JStr("f"), "name" := JStr("n")])])
  }

  /** The single feed item of the worked example. */
  function ExampleItem(): Json
  {
    JObject(map["pub_ts" := JInt(1600000000)])
  }

  /** The feed answer of the worked example: code 0 and one item. */
  function ExampleFeed(): Json
  {
    JObject(map["code" := JInt(0), "data" := JObject(map["items" := JArray([ExampleItem()])])])
  }

  /** A UID made of digits only is valid and is already its own `strip()`. */
  lemma DigitsAreCanonicalUid(uid: string)
    requires IsDigitString(uid)
    ensures ValidUid(uid) && Strip(uid) == uid
  {
    StripKeeps(uid);
  }

  /** Steps of the worked example below, kept apart so that each literal is unfolded on its own. */
  lemma ExampleUidIsValid()
    ensures ValidUid("123") && Strip("123") == "123"
  {
    assert IsDigitString("123");
    DigitsAreCanonicalUid("123");
  }

  lemma ExampleProfileIsFound()
    ensures ClassifyProfileReply(Reply(ExampleProfile())) == Succeed(ExampleProfile().fields["data"])
    ensures ProfileRejection(Some(ExampleProfile().fields["data"])).None?
  {
    assert EqualsInt(JInt(0), 0);
    assert "face" in ExampleProfile().fields["data"].fields;
  }

  lemma ExampleFeedIsFetched()
    ensures ClassifyFeedReply(Reply(ExampleFeed())) == Succeed(Feed(JArray([ExampleItem()]), 1))
    ensures Truthy(JArray([ExampleItem()])) && ScanItems(JArray([ExampleItem()])) == [ExampleItem()]
  {
    assert EqualsInt(JInt(0), 0);
  }

  lemma ExampleItemTime(decode: string -> Option<Json>)
    ensures FirstActivityTime([ExampleItem()], decode) == Found(1600000000.0)
  {
    assert AuthorPubTs(ExampleItem().fields) == JNull;
    assert ItemTime(ExampleItem(), decode) == Dated(1600000000.0);
  }

  /**
   * When the first profile answer carries an avatar and the first feed
   * answer dates the account at `t`, the account is active with time `t`
   * after one profile and one feed request.
   */
  lemma FirstAnswersSettleActivity(
    uid: string, profileReply: HttpOutcome, feedReply: HttpOutcome, info: Json, items: Json, count: nat, t: Time,
    decode: string -> Option<Json>, fmt: Time -> string)
    requires ValidUid(uid)
    requires ClassifyProfileReply(profileReply) == Succeed(info) && ProfileRejection(Some(info)).None?
    requires ClassifyFeedReply(feedReply) == Succeed(Feed(items, count))
    requires Truthy(items) && FirstActivityTime(ScanItems(items), decode) == Found(t)
    ensures var r := CheckUserActivity(uid, [profileReply], [feedReply], DefaultRetryTimes, decode, fmt);
      && r.Ok?
      && r.value.activity.isActive
      && r.value.activity.lastActive == Some(t)
      && r.value.profileAttempts == 1
      && r.value.feedAttempts == 1
  {
    FirstDecisiveAttempt([profileReply], ClassifyProfileReply, DefaultRetryTimes, 0);
    FirstDecisiveAttempt([feedReply], ClassifyFeedReply, DefaultRetryTimes, 0);
    var u := CanonicalUid(uid);
    var p := GetUserInfo(u, [profileReply], DefaultRetryTimes).value;
    assert p.result == Some(info) && p.attempts == 1;
    var f := FeedRun([feedReply], DefaultRetryTimes);
    assert f.result == Some(Feed(items, count)) && f.attempts == 1;
    assert FeedScan(f.result, decode) == Some(Found(t));
    var e := ExistingAccount(u, ProfileName(info), [feedReply], DefaultRetryTimes, decode, fmt);
    var d := Verdict(u, p, [feedReply], DefaultRetryTimes, decode, fmt);
    assert d.activity == e.0 && d.feedAttempts == e.1;
    assert CheckUserActivity(uid, [profileReply], [feedReply], DefaultRetryTimes, decode, fmt) == Ok(d);
  }

  /**
   * The worked example meets every premise of `FirstAnswersSettleActivity`:
   * UID "123", a profile with an avatar, and a feed whose single item carries
   * `pub_ts = 1600000000`; so that account is active with that time after one
   * profile and one feed request.
   */
  lemma ActiveAccountExample(decode: string -> Option<Json>)
    ensures ValidUid("123")
    ensures ClassifyProfileReply(Reply(ExampleProfile())) == Succeed(ExampleProfile().fields["data"])
    ensures ProfileRejection(Some(ExampleProfile().fields["data"])).None?
    ensures ClassifyFeedReply(Reply(ExampleFeed())) == Succeed(Feed(JArray([ExampleItem()]), 1))
    ensures Truthy(JArray([ExampleItem()]))
    ensures FirstActivityTime(ScanItems(JArray([ExampleItem()])), decode) == Found(1600000000.0)
  {
    ExampleUidIsValid();
    ExampleProfileIsFound();
    ExampleFeedIsFetched();
    ExampleItemTime(decode);
  }

  /** The worked example end to end: active, dated 1600000000, one profile and one feed request. */
  lemma ActiveAccountVerdict(decode: string -> Option<Json>, fmt: Time -> string)
    ensures var r := CheckUserActivity("123", [Reply(ExampleProfile())], [Reply(ExampleFeed())], DefaultRetryTimes, decode, fmt);
      && r.Ok?
      && r.value.activity.isActive
      && r.value.activity.lastActive == Some(1600000000.0)
      && r.value.profileAttempts == 1
      && r.value.feedAttempts == 1
  {
    ActiveAccountExample(decode);
    FirstAnswersSettleActivity("123", Reply(ExampleProfile()), Reply(ExampleFeed()), ExampleProfile().fields["data"],
      JArray([ExampleItem()]), 1, 1600000000.0, decode, fmt);
  }

  /** Ten whole days and an hour after the last activity count as ten inactive days. */
  lemma TenDaysInactive(t: Time)
    ensures InactiveDays(Some(t), t + (10 * SecondsPerDay + SecondsPerHour) as real) == 10
  {
  }
}

=== FILE: config.dfy ===
/**
 * `MonitorService._validate_config`: the checks a loaded YAML configuration
 * must pass before the service starts, made in a fixed order, with the first
 * failing check reported; and the settings the per-target check reads from
 * a configuration that passed.
 *
 * A section that is not a mapping where the validator calls `in` or `.get`
 * on it makes Python raise `TypeError` or `AttributeError` (or, for a list
 * or a string, a "missing key" `ValueError`); all of these are reported
 * here as `MalformedSection`.
 */
module Config {
  import opened Base
  import opened PyText
  import opened JsonValues

  datatype ConfigError =
    | MissingSection(section: string)
    | NoTargets
    | TargetNotMapping(index: nat)       // 1-based, as in the message
    | TargetMissingField(index: nat)
    | TargetBlankField(index: nat)
    | MissingField(section: string, key: string)
    | BadInterval
    | BadThreshold
    | BadSmtpPort
    | BadPanelEnabled
    | MissingCertificate
    | BadTimeServers
    | BadMaxSkew
    | BadMinSuccess
    | MalformedSection(section: string)

  const RequiredSections: seq<string> := ["targets", "check_config", "email", "database", "logging"]
  const RequiredEmailKeys: seq<string> := ["smtp_server", "smtp_port", "sender_email", "sender_password", "receiver_email"]
  const DefaultMaxSkew: real := 2.0
  const DefaultMinSuccess: real := 2.0
  const DefaultNotifyRetries: int := 3

  // ---------------------------------------------------------------------
  // What a valid configuration is, stated section by section.

  /** A target is a mapping with both keys, neither of which renders blank. */
  predicate ValidTarget(t: Json)
  {
    && t.JObject?
    && "qq_number" in t.fields && "bilibili_uid" in t.fields
    && Strip(PyStr(t.fields["qq_number"])) != ""
    && Strip(PyStr(t.fields["bilibili_uid"])) != ""
  }

  predicate ValidTargets(targets: Json)
  {
    targets.JArray? && |targets.items| > 0 && forall i | 0 <= i < |targets.items| :: ValidTarget(targets.items[i])
  }

  /** A positive number of hours between cycles and a non-negative whole threshold (booleans count as numbers). */
  predicate ValidSchedule(cc: Json)
  {
    && cc.JObject?
    && "check_interval_hours" in cc.fields
    && Number(cc.fields["check_interval_hours"]).Some? && Number(cc.fields["check_interval_hours"]).value > 0.0
    && "inactive_days_threshold" in cc.fields
    && PyInt(cc.fields["inactive_days_threshold"]).Some? && PyInt(cc.fields["inactive_days_threshold"]).value >= 0
  }

  predicate ValidEmail(email: Json)
  {
    && email.JObject?
    && (forall k | k in RequiredEmailKeys :: k in email.fields)
    && PyInt(email.fields["smtp_port"]).Some? && PyInt(email.fields["smtp_port"]).value > 0
  }

  /**
   * The only test is `'path' in database`: a mapping with a `path` key, but
   * also a string containing "path" or a list holding the string "path".
   */
  predicate ValidDatabase(db: Json)
  {
    PyIn("path", db) == Some(true)
  }

  /** An absent or falsy panel section is accepted; otherwise a boolean `enabled` and, for HTTPS, both key files. */
  predicate ValidPanel(p: Json)
  {
    !Truthy(p) ||
      (&& p.JObject?
       && ("enabled" in p.fields ==> p.fields["enabled"].JBool?)
       && (Truthy(GetOr(p.fields, "enable_https", JNull)) ==>
             Truthy(GetOr(p.fields, "certfile", JNull)) && Truthy(GetOr(p.fields, "keyfile", JNull))))
  }

  predicate ValidServers(servers: Json)
  {
    !Truthy(servers) || (servers.JArray? && forall i | 0 <= i < |servers.items| :: servers.items[i].JStr?)
  }

  /** A present value that must be `> 0`: comparing a non-number with 0 raises, so it must also be a number. */
  predicate PositiveIfPresent(fields: map<string, Json>, key: string)
  {
    key in fields ==> Number(fields[key]).Some? && Number(fields[key]).value > 0.0
  }

  /** An absent or falsy time-sync section is accepted; otherwise string servers and positive skew and quorum. */
  predicate ValidTimeSync(ts: Json)
  {
    !Truthy(ts) ||
      (&& ts.JObject?
       && ValidServers(GetOr(ts.fields, "servers", JArray([])))
       && PositiveIfPresent(ts.fields, "max_skew_sec")
       && PositiveIfPresent(ts.fields, "min_success"))
  }

  predicate Valid(cfg: map<string, Json>)
  {
    && SectionsPresent(cfg)
    && ValidTargets(cfg["targets"])
    && ValidSchedule(cfg["check_config"])
    && ValidEmail(cfg["email"])
    && ValidDatabase(cfg["database"])
    && ValidPanel(GetOr(cfg, "control_panel", EmptyObject))
    && ValidTimeSync(GetOr(cfg, "time_sync", EmptyObject))
  }

  // ---------------------------------------------------------------------
  // The validator, check by check, in `_validate_config`'s order.

  /** The first of `keys` missing from `fields`. */
  function FirstMissing(keys: seq<string>, fields: map<string, Json>): (r: Option<string>)
    ensures r.None? <==> forall k | k in keys :: k in fields
    ensures r.Some? ==> r.value in keys && r.value !in fields
  {
    if keys == [] then None
    else if keys[0] !in fields then Some(keys[0])
    else FirstMissing(keys[1..], fields)
  }

  /** The per-target checks from position `i` onwards; reported positions count from 1. */
  function CheckTargetsFrom(items: seq<Json>, i: nat): (r: Option<ConfigError>)
    requires i <= |items|
    ensures r.None? <==> forall j | i <= j < |items| :: ValidTarget(items[j])
    decreases |items| - i
  {
    if i == |items| then None
    else
      var first := CheckOneTarget(items[i], i + 1);
      if first.Some? then first
      else
        var rest := CheckTargetsFrom(items, i + 1);
        assert rest.None? ==> forall j | i <= j < |items| :: ValidTarget(items[j]) by {
          if rest.None? {
            forall j | i <= j < |items|
              ensures ValidTarget(items[j])
            {
              // position `i` passed its own checks; the later ones passed the recursive call
              if j > i {
                assert i + 1 <= j;
              }
            }
          }
        }
        rest
  }

  /** The checks on one target, reported at position `pos`. */
  function CheckOneTarget(t: Json, pos: nat): (r: Option<ConfigError>)
    ensures r.None? <==> ValidTarget(t)
  {
    if !t.JObject? then Some(TargetNotMapping(pos))
    else if "qq_number" !in t.fields || "bilibili_uid" !in t.fields then Some(TargetMissingField(pos))
    else if Strip(PyStr(t.fields["qq_number"])) == "" || Strip(PyStr(t.fields["bilibili_uid"])) == "" then
      Some(TargetBlankField(pos))
    else None
  }

  function CheckTargets(targets: Json): (r: Option<ConfigError>)
    ensures r.None? <==> ValidTargets(targets)
    ensures !targets.JArray? || targets.items == [] ==> r == Some(NoTargets)
  {
    if !targets.JArray? || targets.items == [] then Some(NoTargets)
    else CheckTargetsFrom(targets.items, 0)
  }

  function CheckSchedule(cc: Json): (r: Option<ConfigError>)
    ensures r.None? <==> ValidSchedule(cc)
  {
    if !cc.JObject? then Some(MalformedSection("check_config"))
    else if "check_interval_hours" !in cc.fields then Some(MissingField("check_config", "check_interval_hours"))
    else if Number(cc.fields["check_interval_hours"]).None? || Number(cc.fields["check_interval_hours"]).value <= 0.0 then
      Some(BadInterval)
    else if "inactive_days_threshold" !in cc.fields then Some(MissingField("check_config", "inactive_days_threshold"))
    else if PyInt(cc.fields["inactive_days_threshold"]).None? || PyInt(cc.fields["inactive_days_threshold"]).value < 0 then
      Some(BadThreshold)
    else None
  }

  function CheckEmail(email: Json): (r: Option<ConfigError>)
    ensures r.None? <==> ValidEmail(email)
  {
    if !email.JObject? then Some(MalformedSection("email"))
    else
      match FirstMissing(RequiredEmailKeys, email.fields)
      case Some(k) => Some(MissingField("email", k))
      case None =>
        if PyInt(email.fields["smtp_port"]).None? || PyInt(email.fields["smtp_port"]).value <= 0 then Some(BadSmtpPort)
        else None
  }

  function CheckDatabase(db: Json): (r: Option<ConfigError>)
    ensures r.None? <==> ValidDatabase(db)
  {
    match PyIn("path", db)
    case None => Some(MalformedSection("database"))
    case Some(found) => if found then None else Some(MissingField("database", "path"))
  }

  function CheckPanel(p: Json): (r: Option<ConfigError>)
    ensures r.None? <==> ValidPanel(p)
  {
    if !Truthy(p) then None
    else if !p.JObject? then Some(MalformedSection("control_panel"))
    else if "enabled" in p.fields && !p.fields["enabled"].JBool? then Some(BadPanelEnabled)
    else if Truthy(GetOr(p.fields, "enable_https", JNull))
            && (!Truthy(GetOr(p.fields, "certfile", JNull)) || !Truthy(GetOr(p.fields, "keyfile", JNull))) then
      Some(MissingCertificate)
    else None
  }

  function CheckTimeSync(ts: Json): (r: Option<ConfigError>)
    ensures r.None? <==> ValidTimeSync(ts)
  {
    if !Truthy(ts) then None
    else if !ts.JObject? then Some(MalformedSection("time_sync"))
    else if !ValidServers(GetOr(ts.fields, "servers", JArray([]))) then Some(BadTimeServers)
    else if !PositiveIfPresent(ts.fields, "max_skew_sec") then Some(BadMaxSkew)
    else if !PositiveIfPresent(ts.fields, "min_success") then Some(BadMinSuccess)
    else None
  }

  /** The first of two findings, checked in order. */
  function OrElse(first: Option<ConfigError>, second: Option<ConfigError>): (r: Option<ConfigError>)
    ensures r.None? <==> first.None? && second.None?
    ensures first.Some? ==> r == first
  {
    if first.Some? then first else second
  }

  /** Every required section is present. */
  predicate SectionsPresent(cfg: map<string, Json>)
  {
    forall k | k in RequiredSections :: k in cfg
  }

  /** The sections the checks read by subscript are among the required ones. */
  lemma PresentSectionKeys(cfg: map<string, Json>)
    requires SectionsPresent(cfg)
    ensures "targets" in cfg && "check_config" in cfg && "email" in cfg && "database" in cfg
  {
    assert RequiredSections[0] == "targets" && RequiredSections[1] == "check_config";
    assert RequiredSections[2] == "email" && RequiredSections[3] == "database";
  }

  /** The checks after the presence check, for a configuration that has every required section. */
  function CheckPresentSections(cfg: map<string, Json>): (r: Option<ConfigError>)
    requires SectionsPresent(cfg)
    ensures r.None? <==> Valid(cfg)
    ensures !ValidTargets(cfg["targets"]) ==> r == CheckTargets(cfg["targets"])
  {
    PresentSectionKeys(cfg);
    OrElse(CheckTargets(cfg["targets"]),
    OrElse(CheckSchedule(cfg["check_config"]),
    OrElse(CheckEmail(cfg["email"]),
    OrElse(CheckDatabase(cfg["database"]),
    OrElse(CheckPanel(GetOr(cfg, "control_panel", EmptyObject)),
           CheckTimeSync(GetOr(cfg, "time_sync", EmptyObject)))))))
  }

  /** `_validate_config`: the first failing check, in the order the checks are written, or success. */
  function ValidateConfig(cfg: map<string, Json>): (r: Result<(), ConfigError>)
    ensures r.Ok? <==> Valid(cfg)
    ensures !SectionsPresent(cfg) ==> r.Err? && r.error.MissingSection? && r.error.section !in cfg
    ensures SectionsPresent(cfg) && !ValidTargets(cfg["targets"]) ==> r == Err(CheckTargets(cfg["targets"]).value)
  {
    match FirstMissing(RequiredSections, cfg)
    case Some(k) => Err(MissingSection(k))
    case None =>
      var problem := CheckPresentSections(cfg);
      if problem.Some? then Err(problem.value) else Ok(())
  }

  /** A target list that is empty is refused even when everything else is in order. */
  lemma EmptyTargetsRefused(cfg: map<string, Json>)
    requires SectionsPresent(cfg)
    requires cfg["targets"] == JArray([])
    ensures ValidateConfig(cfg) == Err(NoTargets)
  {
  }

  /** Booleans pass the integer checks, as Python's `isinstance(True, int)` does: `true` is a threshold of 1. */
  lemma BooleanThresholdAccepted(cc: map<string, Json>)
    requires "check_interval_hours" in cc && cc["check_interval_hours"] == JInt(24)
    requires "inactive_days_threshold" in cc && cc["inactive_days_threshold"] == JBool(true)
    ensures CheckSchedule(JObject(cc)).None?
  {
  }

  // ---------------------------------------------------------------------
  // The settings `check_target` reads from a validated configuration.

  /** Quorum and skew bound of the trusted-time gate. */
  datatype TimeSyncSettings = TimeSyncSettings(maxSkew: real, minSuccess: real)

  datatype Settings = Settings(
    threshold: nat,                 // check_config.inactive_days_threshold
    notifyRetries: Option<int>,     // email.notify_retries (default 3); None when `range()` would reject it
    timeSync: Option<TimeSyncSettings>)   // time_sync.max_skew_sec and .min_success; None when reading the section raises

  /** `d.get(key, default)` for a value the validator already knows to be a number. */
  function NumberOr(fields: map<string, Json>, key: string, default: real): real
  {
    match Number(GetOr(fields, key, JNull))
    case Some(x) => if key in fields then x else default
    case None => default
  }

  /**
   * How `check_target` reads the time-sync section as written:
   * `self.config.get('time_sync', {}).get(...)`. A section that is present
   * but not a mapping (`time_sync:` left empty loads as None) raises
   * `AttributeError`, which `check_target` turns into a failed check.
   */
  function TimeSyncAsWritten(section: Json): (r: Option<TimeSyncSettings>)
    ensures r.Some? <==> section.JObject?
  {
    if section.JObject? then
      Some(TimeSyncSettings(NumberOr(section.fields, "max_skew_sec", DefaultMaxSkew),
                            NumberOr(section.fields, "min_success", DefaultMinSuccess)))
    else None
  }

  /** An empty `time_sync:` line passes validation, yet the as-written read of it fails: the alert path always crashes. */
  lemma EmptyTimeSyncSectionCrashesAsWritten(cfg: map<string, Json>)
    requires Valid(cfg)
    ensures Valid(cfg["time_sync" := JNull])
    ensures TimeSyncAsWritten(GetOr(cfg["time_sync" := JNull], "time_sync", EmptyObject)).None?
  {
    var c := cfg["time_sync" := JNull];
    assert SectionsPresent(c);
    assert c["targets"] == cfg["targets"] && c["check_config"] == cfg["check_config"];
    assert c["email"] == cfg["email"] && c["database"] == cfg["database"];
    assert GetOr(c, "control_panel", EmptyObject) == GetOr(cfg, "control_panel", EmptyObject);
  }

  /**
   * The evidently intended reading: a section the validator accepted as
   * "absent" (falsy) gives the defaults, exactly as a missing section does.
   */
  function TimeSyncSettingsOf(section: Json): (r: TimeSyncSettings)
    requires ValidTimeSync(section)
    ensures r.maxSkew > 0.0 && r.minSuccess > 0.0
    ensures section.JObject? ==> Some(r) == TimeSyncAsWritten(section)
    ensures !Truthy(section) ==> r == TimeSyncSettings(DefaultMaxSkew, DefaultMinSuccess)
  {
    if section.JObject? then
      TimeSyncSettings(NumberOr(section.fields, "max_skew_sec", DefaultMaxSkew),
                       NumberOr(section.fields, "min_success", DefaultMinSuccess))
    else TimeSyncSettings(DefaultMaxSkew, DefaultMinSuccess)
  }

  /** The settings of a validated configuration, with a falsy time-sync section read as the defaults. */
  function SettingsOf(cfg: map<string, Json>): (s: Settings)
    requires Valid(cfg)
    ensures s.threshold == PyInt(cfg["check_config"].fields["inactive_days_threshold"]).value
    ensures s.timeSync.Some? && s.timeSync.value.maxSkew > 0.0 && s.timeSync.value.minSuccess > 0.0
    ensures "notify_retries" !in cfg["email"].fields ==> s.notifyRetries == Some(DefaultNotifyRetries)
    ensures "notify_retries" in cfg["email"].fields ==> s.notifyRetries == PyInt(cfg["email"].fields["notify_retries"])
  {
    PresentSectionKeys(cfg);
    var threshold := PyInt(cfg["check_config"].fields["inactive_days_threshold"]).value;
    var retries := PyInt(GetOr(cfg["email"].fields, "notify_retries", JInt(DefaultNotifyRetries)));
    Settings(threshold, retries, Some(TimeSyncSettingsOf(GetOr(cfg, "time_sync", EmptyObject))))
  }

  /** The settings as `check_target` reads them as written: a time-sync section that is present but not a mapping cannot be read. */
  function SettingsAsWritten(cfg: map<string, Json>): (s: Settings)
    requires Valid(cfg)
    ensures s.timeSync.None? <==> "time_sync" in cfg && !cfg["time_sync"].JObject?
    ensures s.timeSync.Some? ==> s == SettingsOf(cfg)
    ensures s.threshold == SettingsOf(cfg).threshold && s.notifyRetries == SettingsOf(cfg).notifyRetries
  {
    var corrected := SettingsOf(cfg);
    corrected.(timeSync := TimeSyncAsWritten(GetOr(cfg, "time_sync", EmptyObject)))
  }

  /** The sections `_validate_config` looks at. */
  const KnownSections: set<string> := {"targets", "check_config", "email", "database", "logging", "control_panel", "time_sync"}

  /**
   * The database section is only searched for "path": any string that
   * contains it passes in place of a valid mapping, and so does a list
   * holding it.
   */
  lemma DatabaseIsOnlySearchedForPath(cfg: map<string, Json>, before: string, after: string)
    requires Valid(cfg)
    ensures ValidateConfig(cfg["database" := JStr(before + "path" + after)]) == Ok(())
    ensures ValidateConfig(cfg["database" := JArray([JStr("path")])]) == Ok(())
  {
    SubstringOfConcatenation(before, "path", after);
    ReplacedDatabaseStaysValid(cfg, JStr(before + "path" + after));
    assert JArray([JStr("path")]).items[0] == JStr("path");
    ReplacedDatabaseStaysValid(cfg, JArray([JStr("path")]));
  }

  /** Only the database check reads the database section. */
  lemma ReplacedDatabaseStaysValid(cfg: map<string, Json>, db: Json)
    requires Valid(cfg) && ValidDatabase(db)
    ensures Valid(cfg["database" := db])
  {
    var c := cfg["database" := db];
    assert c["targets"] == cfg["targets"];
    assert c["check_config"] == cfg["check_config"];
    assert c["email"] == cfg["email"];
    assert GetOr(c, "control_panel", EmptyObject) == GetOr(cfg, "control_panel", EmptyObject);
    assert GetOr(c, "time_sync", EmptyObject) == GetOr(cfg, "time_sync", EmptyObject);
    assert SectionsPresent(c);
  }

  /** A database section that is not a string, a list or a mapping makes `in` raise, and the configuration is refused. */
  lemma ScalarDatabaseRefused(cfg: map<string, Json>, db: Json)
    requires SectionsPresent(cfg) && cfg["database"] == db
    requires db.JNull? || db.JBool? || db.JInt? || db.JFloat?
    ensures ValidateConfig(cfg).Err?
  {
  }

  /** A section the validator does not know about never changes its verdict, whatever it holds. */
  lemma UnknownSectionsIgnored(cfg: map<string, Json>, key: string, value: Json)
    requires key !in KnownSections
    ensures ValidateConfig(cfg[key := value]) == ValidateConfig(cfg)
  {
    var c := cfg[key := value];
    assert forall k | k in KnownSections :: (k in c <==> k in cfg) && (k in cfg ==> c[k] == cfg[k]);
    assert FirstMissing(RequiredSections, c) == FirstMissing(RequiredSections, cfg) by {
      FirstMissingSameKeys(RequiredSections, c, cfg);
    }
    assert GetOr(c, "control_panel", EmptyObject) == GetOr(cfg, "control_panel", EmptyObject);
    assert GetOr(c, "time_sync", EmptyObject) == GetOr(cfg, "time_sync", EmptyObject);
  }

  /** `FirstMissing` only looks at the keys it is given. */
  lemma {:induction false} FirstMissingSameKeys(keys: seq<string>, a: map<string, Json>, b: map<string, Json>)
    requires forall k | k in keys :: (k in a <==> k in b)
    ensures FirstMissing(keys, a) == FirstMissing(keys, b)
    decreases |keys|
  {
    if keys != [] {
      FirstMissingSameKeys(keys[1..], a, b);
    }
  }
}

=== FILE: control_panel.dfy ===
/**
 * The control panel: Bearer-token authorisation, the dispatch of a request
 * to a status code, the non-sensitive configuration summary, and the
 * start/stop life cycle of its server. The WSGI server and its thread are
 * abstract: a panel is either serving or not; whether the port binds and
 * whether the TLS wrapping succeeds are inputs.
 */
module ControlPanel {
  import opened Base
  import opened PyText
  import opened JsonValues

  /** The parts of a WSGI environ the panel reads; a missing entry is `None`. */
  datatype Request = Request(path: Option<string>, verb: Option<string>, authorization: Option<string>)

  /** The status code, and whether answering ran a check cycle or a health check. */
  datatype Response = Response(status: int, ranCycle: bool, probedHealth: bool)

  datatype Panel = Panel(serving: bool)

  datatype StartError = MissingCertificate | BindFailed | TlsFailed

  const BearerPrefix: string := "Bearer "
  const HealthPath: string := "/health"
  const StatusPath: string := "/status"
  const RunOncePath: string := "/run_once"
  const ConfigPath: string := "/config"

  /**
   * `_is_authorized`: with no token configured every request passes;
   * otherwise the header must start with "Bearer " (exactly that case) and
   * what follows, stripped, must equal the token.
   */
  function IsAuthorized(token: string, header: string): (ok: bool)
    ensures token == "" ==> ok
    ensures ok && token != "" ==> StartsWith(header, BearerPrefix)
    ensures ok && token != "" ==> !IsSpace(token[0]) && !IsSpace(token[|token| - 1])
  {
    token == "" || (StartsWith(header, BearerPrefix) && Strip(header[|BearerPrefix|..]) == token)
  }

  /** `header` is "Bearer ", then whitespace, then `token` at position `k` of the rest, then whitespace. */
  predicate PaddedTokenAt(header: string, token: string, k: int)
  {
    && StartsWith(header, BearerPrefix)
    && var rest := header[|BearerPrefix|..];
    && 0 <= k && k + |token| <= |rest|
    && rest[k..k + |token|] == token
    && SpaceBetween(rest, 0, k)
    && SpaceBetween(rest, k + |token|, |rest|)
  }

  /**
   * `_app`: the health probe is anonymous; everything else needs
   * authorisation, then the route table decides. A payload that cannot be
   * built (a configuration section of the wrong type) raises inside the
   * handler and is answered with 500.
   */
  function Dispatch(req: Request, token: string, healthy: bool, config: map<string, Json>): (r: Response)
    ensures var path := GetOrDefault(req.path, "/");
      var verb := AsciiUpper(GetOrDefault(req.verb, "GET"));
      var authorized := IsAuthorized(token, GetOrDefault(req.authorization, ""));
      && (path == HealthPath && verb == "GET" ==> r == Response(if healthy then 200 else 503, false, true))
      && (!(path == HealthPath && verb == "GET") && !authorized ==> r == Response(401, false, false))
      && (r.ranCycle <==> authorized && path == RunOncePath && verb == "POST")
      && (r.probedHealth <==> path == HealthPath && verb == "GET")
      && (r.status == 200 && !r.probedHealth <==>
            authorized && ((path == StatusPath && verb == "GET" && StatusPayloadBuilds(config))
                           || (path == RunOncePath && verb == "POST")
                           || (path == ConfigPath && verb == "GET" && ConfigPayload(config).Some?)))
      && (r.status == 500 <==>
            authorized && ((path == StatusPath && verb == "GET" && !StatusPayloadBuilds(config))
                           || (path == ConfigPath && verb == "GET" && ConfigPayload(config).None?)))
      && (authorized && !Routed(path, verb) ==> r.status == 404)
      && (r.status in {200, 401, 404, 500, 503})
  {
    var path := GetOrDefault(req.path, "/");
    var verb := AsciiUpper(GetOrDefault(req.verb, "GET"));
    if path == HealthPath && verb == "GET" then Response(if healthy then 200 else 503, false, true)
    else if !IsAuthorized(token, GetOrDefault(req.authorization, "")) then Response(401, false, false)
    else if path == StatusPath && verb == "GET" then Response(if StatusPayloadBuilds(config) then 200 else 500, false, false)
    else if path == RunOncePath && verb == "POST" then Response(200, true, false)
    else if path == ConfigPath && verb == "GET" then Response(if ConfigPayload(config).Some? then 200 else 500, false, false)
    else Response(404, false, false)
  }

  /** The four routes of the table. */
  predicate Routed(path: string, verb: string)
  {
    (path == HealthPath && verb == "GET") || (path == StatusPath && verb == "GET")
    || (path == RunOncePath && verb == "POST") || (path == ConfigPath && verb == "GET")
  }

  /**
   * `_status_payload` can be built: `targets` (default `[]`) has a length
   * and `check_config` (default `{}`) is a mapping.
   */
  predicate StatusPayloadBuilds(config: map<string, Json>)
  {
    PyLen(GetOr(config, "targets", JArray([]))).Some? && GetOr(config, "check_config", EmptyObject).JObject?
  }

  /** `environ.get(key, default)`. */
  function GetOrDefault(v: Option<string>, default: string): string
  {
    if v.Some? then v.value else default
  }

  /** With no token configured, every request is authorised, whatever header it carries. */
  lemma EmptyTokenAdmitsAll(header: string)
    ensures IsAuthorized("", header)
  {
  }

  /** A header that authorises against a configured token is exactly that token after "Bearer ", padded only by whitespace. */
  lemma AuthorizedHeaderCarriesToken(token: string, header: string)
    requires token != "" && IsAuthorized(token, header)
    ensures exists k :: PaddedTokenAt(header, token, k)
  {
    var rest := header[|BearerPrefix|..];
    assert Strip(rest) == token;
    var k := StripIsPaddedSlice(rest);
    assert SpaceBetween(rest, k + |token|, |rest|);
    assert PaddedTokenAt(header, token, k);
  }

  /** The scheme name is case-sensitive: "bearer " never authorises against a configured token. */
  lemma LowercaseSchemeIsRefused(token: string, rest: string)
    requires token != ""
    ensures !IsAuthorized(token, "bearer " + rest)
  {
    assert ("bearer " + rest)[0] == 'b';
  }

  /** Whitespace around the presented token is ignored. */
  lemma PaddingAroundTokenIsIgnored(token: string, pad1: string, pad2: string)
    requires |token| > 0 && !IsSpace(token[0]) && !IsSpace(token[|token| - 1])
    requires SpaceBetween(pad1, 0, |pad1|) && SpaceBetween(pad2, 0, |pad2|)
    ensures IsAuthorized(token, BearerPrefix + pad1 + token + pad2)
  {
    var header := BearerPrefix + pad1 + token + pad2;
    assert header[..|BearerPrefix|] == BearerPrefix;
    var rest := header[|BearerPrefix|..];
    assert rest == pad1 + token + pad2;
    StripPadded(pad1, token, pad2);
  }

  /** A configured token that itself starts or ends with whitespace can never be matched: the panel is locked. */
  lemma PaddedTokenLocksPanel(token: string, header: string)
    requires |token| > 0 && (IsSpace(token[0]) || IsSpace(token[|token| - 1]))
    ensures !IsAuthorized(token, header)
  {
    if StartsWith(header, BearerPrefix) {
      var r := Strip(header[|BearerPrefix|..]);
      assert r != token;
    }
  }

  /** The method name is upper-cased first, so a lower-case `post` to /run_once still runs a cycle. */
  lemma MethodIsCaseInsensitive(token: string, header: string, healthy: bool, config: map<string, Json>)
    requires IsAuthorized(token, header)
    ensures Dispatch(Request(Some(RunOncePath), Some("post"), Some(header)), token, healthy, config) == Response(200, true, false)
  {
    assert AsciiUpper("post") == "POST";
  }

  /**
   * `_config_payload`: the interval, threshold, sender and receiver, each
   * `None` when absent; a `check_config` or `email` section that is not a
   * mapping makes the handler fail (`None`, answered with status 500).
   */
  function ConfigPayload(config: map<string, Json>): (r: Option<map<string, Json>>)
    ensures r.Some? <==> GetOr(config, "check_config", EmptyObject).JObject? && GetOr(config, "email", EmptyObject).JObject?
    ensures r.Some? ==> r.value.Keys == {"check_interval_hours", "inactive_days_threshold", "email_sender", "email_receiver"}
    ensures r.Some? ==> r.value["email_sender"] == GetOr(GetOr(config, "email", EmptyObject).fields, "sender_email", JNull)
  {
    match (GetOr(config, "check_config", EmptyObject), GetOr(config, "email", EmptyObject))
    case (JObject(check), JObject(email)) =>
      Some(map[
        "check_interval_hours" := GetOr(check, "check_interval_hours", JNull),
        "inactive_days_threshold" := GetOr(check, "inactive_days_threshold", JNull),
        "email_sender" := GetOr(email, "sender_email", JNull),
        "email_receiver" := GetOr(email, "receiver_email", JNull)])
    case _ => None
  }

  /** The payload never depends on the SMTP password: changing it changes nothing the panel reveals. */
  lemma PasswordNeverRevealed(config: map<string, Json>, email: map<string, Json>, password: Json)
    requires "email" in config && config["email"] == JObject(email)
    ensures ConfigPayload(config["email" := JObject(email["sender_password" := password])]) == ConfigPayload(config)
  {
    var changed := config["email" := JObject(email["sender_password" := password])];
    assert GetOr(changed, "check_config", EmptyObject) == GetOr(config, "check_config", EmptyObject);
  }

  /**
   * `start`: a panel that is already serving is left alone. Otherwise the
   * port is bound first; with HTTPS, a missing certificate or key file then
   * fails, and so does `ssl.wrap_socket` (`wrapOk` false: files that cannot
   * be read, or a Python where the function no longer exists).
   */
  function Start(p: Panel, enableHttps: bool, certfile: string, keyfile: string, bindOk: bool, wrapOk: bool): (r: Result<Panel, StartError>)
    ensures p.serving ==> r == Ok(p)
    ensures !p.serving ==> (r.Ok? <==> bindOk && (enableHttps ==> certfile != "" && keyfile != "" && wrapOk))
    ensures !p.serving && !bindOk ==> r == Err(BindFailed)
    ensures r == Err(TlsFailed) <==> !p.serving && bindOk && enableHttps && certfile != "" && keyfile != "" && !wrapOk
    ensures r.Ok? ==> r.value.serving
  {
    if p.serving then Ok(p)
    else if !bindOk then Err(BindFailed)
    else if enableHttps && (certfile == "" || keyfile == "") then Err(MissingCertificate)
    else if enableHttps && !wrapOk then Err(TlsFailed)
    else Ok(Panel(true))
  }

  /** `stop`: afterwards no server (and no thread) is left, whatever the state before. */
  function Stop(p: Panel): (r: Panel)
    ensures !r.serving
  {
    Panel(false)
  }

  /** Starting twice is starting once, and stopping twice is stopping once. */
  lemma StartStopIdempotent(
    p: Panel, enableHttps: bool, certfile: string, keyfile: string, bindOk: bool, wrapOk: bool, bindOk2: bool, wrapOk2: bool)
    ensures var once := Start(p, enableHttps, certfile, keyfile, bindOk, wrapOk);
      once.Ok? ==> Start(once.value, enableHttps, certfile, keyfile, bindOk2, wrapOk2) == once
    ensures Stop(Stop(p)) == Stop(p)
  {
  }

  /** A life-cycle call on a panel, with whether the port could be bound and the socket wrapped for a `start`. */
  datatype Call = StartCall(bindOk: bool, wrapOk: bool) | StopCall

  /** The panel's TLS settings, fixed at construction. */
  datatype Tls = Tls(enableHttps: bool, certfile: string, keyfile: string)

  /** A `start` that brings a stopped panel up: the port binds and, with HTTPS, both files are named and the wrapping works. */
  predicate Opens(c: Call, tls: Tls)
  {
    c.StartCall? && c.bindOk && (tls.enableHttps ==> tls.certfile != "" && tls.keyfile != "" && c.wrapOk)
  }

  /** One call; a `start` that raises leaves the panel as it was. */
  function Apply(p: Panel, c: Call, tls: Tls): Panel
  {
    match c
    case StartCall(bindOk, wrapOk) =>
      var r := Start(p, tls.enableHttps, tls.certfile, tls.keyfile, bindOk, wrapOk);
      if r.Ok? then r.value else p
    case StopCall => Stop(p)
  }

  /** The calls in order. */
  function Replay(p: Panel, calls: seq<Call>, tls: Tls): Panel
    decreases |calls|
  {
    if calls == [] then p else Apply(Replay(p, calls[..|calls| - 1], tls), calls[|calls| - 1], tls)
  }

  /** No `stop` among the calls after position `i`. */
  predicate NoStopAfter(calls: seq<Call>, i: int)
  {
    forall j | 0 <= j < |calls| && i < j :: !calls[j].StopCall?
  }

  /**
   * After any sequence of `start` and `stop` calls the panel serves exactly
   * when some `start` brought it up after the last `stop` (or it was serving
   * and nothing stopped it).
   */
  lemma {:induction false} ServingIffOpenedSinceLastStop(p: Panel, calls: seq<Call>, tls: Tls)
    ensures Replay(p, calls, tls).serving <==>
      (exists i | 0 <= i < |calls| :: Opens(calls[i], tls) && NoStopAfter(calls, i))
      || (p.serving && NoStopAfter(calls, -1))
    decreases |calls|
  {
    if calls != [] {
      var n := |calls| - 1;
      var init := calls[..n];
      ServingIffOpenedSinceLastStop(p, init, tls);
      assert forall j | 0 <= j < n :: init[j] == calls[j];
      if calls[n].StopCall? {
        assert !NoStopAfter(calls, -1);
        assert forall i | 0 <= i < n :: !NoStopAfter(calls, i);
      } else {
        assert NoStopAfter(calls, -1) <==> NoStopAfter(init, -1);
        assert forall i | 0 <= i < n :: NoStopAfter(calls, i) <==> NoStopAfter(init, i);
        if Opens(calls[n], tls) {
          assert NoStopAfter(calls, n);
        }
      }
    }
  }
}

=== FILE: database.dfy ===
/**
 * The record store: the `check_records` and `notification_records` tables
 * as two append-only sequences, oldest row first. Timestamps are stored as
 * ISO strings by `database.py`; those compare like the instants they name,
 * so the model keeps instants. A store that cannot be reached (the SQLite
 * file cannot be opened, a statement fails) is `online == false`: reads then
 * degrade to "nothing found" and writes fail.
 */
module Database {
  import opened Base
  import opened PyText
  import opened Sorting

  datatype CheckRecord = CheckRecord(
    qq: string,
    uid: string,
    checkTime: Time,
    lastActive: Option<Time>,
    isActive: bool,
    daysInactive: int,
    statusInfo: string)

  datatype NotificationRecord = NotificationRecord(
    qq: string,
    uid: string,
    notificationTime: Time,
    daysInactive: int,
    statusInfo: string)

  datatype Store = Store(checks: seq<CheckRecord>, notifications: seq<NotificationRecord>, online: bool)

  datatype StoreError =
    | InvalidArgument(field: string)   // the ValueError raised before touching the database
    | ConstraintViolated               // sqlite3.IntegrityError from a CHECK constraint
    | Unavailable                      // any other sqlite3.Error

  const DefaultRecentHours: int := 24

  /** `not key or not isinstance(key, str)`, for a value that is a string: only the empty string is refused. */
  predicate ValidKey(key: string)
  {
    key != ""
  }

  /** The `CHECK (days_inactive >= 0 OR days_inactive = -1)` of `check_records`. */
  predicate CheckDaysAllowed(days: int)
  {
    days >= 0 || days == -1
  }

  /** The row belongs to the target named by the (stripped) keys. */
  predicate CheckFor(rec: CheckRecord, qq: string, uid: string)
  {
    IsCheckOf(rec, Strip(qq), Strip(uid))
  }

  predicate NotificationFor(rec: NotificationRecord, qq: string, uid: string)
  {
    IsNotificationOf(rec, Strip(qq), Strip(uid))
  }

  /** The row carries exactly these (already stripped) keys. */
  predicate IsCheckOf(rec: CheckRecord, qqKey: string, uidKey: string)
  {
    rec.qq == qqKey && rec.uid == uidKey
  }

  predicate IsNotificationOf(rec: NotificationRecord, qqKey: string, uidKey: string)
  {
    rec.qq == qqKey && rec.uid == uidKey
  }

  /** `save_check_record`: validate, then insert exactly one row with stripped keys; existing rows are kept as they are. */
  function SaveCheckRecord(
    store: Store, qq: string, uid: string, checkTime: Time, lastActive: Option<Time>,
    isActive: bool, days: int, statusInfo: string): (r: Result<Store, StoreError>)
    ensures r.Err? <==> !ValidKey(qq) || !ValidKey(uid) || !store.online || !CheckDaysAllowed(days)
    ensures r.Err? && (!ValidKey(qq) || !ValidKey(uid)) ==> r.error.InvalidArgument?
    ensures r.Ok? ==>
      && r.value.notifications == store.notifications
      && r.value.online
      && |r.value.checks| == |store.checks| + 1
      && r.value.checks[..|store.checks|] == store.checks
      && var added := r.value.checks[|store.checks|];
         CheckFor(added, qq, uid) && added.checkTime == checkTime && added.lastActive == lastActive
         && added.isActive == isActive && added.daysInactive == days && added.statusInfo == statusInfo
  {
    if !ValidKey(qq) then Err(InvalidArgument("qq_number"))
    else if !ValidKey(uid) then Err(InvalidArgument("bilibili_uid"))
    else if !store.online then Err(Unavailable)
    else if !CheckDaysAllowed(days) then Err(ConstraintViolated)
    else
      var added := CheckRecord(Strip(qq), Strip(uid), checkTime, lastActive, isActive, days, statusInfo);
      Ok(store.(checks := store.checks + [added]))
  }

  /** `save_notification_record`: as above, but a negative day count is refused before any write. */
  function SaveNotificationRecord(
    store: Store, qq: string, uid: string, notificationTime: Time, days: int, statusInfo: string): (r: Result<Store, StoreError>)
    ensures r.Err? <==> !ValidKey(qq) || !ValidKey(uid) || days < 0 || !store.online
    ensures r.Err? && (!ValidKey(qq) || !ValidKey(uid) || days < 0) ==> r.error.InvalidArgument?
    ensures r.Ok? ==>
      && r.value.checks == store.checks
      && r.value.online
      && |r.value.notifications| == |store.notifications| + 1
      && r.value.notifications[..|store.notifications|] == store.notifications
      && var added := r.value.notifications[|store.notifications|];
         NotificationFor(added, qq, uid) && added.notificationTime == notificationTime
         && added.daysInactive == days && added.statusInfo == statusInfo
  {
    if !ValidKey(qq) then Err(InvalidArgument("qq_number"))
    else if !ValidKey(uid) then Err(InvalidArgument("bilibili_uid"))
    else if days < 0 then Err(InvalidArgument("days_inactive"))
    else if !store.online then Err(Unavailable)
    else
      var added := NotificationRecord(Strip(qq), Strip(uid), notificationTime, days, statusInfo);
      Ok(store.(notifications := store.notifications + [added]))
  }

  /** Among `rows`, the latest row with these keys (a later row wins a tie). */
  function LatestAmong(rows: seq<CheckRecord>, qqKey: string, uidKey: string): (r: Option<CheckRecord>)
    ensures r.None? <==> forall i | 0 <= i < |rows| :: !IsCheckOf(rows[i], qqKey, uidKey)
    ensures r.Some? ==> r.value in rows && IsCheckOf(r.value, qqKey, uidKey)
    ensures r.Some? ==> forall i | 0 <= i < |rows| :: IsCheckOf(rows[i], qqKey, uidKey) ==> rows[i].checkTime <= r.value.checkTime
  {
    if rows == [] then None
    else
      var init := rows[..|rows| - 1];
      var last := rows[|rows| - 1];
      var earlier := LatestAmong(init, qqKey, uidKey);
      assert forall i | 0 <= i < |rows| - 1 :: rows[i] == init[i];
      if !IsCheckOf(last, qqKey, uidKey) then earlier
      else if earlier.Some? && earlier.value.checkTime > last.checkTime then earlier
      else Some(last)
  }

  /** `get_latest_check_record`: bad keys or an unreachable store give nothing; otherwise the target's latest row. */
  function LatestCheckRecord(store: Store, qq: string, uid: string): (r: Option<CheckRecord>)
    ensures r.Some? ==> ValidKey(qq) && ValidKey(uid) && store.online && r.value in store.checks && CheckFor(r.value, qq, uid)
    ensures r.Some? ==> forall rec | rec in store.checks && CheckFor(rec, qq, uid) :: rec.checkTime <= r.value.checkTime
    ensures r.None? <==> !ValidKey(qq) || !ValidKey(uid) || !store.online || forall rec | rec in store.checks :: !CheckFor(rec, qq, uid)
  {
    if !ValidKey(qq) || !ValidKey(uid) || !store.online then None
    else LatestAmong(store.checks, Strip(qq), Strip(uid))
  }

  /** `hours` when it is non-negative, else the default 24. */
  function EffectiveHours(hours: int): (h: nat)
    ensures hours >= 0 ==> h == hours
    ensures hours < 0 ==> h == DefaultRecentHours
  {
    if hours < 0 then DefaultRecentHours else hours
  }

  /** The sort key of `ORDER BY notification_time DESC`. */
  function NewestFirst(rec: NotificationRecord): real
  {
    -rec.notificationTime
  }

  /** The `WHERE` clause of `get_recent_notifications`: these keys, at or after `cutoff`. */
  predicate RecentOf(rec: NotificationRecord, qqKey: string, uidKey: string, cutoff: Time)
  {
    IsNotificationOf(rec, qqKey, uidKey) && rec.notificationTime >= cutoff
  }

  /** The rows with these keys at or after `cutoff`, in table order: every matching row as often as the table holds it, no other. */
  function NotificationsSince(rows: seq<NotificationRecord>, qqKey: string, uidKey: string, cutoff: Time): (r: seq<NotificationRecord>)
    ensures forall rec :: rec in r <==> rec in rows && RecentOf(rec, qqKey, uidKey, cutoff)
    ensures forall rec :: multiset(r)[rec] == if RecentOf(rec, qqKey, uidKey, cutoff) then multiset(rows)[rec] else 0
  {
    if rows == [] then []
    else
      var rest := NotificationsSince(rows[1..], qqKey, uidKey, cutoff);
      assert rows == [rows[0]] + rows[1..];
      assert forall rec :: rec in rows <==> rec == rows[0] || rec in rows[1..];
      if RecentOf(rows[0], qqKey, uidKey, cutoff) then [rows[0]] + rest else rest
  }

  /**
   * `get_recent_notifications`: exactly the target's notifications from the
   * last `hours` hours (a negative count means 24), newest first; bad keys or
   * an unreachable store give the empty list.
   */
  function RecentNotifications(store: Store, qq: string, uid: string, hours: int, now: Time): (r: seq<NotificationRecord>)
    ensures !ValidKey(qq) || !ValidKey(uid) || !store.online ==> r == []
    ensures ValidKey(qq) && ValidKey(uid) && store.online ==>
      forall rec :: rec in r <==>
        rec in store.notifications && NotificationFor(rec, qq, uid)
        && rec.notificationTime >= now - (EffectiveHours(hours) * SecondsPerHour) as real
    ensures ValidKey(qq) && ValidKey(uid) && store.online ==>
      forall rec :: multiset(r)[rec] ==
        if RecentOf(rec, Strip(qq), Strip(uid), now - (EffectiveHours(hours) * SecondsPerHour) as real)
        then multiset(store.notifications)[rec] else 0
    ensures forall i, j | 0 <= i < j < |r| :: r[i].notificationTime >= r[j].notificationTime
  {
    if !ValidKey(qq) || !ValidKey(uid) || !store.online then []
    else
      var cutoff := now - (EffectiveHours(hours) * SecondsPerHour) as real;
      NewestFirstOrder(NotificationsSince(store.notifications, Strip(qq), Strip(uid), cutoff))
  }

  /** `ORDER BY notification_time DESC`: the same rows, newest first. */
  function NewestFirstOrder(rows: seq<NotificationRecord>): (sorted: seq<NotificationRecord>)
    ensures multiset(sorted) == multiset(rows)
    ensures forall rec :: rec in sorted <==> rec in rows
    ensures forall i, j | 0 <= i < j < |sorted| :: sorted[i].notificationTime >= sorted[j].notificationTime
  {
    var sorted := SortBy(rows, NewestFirst);
    assert forall rec :: rec in sorted <==> rec in rows by {
      forall rec
        ensures rec in sorted <==> rec in rows
      {
        assert rec in sorted <==> rec in multiset(sorted);
      }
    }
    assert forall i, j | 0 <= i < j < |sorted| :: NewestFirst(sorted[i]) <= NewestFirst(sorted[j]);
    sorted
  }

  /** A check saved at or after every earlier check of the same target is what the next history lookup returns. */
  lemma SavedCheckIsLatest(
    store: Store, qq: string, uid: string, checkTime: Time, lastActive: Option<Time>,
    isActive: bool, days: int, statusInfo: string)
    requires SaveCheckRecord(store, qq, uid, checkTime, lastActive, isActive, days, statusInfo).Ok?
    requires forall rec | rec in store.checks && CheckFor(rec, qq, uid) :: rec.checkTime <= checkTime
    ensures var after := SaveCheckRecord(store, qq, uid, checkTime, lastActive, isActive, days, statusInfo).value;
      LatestCheckRecord(after, qq, uid) ==
        Some(CheckRecord(Strip(qq), Strip(uid), checkTime, lastActive, isActive, days, statusInfo))
  {
    var after := SaveCheckRecord(store, qq, uid, checkTime, lastActive, isActive, days, statusInfo).value;
    assert after.checks[..|after.checks| - 1] == store.checks;
  }

  /** A notification saved now is among the target's recent notifications for any window. */
  lemma SavedNotificationIsRecent(store: Store, qq: string, uid: string, now: Time, days: int, statusInfo: string, hours: int)
    requires SaveNotificationRecord(store, qq, uid, now, days, statusInfo).Ok?
    ensures var after := SaveNotificationRecord(store, qq, uid, now, days, statusInfo).value;
      NotificationRecord(Strip(qq), Strip(uid), now, days, statusInfo) in RecentNotifications(after, qq, uid, hours, now)
  {
    var after := SaveNotificationRecord(store, qq, uid, now, days, statusInfo).value;
    assert after.notifications[|store.notifications|] in after.notifications;
  }

  /** Recording a check never changes what the notification query answers, and the reverse. */
  lemma WritesTouchOnlyTheirTable(
    store: Store, qq: string, uid: string, t: Time, lastActive: Option<Time>, isActive: bool, days: int, info: string,
    qq2: string, uid2: string, hours: int, now: Time)
    ensures var r := SaveCheckRecord(store, qq, uid, t, lastActive, isActive, days, info);
      r.Ok? ==> RecentNotifications(r.value, qq2, uid2, hours, now) == RecentNotifications(store, qq2, uid2, hours, now)
    ensures var r := SaveNotificationRecord(store, qq, uid, t, days, info);
      r.Ok? ==> LatestCheckRecord(r.value, qq2, uid2) == LatestCheckRecord(store, qq2, uid2)
  {
  }
}

=== FILE: email_sender.dfy ===
/**
 * The alert mailer: constructor validation, the bounded send loop with its
 * terminal and retryable SMTP failures, the choice between a direct SSL
 * connection and STARTTLS, and the text of the alert.
 *
 * Each send attempt's SMTP conversation is an abstract `SmtpOutcome`; the
 * MIME message, the HTML part and the JSON dump of the check data are not
 * modelled.
 */
module EmailSender {
  import opened Base
  import opened PyText
  import opened Retry

  datatype Sender = Sender(
    server: string,
    port: int,
    senderEmail: string,
    password: string,
    receiverEmail: string,
    subjectPrefix: string,
    maxRetries: int,
    useSsl: bool)

  /** The `ValueError`s of the constructor, one per check, in the order they are made. */
  datatype SenderError = InvalidServer | InvalidPort | InvalidSenderEmail | EmptyPassword | InvalidReceiverEmail

  /** How one SMTP conversation (connect, login, sendmail) ended. */
  datatype SmtpOutcome =
    | Delivered
    | AuthenticationFailed   // SMTPAuthenticationError
    | RecipientsRefused      // SMTPRecipientsRefused
    | ServerDisconnected     // SMTPServerDisconnected
    | SmtpFailure            // any other SMTPException
    | OtherFailure           // any other exception (socket errors, timeouts)

  /** The connection kind an attempt opens. */
  datatype Transport = DirectSsl | PlainWithStartTls

  /**
   * What `send_email` did: whether it reported success, how many attempts it
   * made, its backoff sleeps, and the kind of connection each attempt opened.
   */
  datatype Delivery = Delivery(sent: bool, attempts: nat, sleeps: seq<nat>, connections: seq<Transport>)

  const DefaultMaxRetries: int := 3
  const SmtpsPort: int := 465
  const MaxPort: int := 65535
  const SubjectMarker: string := " 检测到异常 - "
  const QqOpen: string := " (QQ: "
  const UnknownTimeText: string := "无法确定"
  const LastActiveLabel: string := "  - 最后活动时间: "

  /** `EmailSender.__init__`: five checks in order; accepted addresses and server are stored stripped. */
  function NewSender(
    server: string, port: int, senderEmail: string, password: string, receiverEmail: string,
    subjectPrefix: string, maxRetries: int, useSsl: bool): (r: Result<Sender, SenderError>)
    ensures r.Ok? <==>
      server != "" && 1 <= port <= MaxPort && '@' in senderEmail && password != "" && '@' in receiverEmail
    ensures server == "" ==> r == Err(InvalidServer)
    ensures server != "" && !(1 <= port <= MaxPort) ==> r == Err(InvalidPort)
    ensures server != "" && 1 <= port <= MaxPort && '@' !in senderEmail ==> r == Err(InvalidSenderEmail)
    ensures server != "" && 1 <= port <= MaxPort && '@' in senderEmail && password == "" ==> r == Err(EmptyPassword)
    ensures r.Ok? ==>
      && r.value.server == Strip(server) && r.value.senderEmail == Strip(senderEmail)
      && r.value.receiverEmail == Strip(receiverEmail) && r.value.password == password
    ensures r.Ok? ==>
      && r.value.port == port && r.value.subjectPrefix == subjectPrefix
      && r.value.maxRetries == maxRetries && r.value.useSsl == useSsl
  {
    if server == "" then Err(InvalidServer)
    else if port <= 0 || port > MaxPort then Err(InvalidPort)
    else if senderEmail == "" || '@' !in senderEmail then Err(InvalidSenderEmail)
    else if password == "" then Err(EmptyPassword)
    else if receiverEmail == "" || '@' !in receiverEmail then Err(InvalidReceiverEmail)
    else Ok(Sender(Strip(server), port, Strip(senderEmail), password, Strip(receiverEmail), subjectPrefix, maxRetries, useSsl))
  }

  /**
   * Rebuilding a sender from the settings an accepted sender holds gives the
   * same sender back, provided its server did not strip to nothing.
   */
  lemma RebuildingSenderIsIdentity(
    server: string, port: int, senderEmail: string, password: string, receiverEmail: string,
    subjectPrefix: string, maxRetries: int, useSsl: bool, s: Sender)
    requires NewSender(server, port, senderEmail, password, receiverEmail, subjectPrefix, maxRetries, useSsl) == Ok(s)
    requires s.server != ""
    ensures NewSender(s.server, s.port, s.senderEmail, s.password, s.receiverEmail, s.subjectPrefix, s.maxRetries, s.useSsl) == Ok(s)
  {
    AcceptedSenderIsValidAndStripped(server, port, senderEmail, password, receiverEmail, subjectPrefix, maxRetries, useSsl, s);
    StrippedSettingsAccepted(s);
    NewSenderOfStrippedSettings(s);
  }

  /** An accepted sender passes every check again, and its text settings are already stripped. */
  lemma AcceptedSenderIsValidAndStripped(
    server: string, port: int, senderEmail: string, password: string, receiverEmail: string,
    subjectPrefix: string, maxRetries: int, useSsl: bool, s: Sender)
    requires NewSender(server, port, senderEmail, password, receiverEmail, subjectPrefix, maxRetries, useSsl) == Ok(s)
    ensures 1 <= s.port <= MaxPort && '@' in s.senderEmail && s.password != "" && '@' in s.receiverEmail
    ensures Strip(s.server) == s.server && Strip(s.senderEmail) == s.senderEmail && Strip(s.receiverEmail) == s.receiverEmail
  {
    assert s.server == Strip(server) && s.senderEmail == Strip(senderEmail) && s.receiverEmail == Strip(receiverEmail);
    StrippedAddressStaysValid(senderEmail);
    StrippedAddressStaysValid(receiverEmail);
    StripIdempotent(server);
  }

  /** A sender whose settings pass every check is accepted when rebuilt. */
  lemma StrippedSettingsAccepted(s: Sender)
    requires s.server != "" && 1 <= s.port <= MaxPort && '@' in s.senderEmail && s.password != "" && '@' in s.receiverEmail
    ensures NewSender(s.server, s.port, s.senderEmail, s.password, s.receiverEmail, s.subjectPrefix, s.maxRetries, s.useSsl).Ok?
  {
  }

  /** An accepted rebuild of a sender whose text settings are already stripped is that sender, field by field. */
  lemma NewSenderOfStrippedSettings(s: Sender)
    requires NewSender(s.server, s.port, s.senderEmail, s.password, s.receiverEmail, s.subjectPrefix, s.maxRetries, s.useSsl).Ok?
    requires Strip(s.server) == s.server && Strip(s.senderEmail) == s.senderEmail && Strip(s.receiverEmail) == s.receiverEmail
    ensures NewSender(s.server, s.port, s.senderEmail, s.password, s.receiverEmail, s.subjectPrefix, s.maxRetries, s.useSsl) == Ok(s)
  {
    var v := NewSender(s.server, s.port, s.senderEmail, s.password, s.receiverEmail, s.subjectPrefix, s.maxRetries, s.useSsl).value;
    assert v.server == s.server;
    assert v.port == s.port;
    assert v.senderEmail == s.senderEmail;
    assert v.password == s.password;
    assert v.receiverEmail == s.receiverEmail;
    assert v.subjectPrefix == s.subjectPrefix;
    assert v.maxRetries == s.maxRetries;
    assert v.useSsl == s.useSsl;
  }

  /** An address with an '@' still has one once stripped, and stripping it again changes nothing. */
  lemma StrippedAddressStaysValid(e: string)
    requires '@' in e
    ensures '@' in Strip(e) && Strip(Strip(e)) == Strip(e)
  {
    StripKeepsNonSpace(e, '@');
    StripIdempotent(e);
  }

  /** The server is checked before it is stripped: an all-whitespace server is accepted and stored empty. */
  lemma BlankServerIsAccepted(
    server: string, port: int, senderEmail: string, password: string, receiverEmail: string,
    subjectPrefix: string, maxRetries: int, useSsl: bool)
    requires |server| > 0 && SpaceBetween(server, 0, |server|)
    requires 1 <= port <= MaxPort && '@' in senderEmail && password != "" && '@' in receiverEmail
    ensures var r := NewSender(server, port, senderEmail, password, receiverEmail, subjectPrefix, maxRetries, useSsl);
      r.Ok? && r.value.server == ""
  {
  }

  /** A direct SSL connection when asked for or when the port is 465; otherwise plain SMTP upgraded by STARTTLS. */
  function TransportFor(s: Sender): (t: Transport)
    ensures t == DirectSsl <==> s.useSsl || s.port == SmtpsPort
  {
    if s.useSsl || s.port == SmtpsPort then DirectSsl else PlainWithStartTls
  }

  /** Authentication and recipient errors end the loop; every other failure is retried. */
  function ClassifySmtp(o: SmtpOutcome): (r: Step<()>)
    ensures r.Succeed? <==> o == Delivered
    ensures r.GiveUp? <==> o == AuthenticationFailed || o == RecipientsRefused
    ensures r.Transient? <==> o != Delivered && o != AuthenticationFailed && o != RecipientsRefused
  {
    match o
    case Delivered => Succeed(())
    case AuthenticationFailed => GiveUp
    case RecipientsRefused => GiveUp
    case _ => Transient
  }

  /** `send_email`: an empty subject or body is refused without an attempt; otherwise up to `maxRetries` attempts. */
  function SendEmail(s: Sender, subject: string, body: string, outcomes: seq<SmtpOutcome>): (d: Delivery)
    ensures subject == "" || body == "" ==> d == Delivery(false, 0, [], [])
    ensures d.attempts <= Max(s.maxRetries, 0)
    ensures |d.connections| == d.attempts && forall i | 0 <= i < |d.connections| :: d.connections[i] == TransportFor(s)
    ensures d.sent ==> d.attempts >= 1 && d.attempts - 1 < |outcomes| && outcomes[d.attempts - 1] == Delivered
    ensures d.attempts > 0 ==> |d.sleeps| == d.attempts - 1
    ensures forall k | 0 <= k < |d.sleeps| :: d.sleeps[k] == Pow2(k)
  {
    if subject == "" || body == "" then Delivery(false, 0, [], [])
    else
      var run := Attempt(outcomes, ClassifySmtp, s.maxRetries);
      assert run.result.Some? ==> StepAt(outcomes, ClassifySmtp, run.attempts - 1).Succeed?;
      Delivery(run.result.Some?, run.attempts, run.sleeps, seq(run.attempts, _ => TransportFor(s)))
  }

  /**
   * The send succeeds exactly when some attempt within the budget delivers
   * and every attempt before it failed in a retryable way.
   */
  lemma SentIff(s: Sender, subject: string, body: string, outcomes: seq<SmtpOutcome>)
    requires subject != "" && body != ""
    ensures SendEmail(s, subject, body, outcomes).sent <==>
      exists k: nat | k < s.maxRetries && k < |outcomes| ::
        outcomes[k] == Delivered && forall i | 0 <= i < k :: ClassifySmtp(outcomes[i]).Transient?
  {
    AttemptSucceedsIff(outcomes, ClassifySmtp, s.maxRetries, ());
    if SendEmail(s, subject, body, outcomes).sent {
      var k: nat :| k < s.maxRetries && StepAt(outcomes, ClassifySmtp, k) == Succeed(()) && TransientBetween(outcomes, ClassifySmtp, 0, k);
      assert k < |outcomes| && outcomes[k] == Delivered;
      forall i | 0 <= i < k
        ensures ClassifySmtp(outcomes[i]).Transient?
      {
        assert StepAt(outcomes, ClassifySmtp, i).Transient?;
      }
    }
    if exists k: nat | k < s.maxRetries && k < |outcomes| ::
        outcomes[k] == Delivered && forall i | 0 <= i < k :: ClassifySmtp(outcomes[i]).Transient? {
      var k: nat :| k < s.maxRetries && k < |outcomes| &&
        outcomes[k] == Delivered && forall i | 0 <= i < k :: ClassifySmtp(outcomes[i]).Transient?;
      assert StepAt(outcomes, ClassifySmtp, k) == Succeed(());
      assert TransientBetween(outcomes, ClassifySmtp, 0, k);
      assert Attempt(outcomes, ClassifySmtp, s.maxRetries).result == Some(());
    }
  }

  /** A refused login or refused recipients right after some retryable failures ends the loop there: no further attempt. */
  lemma TerminalFailureIsNotRetried(s: Sender, subject: string, body: string, outcomes: seq<SmtpOutcome>, k: nat)
    requires subject != "" && body != ""
    requires k < s.maxRetries && k < |outcomes|
    requires outcomes[k] == AuthenticationFailed || outcomes[k] == RecipientsRefused
    requires forall i | 0 <= i < k :: ClassifySmtp(outcomes[i]).Transient?
    ensures var d := SendEmail(s, subject, body, outcomes);
      !d.sent && d.attempts == k + 1 && |d.sleeps| == k
  {
    assert TransientBetween(outcomes, ClassifySmtp, 0, k) by {
      forall i | 0 <= i < k
        ensures StepAt(outcomes, ClassifySmtp, i).Transient?
      {
      }
    }
    FirstDecisiveAttempt(outcomes, ClassifySmtp, s.maxRetries, k);
  }

  /** Only retryable failures: every allowed attempt is made, with a sleep between consecutive ones, and the send fails. */
  lemma RetryableFailuresExhaustBudget(s: Sender, subject: string, body: string, outcomes: seq<SmtpOutcome>)
    requires subject != "" && body != "" && s.maxRetries > 0
    requires forall i | 0 <= i < |outcomes| :: outcomes[i] in {ServerDisconnected, SmtpFailure, OtherFailure}
    ensures var d := SendEmail(s, subject, body, outcomes);
      !d.sent && d.attempts == s.maxRetries && |d.sleeps| == s.maxRetries - 1
  {
    assert TransientBetween(outcomes, ClassifySmtp, 0, s.maxRetries) by {
      forall i | 0 <= i < s.maxRetries
        ensures StepAt(outcomes, ClassifySmtp, i).Transient?
      {
        if i < |outcomes| {
          assert outcomes[i] in {ServerDisconnected, SmtpFailure, OtherFailure};
        }
      }
    }
    AllTransientExhaustsBudget(outcomes, ClassifySmtp, s.maxRetries);
  }

  /** The alert subject `"{prefix} 检测到异常 - {name} (QQ: {qq})"`. */
  function NotificationSubject(prefix: string, name: string, qq: string): (subject: string)
    ensures |subject| > 0
  {
    prefix + SubjectMarker + name + QqOpen + qq + ")"
  }

  /** The subject opens with the configured prefix and closes with the QQ number in brackets. */
  lemma SubjectFramesTarget(prefix: string, name: string, qq: string)
    ensures var subject := NotificationSubject(prefix, name, qq);
      && subject[..|prefix|] == prefix
      && subject[|prefix|..|prefix| + |SubjectMarker|] == SubjectMarker
      && subject[|subject| - |qq| - 1..] == qq + ")"
  {
    var subject := NotificationSubject(prefix, name, qq);
    assert subject == prefix + (SubjectMarker + name + QqOpen + qq + ")");
    assert subject == (prefix + SubjectMarker) + (name + QqOpen + qq + ")");
    assert subject == (prefix + SubjectMarker + name + QqOpen) + (qq + ")");
  }

  /** The body line about the last activity: the formatted time, or "无法确定" when it is unknown. */
  function LastActiveLine(lastActive: Option<Time>, fmt: Time -> string): (line: string)
    ensures lastActive.None? ==> line == LastActiveLabel + UnknownTimeText
    ensures lastActive.Some? ==> line == LastActiveLabel + fmt(lastActive.value)
  {
    LastActiveLabel + (if lastActive.Some? then fmt(lastActive.value) else UnknownTimeText)
  }

  /** The line names the time exactly: what follows the label is the formatted time, or the "unknown" text. */
  lemma LastActiveLineNamesTime(lastActive: Option<Time>, fmt: Time -> string)
    ensures var line := LastActiveLine(lastActive, fmt);
      && line[..|LastActiveLabel|] == LastActiveLabel
      && line[|LastActiveLabel|..] == (if lastActive.Some? then fmt(lastActive.value) else UnknownTimeText)
  {
  }

  /** Whenever the formatter never prints "无法确定", a known time and an unknown one give different lines. */
  lemma KnownTimeNeverReadsUnknown(t: Time, fmt: Time -> string)
    requires fmt(t) != UnknownTimeText
    ensures LastActiveLine(Some(t), fmt) != LastActiveLine(None, fmt)
  {
    LastActiveLineNamesTime(Some(t), fmt);
    LastActiveLineNamesTime(None, fmt);
  }

  /** The plain-text body up to (excluding) the JSON dump of the check data, joined with newlines. */
  function NotificationBody(
    name: string, qq: string, uid: string, days: int, lastActive: Option<Time>, statusInfo: string,
    now: Time, fmt: Time -> string): (body: string)
    ensures |body| > 0
  {
    JoinLines([
      "检测到目标用户出现异常情况：", "",
      "用户信息：",
      "  - 名称: " + name,
      "  - QQ号: " + qq,
      "  - B站UID: " + uid,
      "",
      "检测结果：",
      "  - 不活跃天数: " + IntToDecimal(days) + " 天",
      LastActiveLine(lastActive, fmt),
      "  - 状态信息: " + statusInfo,
      "",
      "检测时间: " + fmt(now),
      "",
      "详细数据："])
  }

  /** `"\n".join(lines)`. */
  function JoinLines(lines: seq<string>): (text: string)
    ensures |lines| > 1 ==> |text| > 0
    decreases |lines|
  {
    if lines == [] then ""
    else if |lines| == 1 then lines[0]
    else lines[0] + "\n" + JoinLines(lines[1..])
  }

  /** `send_notification_email`: builds the subject and body and hands them to `send_email`. */
  function SendNotificationEmail(
    s: Sender, qq: string, uid: string, name: string, days: int, lastActive: Option<Time>, statusInfo: string,
    now: Time, fmt: Time -> string, outcomes: seq<SmtpOutcome>): (d: Delivery)
    ensures s.maxRetries >= 1 ==> d.attempts >= 1
    ensures d.attempts <= Max(s.maxRetries, 0)
  {
    var subject := NotificationSubject(s.subjectPrefix, name, qq);
    var body := NotificationBody(name, qq, uid, days, lastActive, statusInfo, now, fmt);
    SendEmail(s, subject, body, outcomes)
  }

  /** A first SMTP conversation that delivers settles the notification in one attempt. */
  lemma FirstDeliveryIsSent(
    s: Sender, qq: string, uid: string, name: string, days: int, lastActive: Option<Time>, statusInfo: string,
    now: Time, fmt: Time -> string, outcomes: seq<SmtpOutcome>)
    requires s.maxRetries >= 1 && |outcomes| > 0 && outcomes[0] == Delivered
    ensures var d := SendNotificationEmail(s, qq, uid, name, days, lastActive, statusInfo, now, fmt, outcomes);
      d.sent && d.attempts == 1 && d.sleeps == []
  {
    assert StepAt(outcomes, ClassifySmtp, 0) == Succeed(());
  }
}

=== FILE: json_values.dfy ===
/**
 * JSON-like documents as the Python code sees them after `json.loads` or
 * `yaml.safe_load`, with the Python operations the monitor applies to them:
 * truthiness, `dict.get`, `isinstance(v, int)`, `==` against an int, `len`
 * and `str()`.
 */
module JsonValues {
  import opened Base
  import opened PyText

  datatype Json =
    | JNull
    | JBool(b: bool)
    | JInt(i: int)
    | JFloat(r: real)
    | JStr(s: string)
    | JArray(items: seq<Json>)
    | JObject(fields: map<string, Json>)

  const EmptyObject: Json := JObject(map[])

  /** Python truthiness: `None`, `False`, zero, and empty strings/lists/dicts are falsy. */
  predicate Truthy(v: Json)
  {
    match v
    case JNull => false
    case JBool(b) => b
    case JInt(i) => i != 0
    case JFloat(r) => r != 0.0
    case JStr(s) => |s| > 0
    case JArray(items) => |items| > 0
    case JObject(fields) => |fields| > 0
  }

  /** `d.get(key, default)`. */
  function GetOr(fields: map<string, Json>, key: string, default: Json): (v: Json)
    ensures key in fields ==> v == fields[key]
    ensures key !in fields ==> v == default
  {
    if key in fields then fields[key] else default
  }

  /** `isinstance(v, (int, float))`, which also holds of `True` and `False`, and the value's magnitude. */
  function Number(v: Json): (r: Option<real>)
    ensures r.Some? <==> v.JInt? || v.JFloat? || v.JBool?
  {
    match v
    case JInt(i) => Some(i as real)
    case JFloat(x) => Some(x)
    case JBool(b) => Some(if b then 1.0 else 0.0)
    case _ => None
  }

  /** `isinstance(v, int)`, which also holds of `True` and `False`, and the value. */
  function PyInt(v: Json): (r: Option<int>)
    ensures r.Some? <==> v.JInt? || v.JBool?
    ensures r.Some? ==> Number(v) == Some(r.value as real)
  {
    match v
    case JInt(i) => Some(i)
    case JBool(b) => Some(if b then 1 else 0)
    case _ => None
  }

  /** Python's `v == n` for an int `n`: numbers compare by value, `False == 0` and `True == 1`. */
  predicate EqualsInt(v: Json, n: int)
  {
    Number(v) == Some(n as real)
  }

  /** `len(v)`, defined for strings, lists and dicts; `None` stands for the `TypeError` raised otherwise. */
  function PyLen(v: Json): (r: Option<nat>)
    ensures r.Some? <==> v.JStr? || v.JArray? || v.JObject?
    ensures r.Some? ==> (r.value > 0 <==> Truthy(v))
  {
    match v
    case JStr(s) => Some(|s|)
    case JArray(items) => Some(|items|)
    case JObject(fields) => Some(|fields|)
    case _ => None
  }

  /**
   * `key in v`: a key of a dict, a substring of a string, or an element of a
   * list (only the string `key` itself equals it); `None` stands for the
   * `TypeError` raised on any other type.
   */
  function PyIn(key: string, v: Json): (r: Option<bool>)
    ensures r.Some? <==> PyLen(v).Some?
    ensures v.JObject? ==> r == Some(key in v.fields)
    ensures v.JStr? ==> r == Some(IsSubstring(key, v.s))
    ensures v.JArray? ==> r == Some(exists i | 0 <= i < |v.items| :: v.items[i] == JStr(key))
  {
    match v
    case JObject(fields) => Some(key in fields)
    case JStr(s) => Some(IsSubstring(key, s))
    case JArray(items) => Some(JStr(key) in items)
    case _ => None
  }

  /** `type(v).__name__`, as it appears in Python's error messages. */
  function TypeName(v: Json): string
  {
    match v
    case JNull => "NoneType"
    case JBool(_) => "bool"
    case JInt(_) => "int"
    case JFloat(_) => "float"
    case JStr(_) => "str"
    case JArray(_) => "list"
    case JObject(_) => "dict"
  }

  /**
   * `str(v)`. Exact for None, booleans, ints and strings; floats, lists and
   * dicts get a stand-in text that, like Python's, is never blank and never
   * all digits.
   */
  function PyStr(v: Json): (r: string)
    ensures v.JStr? ==> r == v.s
    ensures v.JInt? ==> r == IntToDecimal(v.i)
  {
    match v
    case JNull => "None"
    case JBool(b) => if b then "True" else "False"
    case JInt(i) => IntToDecimal(i)
    case JFloat(_) => "<float>"
    case JStr(s) => s
    case JArray(_) => "[...]"
    case JObject(_) => "{...}"
  }

  /** A string that neither starts nor ends with whitespace is its own `strip()`. */
  lemma StripKeeps(s: string)
    requires |s| > 0 && !IsSpace(s[0]) && !IsSpace(s[|s| - 1])
    ensures Strip(s) == s
  {
    assert TrimStart(s) == s;
    assert TrimEnd(s) == s;
  }

  /** Only a string value can `str()`-render to a blank or differently-stripped text; only ints render as digits. */
  lemma {:induction false} PyStrOfNonString(v: Json)
    requires !v.JStr?
    ensures Strip(PyStr(v)) == PyStr(v) && PyStr(v) != ""
    ensures !v.JInt? ==> !IsDigitString(PyStr(v))
  {
    var r := PyStr(v);
    match v {
      case JInt(i) =>
        if i >= 0 {
          assert IsAsciiDigit(r[0]);
        }
        assert IsAsciiDigit(r[|r| - 1]);
      case JNull => assert r == "None";
      case JBool(b) => assert r == "True" || r == "False";
      case JFloat(_) => assert r == "<float>";
      case JArray(_) => assert r == "[...]";
      case JObject(_) => assert r == "{...}";
    }
    StripKeeps(r);
  }

  /** A JSON value `str()`-renders to a blank string exactly when it is a whitespace-only string. */
  lemma BlankOnlyForStrings(v: Json)
    ensures Strip(PyStr(v)) == "" <==> v.JStr? && SpaceBetween(v.s, 0, |v.s|)
  {
    if !v.JStr? {
      PyStrOfNonString(v);
    }
  }
}

=== FILE: monitor.dfy ===
/**
 * `MonitorService.check_target`: one check of one target. The detector
 * decides activity, the history fills in a missing last-active time, a check
 * record is saved, and an alert goes out only to an eligible target that was
 * not alerted in the last 24 hours, once the NTP gate trusts the clock. Every
 * piece of the outside world the check consults (the Bilibili replies, the
 * NTP replies, the SMTP conversations, the clock, the JSON decoder and the
 * time formatter) is an input: one `World` per check.
 */
module Monitor {
  import opened Base
  import opened PyText
  import opened JsonValues
  import BilibiliChecker
  import TimeSync
  import opened Database
  import opened EmailSender
  import Config

  /** Everything outside the process that one check consults. */
  datatype World = World(
    profileReplies: seq<BilibiliChecker.HttpOutcome>,
    feedReplies: seq<BilibiliChecker.HttpOutcome>,
    ntpReplies: seq<TimeSync.NtpReply>,
    smtp: seq<seq<SmtpOutcome>>,      // the SMTP conversations of each `send_notification_email` call, in call order
    now: Time,
    decode: string -> Option<Json>,
    fmt: Time -> string)

  /** The target's keys as `check_target` normalises them, and its display name. */
  datatype Target = Target(qq: string, uid: string, name: string)

  /** The inactive-day count and the status text after the history has been consulted. */
  datatype Assessment = Assessment(days: int, note: string)

  /** Where the check ended. */
  datatype Stage =
    | InvalidTarget        // not a mapping, or a blank key: False
    | DetectorRejected     // the detector's ValueError for a malformed UID: False
    | NotEligible          // below the threshold, or the day count is unknown: True
    | RecentlyNotified     // an alert in the last 24 hours: True, nothing sent
    | TimeUntrusted        // TimeSyncError: True, nothing sent
    | TimeGateCrashed      // any other error of the gate (an unreadable time-sync section, the median of no samples): False
    | NotifyAborted        // `range()` refused the retry count: True, nothing sent
    | NotifyFailed         // every notification call failed: True
    | Notified             // an alert went out: True

  /**
   * What one check did: its return value, where it ended, the store after it,
   * the day count and status text it worked with, how many profile requests
   * it made, how many notification calls it made and the sleeps between them.
   */
  datatype Report = Report(
    ok: bool, stage: Stage, store: Store, days: int, statusInfo: string,
    profileAttempts: nat, sendCalls: nat, sleeps: seq<nat>)

  /** The outcome of the notification loop. */
  datatype NotifyRun = NotifyRun(sent: bool, calls: nat, sleeps: seq<nat>)

  const RecentWindowHours: int := 24
  const MaxNotifySleep: int := 30
  const HistoryNoteOpen: string := " (使用历史记录: "
  const NoHistoryNote: string := " (无历史记录)"
  const NamePrefix: string := "QQ_"

  /** `str(target.get(key, '')).strip()`. */
  function KeyOf(fields: map<string, Json>, key: string): (k: string)
    ensures key !in fields ==> k == ""
  {
    Strip(PyStr(GetOr(fields, key, JStr(""))))
  }

  /** A target `check_target` proceeds with: both keys non-blank. */
  predicate WellFormed(t: Target)
  {
    ValidKey(t.qq) && ValidKey(t.uid)
  }

  /** The validation at the top of `check_target`. */
  function TargetOf(target: Json): (r: Option<Target>)
    ensures r.Some? <==> target.JObject? && KeyOf(target.fields, "qq_number") != "" && KeyOf(target.fields, "bilibili_uid") != ""
    ensures r.Some? ==> WellFormed(r.value)
    ensures r.Some? ==> r.value.qq == KeyOf(target.fields, "qq_number") && r.value.uid == KeyOf(target.fields, "bilibili_uid")
    ensures r.Some? && "name" !in target.fields ==> r.value.name == NamePrefix + r.value.qq
  {
    if !target.JObject? then None
    else
      var qq := KeyOf(target.fields, "qq_number");
      var uid := KeyOf(target.fields, "bilibili_uid");
      if qq == "" || uid == "" then None
      else Some(Target(qq, uid, PyStr(GetOr(target.fields, "name", JStr(NamePrefix + qq)))))
  }

  /** Every target the configuration validator accepts passes the check's own validation, and no other. */
  lemma ValidatedTargetsAreChecked(target: Json)
    ensures Config.ValidTarget(target) <==> TargetOf(target).Some?
  {

  }

  /** The last-active time of the target's latest check record, when there is one. */
  function HistoryTime(store: Store, t: Target): (h: Option<Time>)
    ensures h.Some? ==> store.online
    ensures h.Some? ==> exists rec | rec in store.checks && CheckFor(rec, t.qq, t.uid) ::
      && rec.lastActive == h
      && forall other | other in store.checks && CheckFor(other, t.qq, t.uid) :: other.checkTime <= rec.checkTime
    ensures (forall rec | rec in store.checks :: !CheckFor(rec, t.qq, t.uid)) ==> h.None?
  {
    match LatestCheckRecord(store, t.qq, t.uid)
    case Some(rec) => rec.lastActive
    case None => None
  }

  /** The history fallback reads back the last-active time of the newest check saved for the target. */
  lemma HistoryIsNewestSavedTime(
    store: Store, t: Target, checkTime: Time, lastActive: Option<Time>, isActive: bool, days: int, info: string)
    requires SaveCheckRecord(store, t.qq, t.uid, checkTime, lastActive, isActive, days, info).Ok?
    requires forall rec | rec in store.checks && CheckFor(rec, t.qq, t.uid) :: rec.checkTime <= checkTime
    ensures HistoryTime(SaveCheckRecord(store, t.qq, t.uid, checkTime, lastActive, isActive, days, info).value, t) == lastActive
  {
    SavedCheckIsLatest(store, t.qq, t.uid, checkTime, lastActive, isActive, days, info);
  }

  /**
   * The day count of `check_target`: from the detector's time when it has
   * one, else from the latest check record's time (noted in the status text),
   * else -1 (also noted).
   */
  function ResolveDays(store: Store, t: Target, activity: BilibiliChecker.Activity, now: Time, fmt: Time -> string): (a: Assessment)
    ensures a.days >= -1
    ensures a.days == -1 <==> activity.lastActive.None? && HistoryTime(store, t).None?
    ensures activity.lastActive.Some? ==>
      a.days == BilibiliChecker.InactiveDays(activity.lastActive, now) && a.note == activity.note
    ensures activity.lastActive.None? && HistoryTime(store, t).Some? ==>
      a.days == BilibiliChecker.InactiveDays(HistoryTime(store, t), now)
      && a.note == activity.note + HistoryNoteOpen + fmt(HistoryTime(store, t).value) + ")"
    ensures activity.lastActive.None? && HistoryTime(store, t).None? ==> a.note == activity.note + NoHistoryNote
  {
    if activity.lastActive.Some? then
      Assessment(BilibiliChecker.InactiveDays(activity.lastActive, now), activity.note)
    else
      match HistoryTime(store, t)
      case Some(h) => Assessment(BilibiliChecker.InactiveDays(Some(h), now), activity.note + HistoryNoteOpen + fmt(h) + ")")
      case None => Assessment(-1, activity.note + NoHistoryNote)
  }

  /** When the detector has a time, the history is not consulted: any two stores give the same assessment. */
  lemma DetectorTimeOverridesHistory(
    store1: Store, store2: Store, t: Target, activity: BilibiliChecker.Activity, now: Time, fmt: Time -> string)
    requires activity.lastActive.Some?
    ensures ResolveDays(store1, t, activity, now, fmt) == ResolveDays(store2, t, activity, now, fmt)
  {
  }

  /** The day count never goes down as the clock moves on, whichever time it comes from. */
  lemma DaysNeverDecrease(store: Store, t: Target, activity: BilibiliChecker.Activity, now1: Time, now2: Time, fmt: Time -> string)
    requires now1 <= now2
    ensures ResolveDays(store, t, activity, now1, fmt).days <= ResolveDays(store, t, activity, now2, fmt).days
  {
    var last := if activity.lastActive.Some? then activity.lastActive else HistoryTime(store, t);
    BilibiliChecker.InactiveDaysMonotone(last, now1, now2);
  }

  /** The check record `check_target` writes: the detector's own time, and an unknown day count stored as 0. */
  function CheckRowOf(t: Target, activity: BilibiliChecker.Activity, a: Assessment, now: Time): CheckRecord
  {
    CheckRecord(Strip(t.qq), Strip(t.uid), now, activity.lastActive, activity.isActive, if a.days >= 0 then a.days else 0, a.note)
  }

  /** Saving the check record; a failed save is logged and the check carries on with the store as it was. */
  function RecordCheck(store: Store, t: Target, activity: BilibiliChecker.Activity, a: Assessment, now: Time): (s: Store)
    requires WellFormed(t) && a.days >= -1
    ensures store.online ==> s == store.(checks := store.checks + [CheckRowOf(t, activity, a, now)])
    ensures !store.online ==> s == store
  {
    var saved := SaveCheckRecord(store, t.qq, t.uid, now, activity.lastActive, activity.isActive,
                                 if a.days >= 0 then a.days else 0, a.note);
    if saved.Ok? then
      assert saved.value.checks == saved.value.checks[..|store.checks|] + [saved.value.checks[|store.checks|]];
      saved.value
    else store
  }

  /** Whether the day count calls for an alert: at least the threshold, and known. */
  predicate Eligible(days: int, threshold: nat)
  {
    days >= threshold && days >= 0
  }

  /** `send_notification_email` as call number `i` of the loop, with that call's SMTP conversations (none past the end). */
  predicate CallSent(sender: Sender, t: Target, a: Assessment, lastActive: Option<Time>, w: World, i: nat)
  {
    var outcomes := if i < |w.smtp| then w.smtp[i] else [];
    SendNotificationEmail(sender, t.qq, t.uid, t.name, a.days, lastActive, a.note, w.now, w.fmt, outcomes).sent
  }

  /** The backoff after failed call `attempt`: `min(30, 2 ** attempt)` seconds. */
  function NotifySleep(attempt: nat): (s: nat)
    ensures 1 <= s <= MaxNotifySleep
  {
    Min(MaxNotifySleep, Pow2(attempt))
  }

  /**
   * `for attempt in range(budget)`, with `sentAt(i)` the answer of call `i`:
   * call until one call reports success; a failed call is followed by a
   * sleep, the last one included.
   */
  function NotifyLoop(sentAt: nat -> bool, budget: int, attempt: nat): (r: NotifyRun)
    ensures r.calls <= Max(budget - attempt, 0)
    ensures r.sent <==> exists i | attempt <= i < budget :: sentAt(i)
    ensures r.sent ==> r.calls >= 1 && |r.sleeps| == r.calls - 1 && sentAt(attempt + r.calls - 1)
    ensures !r.sent ==> r.calls == Max(budget - attempt, 0) && |r.sleeps| == r.calls
    ensures forall i | attempt <= i < attempt + |r.sleeps| :: !sentAt(i)
    ensures forall k | 0 <= k < |r.sleeps| :: r.sleeps[k] == NotifySleep(attempt + k)
    decreases budget - attempt
  {
    if attempt >= budget then NotifyRun(false, 0, [])
    else if sentAt(attempt) then NotifyRun(true, 1, [])
    else
      var rest := NotifyLoop(sentAt, budget, attempt + 1);
      NotifyRun(rest.sent, rest.calls + 1, [NotifySleep(attempt)] + rest.sleeps)
  }

  /** The notification record an alert writes. */
  function NotificationRowOf(t: Target, a: Assessment, now: Time): NotificationRecord
  {
    NotificationRecord(Strip(t.qq), Strip(t.uid), now, a.days, a.note)
  }

  /** What the alert path may do to the store: append the alert's record when it was sent and the store is reachable, nothing else. */
  predicate AlertWrite(before: Store, after: Store, t: Target, a: Assessment, now: Time, stage: Stage)
  {
    if stage == Notified && before.online then
      after == before.(notifications := before.notifications + [NotificationRowOf(t, a, now)])
    else after == before
  }

  /** The report carries the check's day count, status text and profile attempts unchanged. */
  predicate Carries(r: Report, a: Assessment, profileAttempts: nat)
  {
    r.days == a.days && r.statusInfo == a.note && r.profileAttempts == profileAttempts
  }

  /** The notification loop with `budget` calls and, when it succeeds, the notification record. */
  function Deliver(
    sender: Sender, t: Target, activity: BilibiliChecker.Activity, a: Assessment,
    profileAttempts: nat, store: Store, w: World, budget: int): (r: Report)
    requires WellFormed(t) && a.days >= 0
    ensures r.ok && r.stage in {NotifyFailed, Notified}
    ensures r.stage == Notified <==> exists i | 0 <= i < budget :: CallSent(sender, t, a, activity.lastActive, w, i)
    ensures r.sendCalls <= Max(budget, 0)
    ensures r.stage == Notified ==> r.sendCalls >= 1
    ensures r.stage == NotifyFailed ==> r.sendCalls == Max(budget, 0)
    ensures Carries(r, a, profileAttempts) && AlertWrite(store, r.store, t, a, w.now, r.stage)
  {
    var sentAt := (i: nat) => CallSent(sender, t, a, activity.lastActive, w, i);
    var run := NotifyLoop(sentAt, budget, 0);
    if !run.sent then
      assert forall i | 0 <= i < budget :: !CallSent(sender, t, a, activity.lastActive, w, i) by {
        forall i | 0 <= i < budget
          ensures !CallSent(sender, t, a, activity.lastActive, w, i)
        {
          assert !sentAt(i);
        }
      }
      Report(true, NotifyFailed, store, a.days, a.note, profileAttempts, run.calls, run.sleeps)
    else
      var saved := SaveNotificationRecord(store, t.qq, t.uid, w.now, a.days, a.note);
      var after := if saved.Ok? then saved.value else store;
      assert saved.Ok? ==> after.notifications == store.notifications + [NotificationRowOf(t, a, w.now)] by {
        if saved.Ok? {
          assert after.notifications == after.notifications[..|store.notifications|] + [after.notifications[|store.notifications|]];
        }
      }
      Report(true, Notified, after, a.days, a.note, profileAttempts, run.calls, run.sleeps)
  }

  /** The gate's settings could be read and the NTP answers give a trusted time. */
  predicate ClockTrusted(settings: Config.Settings, w: World)
  {
    && settings.timeSync.Some?
    && TimeSync.TrustedTime(w.ntpReplies, settings.timeSync.value.maxSkew, settings.timeSync.value.minSuccess, w.now).Ok?
  }

  /** The gate raises something other than `TimeSyncError`: the section cannot be read, or no server answered at all. */
  predicate GateCrashes(settings: Config.Settings, w: World)
  {
    || settings.timeSync.None?
    || TimeSync.TrustedTime(w.ntpReplies, settings.timeSync.value.maxSkew, settings.timeSync.value.minSuccess, w.now)
       == Err(TimeSync.NoSamples)
  }

  /**
   * The trusted-time gate before any notification: a `TimeSyncError` skips
   * the alert (the check still succeeds), any other failure of the gate (a
   * time-sync section that cannot be read, no NTP answer at all) fails the
   * check, and a retry count `range()` refuses sends nothing.
   */
  function TimeGated(
    settings: Config.Settings, sender: Sender, t: Target, activity: BilibiliChecker.Activity, a: Assessment,
    profileAttempts: nat, store: Store, w: World): (r: Report)
    requires WellFormed(t) && a.days >= 0
    ensures r.stage in {TimeUntrusted, TimeGateCrashed, NotifyAborted, NotifyFailed, Notified}
    ensures r.ok <==> r.stage != TimeGateCrashed
    ensures r.stage == TimeGateCrashed <==> GateCrashes(settings, w)
    ensures r.sendCalls > 0 || r.stage == Notified ==>
      && ClockTrusted(settings, w)
      && settings.notifyRetries.Some? && r.sendCalls <= settings.notifyRetries.value
    ensures r.stage == Notified ==> r.sendCalls >= 1
    ensures Carries(r, a, profileAttempts) && AlertWrite(store, r.store, t, a, w.now, r.stage)
  {
    if settings.timeSync.None? then Report(false, TimeGateCrashed, store, a.days, a.note, profileAttempts, 0, [])
    else
    match TimeSync.TrustedTime(w.ntpReplies, settings.timeSync.value.maxSkew, settings.timeSync.value.minSuccess, w.now)
    case Err(e) =>
      if e.NoSamples? then Report(false, TimeGateCrashed, store, a.days, a.note, profileAttempts, 0, [])
      else Report(true, TimeUntrusted, store, a.days, a.note, profileAttempts, 0, [])
    case Ok(_) =>
      match settings.notifyRetries
      case None => Report(true, NotifyAborted, store, a.days, a.note, profileAttempts, 0, [])
      case Some(budget) => Deliver(sender, t, activity, a, profileAttempts, store, w, budget)
  }

  /** The alert path of an eligible target: no alert when one went out in the last 24 hours, else the gate. */
  function Alert(
    settings: Config.Settings, sender: Sender, t: Target, activity: BilibiliChecker.Activity, a: Assessment,
    profileAttempts: nat, store: Store, w: World): (r: Report)
    requires WellFormed(t) && a.days >= 0
    ensures r.stage == RecentlyNotified <==> RecentNotifications(store, t.qq, t.uid, RecentWindowHours, w.now) != []
    ensures r.ok <==> r.stage != TimeGateCrashed
    ensures r.stage == TimeGateCrashed <==>
      RecentNotifications(store, t.qq, t.uid, RecentWindowHours, w.now) == [] && GateCrashes(settings, w)
    ensures r.stage !in {InvalidTarget, DetectorRejected, NotEligible}
    ensures r.sendCalls > 0 || r.stage == Notified ==>
      && RecentNotifications(store, t.qq, t.uid, RecentWindowHours, w.now) == []
      && ClockTrusted(settings, w)
    ensures r.stage == Notified ==> r.sendCalls >= 1
    ensures Carries(r, a, profileAttempts) && AlertWrite(store, r.store, t, a, w.now, r.stage)
  {
    if RecentNotifications(store, t.qq, t.uid, RecentWindowHours, w.now) != [] then
      Report(true, RecentlyNotified, store, a.days, a.note, profileAttempts, 0, [])
    else TimeGated(settings, sender, t, activity, a, profileAttempts, store, w)
  }

  /** `check_target` once the detector has answered. */
  function Decide(
    settings: Config.Settings, sender: Sender, t: Target, d: BilibiliChecker.Detection, store: Store, w: World): (r: Report)
    requires WellFormed(t)
    ensures r.days >= -1 && r.profileAttempts == d.profileAttempts
    ensures r.days == -1 <==> d.activity.lastActive.None? && HistoryTime(store, t).None?
    ensures r.ok <==> r.stage != TimeGateCrashed
    ensures r.stage != InvalidTarget && r.stage != DetectorRejected
    ensures r.stage == NotEligible <==> !Eligible(r.days, settings.threshold)
    ensures r.stage == TimeGateCrashed <==>
      Eligible(r.days, settings.threshold) && RecentNotifications(store, t.qq, t.uid, RecentWindowHours, w.now) == []
      && GateCrashes(settings, w)
    ensures r.sendCalls > 0 ==>
      && Eligible(r.days, settings.threshold)
      && RecentNotifications(store, t.qq, t.uid, RecentWindowHours, w.now) == []
      && ClockTrusted(settings, w)
    ensures r.stage == Notified ==> r.sendCalls >= 1 && Eligible(r.days, settings.threshold)
    ensures var recorded := if store.online then store.(checks := store.checks + [CheckRowOf(t, d.activity, Assessment(r.days, r.statusInfo), w.now)]) else store;
      AlertWrite(recorded, r.store, t, Assessment(r.days, r.statusInfo), w.now, r.stage)
  {
    var a := ResolveDays(store, t, d.activity, w.now, w.fmt);
    var recorded := RecordCheck(store, t, d.activity, a, w.now);
    if !Eligible(a.days, settings.threshold) then
      Report(true, NotEligible, recorded, a.days, a.note, d.profileAttempts, 0, [])
    else
      WritesTouchOnlyTheirTable(store, t.qq, t.uid, w.now, d.activity.lastActive, d.activity.isActive, a.days, a.note,
                                t.qq, t.uid, RecentWindowHours, w.now);
      assert RecentNotifications(recorded, t.qq, t.uid, RecentWindowHours, w.now)
          == RecentNotifications(store, t.qq, t.uid, RecentWindowHours, w.now);
      Alert(settings, sender, t, d.activity, a, d.profileAttempts, recorded, w)
  }

  /** `check_target` for a target with both keys: a UID the detector refuses fails the check, otherwise the check decides. */
  function CheckKeys(settings: Config.Settings, sender: Sender, t: Target, store: Store, w: World): (r: Report)
    requires WellFormed(t)
    ensures r.stage != InvalidTarget
    ensures !r.ok <==> r.stage == DetectorRejected || r.stage == TimeGateCrashed
    ensures r.stage == DetectorRejected <==> !BilibiliChecker.ValidUid(t.uid)
    ensures r.stage == TimeGateCrashed ==> GateCrashes(settings, w)
    ensures r.stage == DetectorRejected ==> r.store == store && r.sendCalls == 0
    ensures r.sendCalls > 0 ==> Eligible(r.days, settings.threshold)
    ensures r.profileAttempts <= BilibiliChecker.DefaultRetryTimes
    ensures r.store.notifications == store.notifications || r.stage == Notified
  {
    match BilibiliChecker.CheckUserActivity(t.uid, w.profileReplies, w.feedReplies, BilibiliChecker.DefaultRetryTimes, w.decode, w.fmt)
    case Err(_) => Report(false, DetectorRejected, store, -1, "", 0, 0, [])
    case Ok(d) => Decide(settings, sender, t, d, store, w)
  }

  /**
   * `check_target`: a target that is not a mapping or has a blank key fails
   * at once, before any request; otherwise the keys are checked.
   */
  function CheckTarget(settings: Config.Settings, sender: Sender, target: Json, store: Store, w: World): (r: Report)
    ensures TargetOf(target).None? ==> r == Report(false, InvalidTarget, store, -1, "", 0, 0, [])
    ensures r.stage == InvalidTarget <==> TargetOf(target).None?
    ensures !r.ok <==> r.stage == InvalidTarget || r.stage == DetectorRejected || r.stage == TimeGateCrashed
    ensures r.sendCalls > 0 ==> Eligible(r.days, settings.threshold)
    ensures r.stage == TimeGateCrashed ==> GateCrashes(settings, w)
    ensures r.store.notifications == store.notifications || r.stage == Notified
  {
    match TargetOf(target)
    case None => Report(false, InvalidTarget, store, -1, "", 0, 0, [])
    case Some(t) => CheckKeys(settings, sender, t, store, w)
  }

  // ---------------------------------------------------------------------
  // Properties across checks.

  /**
   * A remembered time bridges exactly one check without one: the first such
   * check uses the history, but records no time of its own, so the next
   * check without a detector time has nothing to go on.
   */
  lemma HistoryBridgesOneUnknownCheck(
    settings: Config.Settings, sender: Sender, t: Target, d1: BilibiliChecker.Detection, d2: BilibiliChecker.Detection,
    store: Store, w1: World, w2: World)
    requires WellFormed(t) && store.online
    requires HistoryTime(store, t).Some?
    requires forall rec | rec in store.checks && CheckFor(rec, t.qq, t.uid) :: rec.checkTime <= w1.now
    requires d1.activity.lastActive.None? && d2.activity.lastActive.None?
    ensures var r1 := Decide(settings, sender, t, d1, store, w1);
      && r1.days == BilibiliChecker.InactiveDays(HistoryTime(store, t), w1.now) && r1.days >= 0
      && Decide(settings, sender, t, d2, r1.store, w2).days == -1
  {
    var r1 := Decide(settings, sender, t, d1, store, w1);
    var row := CheckRowOf(t, d1.activity, Assessment(r1.days, r1.statusInfo), w1.now);
    assert r1.store.checks == store.checks + [row];
    assert LatestCheckRecord(r1.store, t.qq, t.uid) == Some(row) by {
      var saved := SaveCheckRecord(store, t.qq, t.uid, w1.now, None, d1.activity.isActive,
                                   if r1.days >= 0 then r1.days else 0, r1.statusInfo);
      SavedCheckIsLatest(store, t.qq, t.uid, w1.now, None, d1.activity.isActive,
                         if r1.days >= 0 then r1.days else 0, r1.statusInfo);
      assert saved.value.checks == r1.store.checks;
      assert LatestCheckRecord(saved.value, t.qq, t.uid) == LatestCheckRecord(r1.store, t.qq, t.uid);
    }
    assert HistoryTime(r1.store, t) == None;
  }

  /**
   * Alerts for one target are more than a day apart: right after an alert
   * recorded in a reachable store, any check within the next 24 hours sends
   * nothing and records no further alert.
   */
  lemma NoSecondAlertWithinADay(
    settings: Config.Settings, sender: Sender, t: Target, d1: BilibiliChecker.Detection, d2: BilibiliChecker.Detection,
    store: Store, w1: World, w2: World)
    requires WellFormed(t) && store.online
    requires Decide(settings, sender, t, d1, store, w1).stage == Notified
    requires w1.now <= w2.now <= w1.now + (RecentWindowHours * SecondsPerHour) as real
    ensures var r1 := Decide(settings, sender, t, d1, store, w1);
      var r2 := Decide(settings, sender, t, d2, r1.store, w2);
      r2.sendCalls == 0 && r2.store.notifications == r1.store.notifications
  {
    var r1 := Decide(settings, sender, t, d1, store, w1);
    var rec := NotificationRecord(Strip(t.qq), Strip(t.uid), w1.now, r1.days, r1.statusInfo);
    assert r1.store.notifications == store.notifications + [rec];
    assert rec in r1.store.notifications;
    assert NotificationFor(rec, t.qq, t.uid);
    assert rec in RecentNotifications(r1.store, t.qq, t.uid, RecentWindowHours, w2.now);
  }

  /** A day count that cannot be determined never leads to an alert, whatever the threshold. */
  lemma UnknownDaysNeverAlert(settings: Config.Settings, sender: Sender, t: Target, d: BilibiliChecker.Detection, store: Store, w: World)
    requires WellFormed(t)
    requires d.activity.lastActive.None? && HistoryTime(store, t).None?
    ensures var r := Decide(settings, sender, t, d, store, w);
      r.stage == NotEligible && r.sendCalls == 0 && r.store.notifications == store.notifications
  {
  }

  /**
   * The saved check record never holds -1: an unknown day count is stored as
   * 0 while the check itself goes on with -1.
   */
  lemma UnknownDaysStoredAsZero(settings: Config.Settings, sender: Sender, t: Target, d: BilibiliChecker.Detection, store: Store, w: World)
    requires WellFormed(t) && store.online
    requires d.activity.lastActive.None? && HistoryTime(store, t).None?
    ensures var r := Decide(settings, sender, t, d, store, w);
      r.days == -1 && r.store.checks[|store.checks|].daysInactive == 0
      && r.store.checks[|store.checks|].lastActive.None?
  {
  }

  /**
   * A `time_sync:` section left empty (or holding anything but a mapping)
   * passes validation, but as written every check that reaches the alert
   * path fails before contacting a time server and sends nothing; with the
   * section read as the defaults the same check never fails at the gate.
   */
  lemma UnreadableTimeSyncFailsAlertingCheck(
    cfg: map<string, Json>, sender: Sender, t: Target, d: BilibiliChecker.Detection, store: Store, w: World)
    requires Config.Valid(cfg) && "time_sync" in cfg && !cfg["time_sync"].JObject?
    requires WellFormed(t)
    requires Eligible(ResolveDays(store, t, d.activity, w.now, w.fmt).days, Config.SettingsOf(cfg).threshold)
    requires RecentNotifications(store, t.qq, t.uid, RecentWindowHours, w.now) == []
    ensures var r := Decide(Config.SettingsAsWritten(cfg), sender, t, d, store, w);
      !r.ok && r.stage == TimeGateCrashed && r.sendCalls == 0
    ensures var r := Decide(Config.SettingsOf(cfg), sender, t, d, store, w);
      r.ok && r.stage != TimeGateCrashed
  {
    ValidSettingsReadTheGate(cfg, w);
  }

  /**
   * Every target of a validated configuration gets past the check's own
   * validation, and the settings read from it never make the gate itself
   * fail; with `CheckedTargetFailsOnlyOnUid`, such a check fails only for a
   * UID the detector refuses.
   */
  lemma ValidConfigTargetsAreChecked(cfg: map<string, Json>, i: nat, w: World)
    requires Config.Valid(cfg) && i < |cfg["targets"].items|
    ensures TargetOf(cfg["targets"].items[i]).Some?
    ensures !GateCrashes(Config.SettingsOf(cfg), w)
  {
    var targets := cfg["targets"];
    assert Config.ValidTargets(targets);
    TargetInListIsWellFormed(targets, i);
    ValidSettingsReadTheGate(cfg, w);
  }

  /** Each entry of a validated target list passes the check's own validation. */
  lemma TargetInListIsWellFormed(targets: Json, i: nat)
    requires Config.ValidTargets(targets) && i < |targets.items|
    ensures TargetOf(targets.items[i]).Some?
  {
    ValidatedTargetsAreChecked(targets.items[i]);
  }

  /** With a gate that cannot fail, a target that passes validation fails its check only for a UID the detector refuses. */
  lemma CheckedTargetFailsOnlyOnUid(settings: Config.Settings, sender: Sender, target: Json, store: Store, w: World)
    requires TargetOf(target).Some? && !GateCrashes(settings, w)
    ensures var r := CheckTarget(settings, sender, target, store, w);
      r.stage != InvalidTarget && (r.ok <==> r.stage != DetectorRejected)
  {
  }

  /** The settings of a validated configuration never make the gate itself fail. */
  lemma ValidSettingsReadTheGate(cfg: map<string, Json>, w: World)
    requires Config.Valid(cfg)
    ensures !GateCrashes(Config.SettingsOf(cfg), w)
  {
    var settings := Config.SettingsOf(cfg);
    assert settings.timeSync.value.minSuccess > 0.0;
  }

  /**
   * A worked alert: last active ten days and an hour ago, threshold 7, no
   * earlier alert, a trusted clock and a first SMTP conversation that
   * delivers give exactly one notification call and one notification record.
   */
  lemma TenDayOldTargetIsAlertedOnce(
    settings: Config.Settings, sender: Sender, t: Target, d: BilibiliChecker.Detection, store: Store, w: World, last: Time)
    requires WellFormed(t) && store.online
    requires settings.threshold == 7 && settings.notifyRetries == Some(3) && sender.maxRetries >= 1
    requires d.activity.lastActive == Some(last) && w.now == last + (10 * SecondsPerDay + SecondsPerHour) as real
    requires RecentNotifications(store, t.qq, t.uid, RecentWindowHours, w.now) == []
    requires ClockTrusted(settings, w)
    requires |w.smtp| > 0 && |w.smtp[0]| > 0 && w.smtp[0][0] == Delivered
    ensures var r := Decide(settings, sender, t, d, store, w);
      && r.stage == Notified && r.ok && r.days == 10 && r.sendCalls == 1 && r.sleeps == []
      && r.store.notifications == store.notifications + [NotificationRowOf(t, Assessment(10, d.activity.note), w.now)]
  {
    BilibiliChecker.TenDaysInactive(last);
    var a := Assessment(10, d.activity.note);
    FirstDeliveryIsSent(sender, t.qq, t.uid, t.name, 10, d.activity.lastActive, d.activity.note, w.now, w.fmt, w.smtp[0]);
    assert CallSent(sender, t, a, d.activity.lastActive, w, 0);
    var recorded := RecordCheck(store, t, d.activity, a, w.now);
    WritesTouchOnlyTheirTable(store, t.qq, t.uid, w.now, d.activity.lastActive, d.activity.isActive, 10, a.note,
                              t.qq, t.uid, RecentWindowHours, w.now);
    assert NotifyLoop((i: nat) => CallSent(sender, t, a, d.activity.lastActive, w, i), 3, 0) == NotifyRun(true, 1, []);
  }
}

=== FILE: py_text.dfy ===
/**
 * The pieces of Python's `str` behaviour the monitor relies on: `strip()`,
 * `isdigit()`, `startswith`, `upper()` and `str(int)`.
 */
module PyText {

  /** The characters for which Python's `str.isspace()` holds (and which `strip()` removes). */
  predicate IsSpace(c: char)
  {
    || c == ' '
    || ('\t' <= c <= '\r')
    || ('\U{1c}' <= c <= '\U{1f}')
    || c == '\U{85}' || c == '\U{a0}' || c == '\U{1680}'
    || ('\U{2000}' <= c <= '\U{200a}')
    || c == '\U{2028}' || c == '\U{2029}' || c == '\U{202f}' || c == '\U{205f}' || c == '\U{3000}'
  }

  /** Every character of `s` in positions `lo` up to (excluding) `hi` is whitespace. */
  predicate SpaceBetween(s: string, lo: int, hi: int)
    requires 0 <= lo && hi <= |s|
  {
    forall i | lo <= i < hi :: IsSpace(s[i])
  }

  /** `s.lstrip()`: drops the leading whitespace and nothing else. */
  function TrimStart(s: string): (r: string)
    ensures |r| <= |s| && r == s[|s| - |r|..]
    ensures SpaceBetween(s, 0, |s| - |r|)
    ensures |r| > 0 ==> !IsSpace(r[0])
  {
    if |s| > 0 && IsSpace(s[0]) then TrimStart(s[1..]) else s
  }

  /** `s.rstrip()`: drops the trailing whitespace and nothing else. */
  function TrimEnd(s: string): (r: string)
    ensures |r| <= |s| && r == s[..|r|]
    ensures SpaceBetween(s, |r|, |s|)
    ensures |r| > 0 ==> !IsSpace(r[|r| - 1])
  {
    if |s| > 0 && IsSpace(s[|s| - 1]) then TrimEnd(s[..|s| - 1]) else s
  }

  /** `s.strip()`: the slice of `s` left once leading and trailing whitespace is gone. */
  function Strip(s: string): (r: string)
    ensures |r| <= |s|
    ensures |r| > 0 ==> !IsSpace(r[0]) && !IsSpace(r[|r| - 1])
    ensures r == "" <==> SpaceBetween(s, 0, |s|)
  {
    assert TrimEnd(TrimStart(s)) == "" <==> SpaceBetween(s, 0, |s|) by {
      if SpaceBetween(s, 0, |s|) {
        StripOfSpaceIsEmpty(s);
      }
      if TrimEnd(TrimStart(s)) == "" {
        StripEmptyMeansSpace(s);
      }
    }
    TrimEnd(TrimStart(s))
  }

  /** Stripping leaves nothing exactly when every character is whitespace: one direction. */
  lemma StripOfSpaceIsEmpty(s: string)
    requires SpaceBetween(s, 0, |s|)
    ensures TrimEnd(TrimStart(s)) == ""
  {
  }

  /** ... and the other: a non-space character survives. */
  lemma {:induction false} StripEmptyMeansSpace(s: string)
    requires TrimEnd(TrimStart(s)) == ""
    ensures SpaceBetween(s, 0, |s|)
    decreases |s|
  {
    if |s| > 0 && IsSpace(s[0]) {
      StripEmptyMeansSpace(s[1..]);
      forall i | 1 <= i < |s|
        ensures IsSpace(s[i])
      {
        assert s[i] == s[1..][i - 1];
      }
    } else {
      TrimEndEmptyMeansSpace(s);
    }
  }

  /** Right-stripping leaves nothing only when every character is whitespace. */
  lemma TrimEndEmptyMeansSpace(s: string)
    requires TrimEnd(s) == ""
    ensures SpaceBetween(s, 0, |s|)
  {
    var r := TrimEnd(s);
    assert |r| == 0;
  }

  /** Stripping twice is stripping once. */
  lemma StripIdempotent(s: string)
    ensures Strip(Strip(s)) == Strip(s)
  {
    var r := Strip(s);
    if r != "" {
      assert TrimStart(r) == r;
      assert TrimEnd(r) == r;
    }
  }

  /** Stripping removes whitespace only: any other character of `s` survives it. */
  lemma StripKeepsNonSpace(s: string, c: char)
    requires c in s && !IsSpace(c)
    ensures c in Strip(s)
  {
    var i :| 0 <= i < |s| && s[i] == c;
    var left := TrimStart(s);
    var k := |s| - |left|;
    assert i >= k;
    assert left[i - k] == c;
    var r := TrimEnd(left);
    assert i - k < |r|;
    assert r[i - k] == c;
  }

  /** `s.strip()` is the stretch of `s` starting at `k`, with only whitespace before and after it. */
  lemma StripIsPaddedSlice(s: string) returns (k: nat)
    ensures k + |Strip(s)| <= |s| && s[k..k + |Strip(s)|] == Strip(s)
    ensures SpaceBetween(s, 0, k) && SpaceBetween(s, k + |Strip(s)|, |s|)
  {
    var left := TrimStart(s);
    k := |s| - |left|;
    var r := TrimEnd(left);
    assert Strip(s) == r;
    assert s[k..k + |r|] == left[..|r|];
    SpaceBetweenOfSuffix(s, k, |r|, |left|);
  }

  /** Whitespace found in the suffix `s[k..]` is whitespace of `s`, `k` positions further on. */
  lemma SpaceBetweenOfSuffix(s: string, k: nat, lo: nat, hi: int)
    requires k <= |s| && hi <= |s| - k && SpaceBetween(s[k..], lo, hi)
    ensures SpaceBetween(s, k + lo, k + hi)
  {
    forall i | k + lo <= i < k + hi
      ensures IsSpace(s[i])
    {
      assert s[i] == s[k..][i - k];
    }
  }

  /** Leading whitespace makes no difference to `lstrip()`. */
  lemma {:induction false} TrimStartSkipsSpace(pad: string, s: string)
    requires SpaceBetween(pad, 0, |pad|)
    ensures TrimStart(pad + s) == TrimStart(s)
    decreases |pad|
  {
    if |pad| == 0 {
      assert pad + s == s;
    } else {
      var t := pad + s;
      var rest := pad[1..];
      assert t[0] == pad[0];
      assert t[1..] == rest + s;
      SpaceSlice(pad, 1, |pad|);
      TrimStartSkipsSpace(rest, s);
    }
  }

  /** Trailing whitespace makes no difference to `rstrip()`. */
  lemma {:induction false} TrimEndSkipsSpace(s: string, pad: string)
    requires SpaceBetween(pad, 0, |pad|)
    ensures TrimEnd(s + pad) == TrimEnd(s)
    decreases |pad|
  {
    if |pad| == 0 {
      assert s + pad == s;
    } else {
      var t := s + pad;
      var rest := pad[..|pad| - 1];
      assert t[|t| - 1] == pad[|pad| - 1];
      assert t[..|t| - 1] == s + rest;
      SpaceSlice(pad, 0, |pad| - 1);
      TrimEndSkipsSpace(s, rest);
    }
  }

  /** A slice of an all-whitespace range is all whitespace. */
  lemma SpaceSlice(s: string, lo: nat, hi: nat)
    requires lo <= hi <= |s| && SpaceBetween(s, 0, |s|)
    ensures SpaceBetween(s[lo..hi], 0, hi - lo)
  {
    var w := s[lo..hi];
    forall i | 0 <= i < hi - lo
      ensures IsSpace(w[i])
    {
      assert w[i] == s[lo + i];
    }
  }

  /** A text with non-space ends, wrapped in whitespace on both sides, strips back to itself. */
  lemma StripPadded(pad1: string, core: string, pad2: string)
    requires |core| > 0 && !IsSpace(core[0]) && !IsSpace(core[|core| - 1])
    requires SpaceBetween(pad1, 0, |pad1|) && SpaceBetween(pad2, 0, |pad2|)
    ensures Strip(pad1 + core + pad2) == core
  {
    assert pad1 + core + pad2 == pad1 + (core + pad2);
    TrimStartSkipsSpace(pad1, core + pad2);
    assert (core + pad2)[0] == core[0];
    assert TrimStart(core + pad2) == core + pad2;
    TrimEndSkipsSpace(core, pad2);
    assert TrimEnd(core) == core;
  }

  predicate IsAsciiDigit(c: char)
  {
    '0' <= c <= '9'
  }

  /** `s.isdigit()` restricted to ASCII digits: non-empty and digits only. */
  predicate IsDigitString(s: string)
  {
    |s| > 0 && forall i | 0 <= i < |s| :: IsAsciiDigit(s[i])
  }

  /** `s.startswith(prefix)`. */
  predicate StartsWith(s: string, prefix: string)
  {
    |prefix| <= |s| && s[..|prefix|] == prefix
  }

  /** `p` occurs in `s` starting at position `i`. */
  predicate OccursAt(p: string, s: string, i: int)
  {
    0 <= i && i + |p| <= |s| && s[i..i + |p|] == p
  }

  /** `p in s` on two strings: `p` is a substring of `s`. */
  predicate IsSubstring(p: string, s: string)
  {
    exists i | 0 <= i <= |s| :: OccursAt(p, s, i)
  }

  /** Whatever surrounds `p` in `a + p + b`, `p` is found in it. */
  lemma SubstringOfConcatenation(a: string, p: string, b: string)
    ensures IsSubstring(p, a + p + b)
  {
    var s := a + p + b;
    assert s[|a|..|a| + |p|] == p;
    assert OccursAt(p, s, |a|);
  }

  /** A string longer than `s` is never found in it. */
  lemma LongerIsNotSubstring(p: string, s: string)
    requires |p| > |s|
    ensures !IsSubstring(p, s)
  {
  }

  function UpperChar(c: char): char
  {
    if 'a' <= c <= 'z' then (c as int - 32) as char else c
  }

  /** `s.upper()` on ASCII letters; every other character is left as it is. */
  function AsciiUpper(s: string): (r: string)
    ensures |r| == |s|
    ensures forall i | 0 <= i < |s| :: r[i] == UpperChar(s[i])
  {
    if s == "" then "" else [UpperChar(s[0])] + AsciiUpper(s[1..])
  }

  function DigitChar(d: nat): (c: char)
    requires d < 10
    ensures IsAsciiDigit(c)
  {
    (48 + d) as char
  }

  function DigitValue(c: char): (d: nat)
    requires IsAsciiDigit(c)
    ensures d < 10
  {
    c as int - 48
  }

  /** `str(n)` for a natural number: its decimal digits, most significant first. */
  function NatToDecimal(n: nat): (r: string)
    ensures IsDigitString(r)
    ensures |r| > 1 ==> r[0] != '0'
    decreases n
  {
    if n < 10 then [DigitChar(n)] else NatToDecimal(n / 10) + [DigitChar(n % 10)]
  }

  /** `str(i)` for any Python int: a minus sign before the digits of a negative number. */
  function IntToDecimal(i: int): (r: string)
    ensures |r| > 0
    ensures i >= 0 ==> IsDigitString(r)
    ensures i < 0 ==> r[0] == '-' && IsDigitString(r[1..])
  {
    if i < 0 then "-" + NatToDecimal(-i) else NatToDecimal(i)
  }

  /** `int(s)` for a string of decimal digits. */
  function ParseDecimal(s: string): nat
    requires forall i | 0 <= i < |s| :: IsAsciiDigit(s[i])
    decreases |s|
  {
    if s == "" then 0 else ParseDecimal(s[..|s| - 1]) * 10 + DigitValue(s[|s| - 1])
  }

  /** Reading back the decimal text of a number gives the number. */
  lemma {:induction false} DecimalRoundTrip(n: nat)
    ensures ParseDecimal(NatToDecimal(n)) == n
    decreases n
  {
    var r := NatToDecimal(n);
    if n >= 10 {
      DecimalRoundTrip(n / 10);
      assert r[..|r| - 1] == NatToDecimal(n / 10);
    }
  }
}

=== FILE: retry.dfy ===
/**
 * The bounded retry loop that `get_user_info`, `get_user_dynamics` and
 * `send_email` each spell out by hand: up to `budget` attempts; an attempt
 * either produces the answer, fails terminally, or fails transiently; after a
 * transient failure the loop sleeps `2 ** attempt` seconds, but only when
 * another attempt remains.
 *
 * The outside world is a sequence of per-attempt outcomes; an attempt past
 * the end of the sequence fails transiently (the server stopped answering).
 */
module Retry {
  import opened Base

  /** How one attempt ended. */
  datatype Step<+T> = Succeed(value: T) | GiveUp | Transient

  /** What a run of the loop did: its answer, how many attempts it made, and the backoff sleeps in seconds. */
  datatype Run<+T> = Run(result: Option<T>, attempts: nat, sleeps: seq<nat>)

  /** The classified outcome of attempt `i` (counting from 0). */
  function StepAt<O, T>(outcomes: seq<O>, classify: O -> Step<T>, i: nat): Step<T>
  {
    if i < |outcomes| then classify(outcomes[i]) else Transient
  }

  /** Attempts `from` up to (excluding) `to` all failed transiently. */
  ghost predicate TransientBetween<O, T>(outcomes: seq<O>, classify: O -> Step<T>, from: nat, to: nat)
  {
    forall i | from <= i < to :: StepAt(outcomes, classify, i).Transient?
  }

  /** The loop from attempt number `attempt` onwards (`for attempt in range(budget)`). */
  function Loop<O, T>(outcomes: seq<O>, classify: O -> Step<T>, budget: int, attempt: nat): (r: Run<T>)
    ensures attempt >= budget ==> r == Run(None, 0, [])
    ensures attempt < budget ==> 1 <= r.attempts <= budget - attempt
    ensures r.attempts > 0 ==> |r.sleeps| == r.attempts - 1
    ensures forall k | 0 <= k < |r.sleeps| :: r.sleeps[k] == Pow2(attempt + k)
    ensures TransientBetween(outcomes, classify, attempt, attempt + |r.sleeps|)
    ensures r.attempts > 0 ==>
      var last := StepAt(outcomes, classify, attempt + r.attempts - 1);
      && (last.Succeed? ==> r.result == Some(last.value))
      && (!last.Succeed? ==> r.result == None)
      && (last.Transient? ==> attempt + r.attempts == budget)
    decreases budget - attempt
  {
    if attempt >= budget then Run(None, 0, [])
    else
      match StepAt(outcomes, classify, attempt)
      case Succeed(v) => Run(Some(v), 1, [])
      case GiveUp => Run(None, 1, [])
      case Transient =>
        if attempt < budget - 1 then
          var rest := Loop(outcomes, classify, budget, attempt + 1);
          Run(rest.result, rest.attempts + 1, [Pow2(attempt)] + rest.sleeps)
        else
          Run(None, 1, [])
  }

  /** The whole loop, starting at attempt 0. */
  function Attempt<O, T>(outcomes: seq<O>, classify: O -> Step<T>, budget: int): Run<T>
  {
    Loop(outcomes, classify, budget, 0)
  }

  /**
   * The loop answers `v` exactly when some attempt `k` within the budget
   * succeeds with `v` and every earlier attempt failed transiently; it then
   * made `k + 1` attempts.
   */
  lemma {:induction false} AttemptSucceedsIff<O, T>(outcomes: seq<O>, classify: O -> Step<T>, budget: int, v: T)
    ensures Attempt(outcomes, classify, budget).result == Some(v) <==>
      exists k: nat | k < budget :: StepAt(outcomes, classify, k) == Succeed(v) && TransientBetween(outcomes, classify, 0, k)
  {
    var r := Attempt(outcomes, classify, budget);
    if r.result == Some(v) {
      var k := r.attempts - 1;
      assert StepAt(outcomes, classify, k) == Succeed(v);
    }
    if exists k: nat | k < budget :: StepAt(outcomes, classify, k) == Succeed(v) && TransientBetween(outcomes, classify, 0, k) {
      var k: nat :| k < budget && StepAt(outcomes, classify, k) == Succeed(v) && TransientBetween(outcomes, classify, 0, k);
      FirstDecisiveAttempt(outcomes, classify, budget, k);
    }
  }

  /**
   * When attempt `k` is within the budget, is not transient, and all earlier
   * attempts were, the loop stops right there: `k + 1` attempts, `k` sleeps,
   * and the answer is attempt `k`'s.
   */
  lemma {:induction false} FirstDecisiveAttempt<O, T>(outcomes: seq<O>, classify: O -> Step<T>, budget: int, k: nat)
    requires k < budget
    requires !StepAt(outcomes, classify, k).Transient?
    requires TransientBetween(outcomes, classify, 0, k)
    ensures var r := Attempt(outcomes, classify, budget);
      && r.attempts == k + 1
      && |r.sleeps| == k
      && r.result == (if StepAt(outcomes, classify, k).Succeed? then Some(StepAt(outcomes, classify, k).value) else None)
  {
    var r := Attempt(outcomes, classify, budget);
    assert r.attempts >= 1;
  }

  /** A loop that only meets transient failures uses the whole budget and sleeps before every attempt but the first. */
  lemma {:induction false} AllTransientExhaustsBudget<O, T>(outcomes: seq<O>, classify: O -> Step<T>, budget: nat)
    requires budget > 0
    requires TransientBetween(outcomes, classify, 0, budget)
    ensures var r := Attempt(outcomes, classify, budget);
      && r.result == None
      && r.attempts == budget
      && |r.sleeps| == budget - 1
  {
    var r := Attempt(outcomes, classify, budget);
    var last := r.attempts - 1;
    assert StepAt(outcomes, classify, last).Transient?;
  }
}

=== FILE: sorting.dfy ===
/**
 * Ordering by a numeric key, shared by `statistics.median` (which sorts its
 * samples) and the `ORDER BY ... DESC` of the notification query.
 */
module Sorting {

  /** The keys never decrease from left to right. */
  ghost predicate SortedBy<T>(xs: seq<T>, key: T -> real)
  {
    forall i, j | 0 <= i < j < |xs| :: key(xs[i]) <= key(xs[j])
  }

  /** Every key in `xs` is at least `bound`. */
  ghost predicate KeysAtLeast<T>(xs: seq<T>, key: T -> real, bound: real)
  {
    forall k | 0 <= k < |xs| :: bound <= key(xs[k])
  }

  /** Places `x` before the first element whose key is at least `x`'s. */
  function Insert<T>(x: T, xs: seq<T>, key: T -> real): (r: seq<T>)
    requires SortedBy(xs, key)
    ensures SortedBy(r, key)
    ensures multiset(r) == multiset(xs) + multiset{x}
    ensures |r| == |xs| + 1
  {
    if xs == [] then [x]
    else if key(x) <= key(xs[0]) then [x] + xs
    else
      var rest := Insert(x, xs[1..], key);
      InsertedKeysStayAbove(x, xs, key, rest);
      assert xs == [xs[0]] + xs[1..];
      [xs[0]] + rest
  }

  /** What `Insert` puts after the head of `xs` keeps keys at least the head's, so the head can go first. */
  lemma InsertedKeysStayAbove<T>(x: T, xs: seq<T>, key: T -> real, rest: seq<T>)
    requires |xs| > 0 && SortedBy(xs, key) && key(xs[0]) < key(x)
    requires SortedBy(rest, key) && multiset(rest) == multiset(xs[1..]) + multiset{x}
    ensures SortedBy([xs[0]] + rest, key)
  {
    assert KeysAtLeast(rest, key, key(xs[0])) by {
      forall k | 0 <= k < |rest|
        ensures key(xs[0]) <= key(rest[k])
      {
        assert rest[k] in multiset(rest);
        if rest[k] != x {
          assert rest[k] in multiset(xs[1..]);
          var j :| 0 <= j < |xs[1..]| && xs[1..][j] == rest[k];
          assert xs[j + 1] == rest[k];
        }
      }
    }
    var r := [xs[0]] + rest;
    forall i, j | 0 <= i < j < |r|
      ensures key(r[i]) <= key(r[j])
    {
      if i > 0 {
        assert r[i] == rest[i - 1] && r[j] == rest[j - 1];
      } else {
        assert r[j] == rest[j - 1];
      }
    }
  }

  /** Insertion sort: the same elements, keys in ascending order. */
  function SortBy<T>(xs: seq<T>, key: T -> real): (r: seq<T>)
    ensures SortedBy(r, key)
    ensures multiset(r) == multiset(xs)
    ensures |r| == |xs|
  {
    if xs == [] then []
    else
      assert xs == xs[..|xs| - 1] + [xs[|xs| - 1]];
      Insert(xs[|xs| - 1], SortBy(xs[..|xs| - 1], key), key)
  }

  /** A real number as its own sort key. */
  function Identity(x: real): real
  {
    x
  }

  /** The least element of a non-empty multiset of reals. */
  lemma {:induction false} SortedHeadIsLeast(s: seq<real>)
    requires |s| > 0 && SortedBy(s, Identity)
    ensures forall y | y in multiset(s) :: s[0] <= y
  {
    forall y | y in multiset(s)
      ensures s[0] <= y
    {
      var k :| 0 <= k < |s| && s[k] == y;
      if k > 0 {
        assert Identity(s[0]) <= Identity(s[k]);
      }
    }
  }

  lemma SortedTail<T>(s: seq<T>, key: T -> real)
    requires |s| > 0 && SortedBy(s, key)
    ensures SortedBy(s[1..], key)
  {
    forall i, j | 0 <= i < j < |s| - 1
      ensures key(s[1..][i]) <= key(s[1..][j])
    {
      assert s[1..][i] == s[i + 1] && s[1..][j] == s[j + 1];
    }
  }

  /** Two ascending sequences of reals holding the same elements are the same sequence. */
  lemma {:induction false} SortedIsUnique(s: seq<real>, t: seq<real>)
    requires SortedBy(s, Identity) && SortedBy(t, Identity)
    requires multiset(s) == multiset(t)
    ensures s == t
    decreases |s|
  {
    assert |s| == |multiset(s)| == |t|;
    if |s| > 0 {
      SortedHeadIsLeast(s);
      SortedHeadIsLeast(t);
      assert s[0] <= t[0] by { assert t[0] in multiset(s); }
      assert t[0] <= s[0] by { assert s[0] in multiset(t); }
      assert multiset(s) == multiset([s[0]]) + multiset(s[1..]) by { assert s == [s[0]] + s[1..]; }
      assert multiset(t) == multiset([t[0]]) + multiset(t[1..]) by { assert t == [t[0]] + t[1..]; }
      assert multiset(s[1..]) == multiset(s) - multiset([s[0]]);
      SortedTail(s, Identity);
      SortedTail(t, Identity);
      SortedIsUnique(s[1..], t[1..]);
    }
  }

  /** Sorting by value forgets the order of its input: two arrangements of the same values sort alike. */
  lemma SortIgnoresOrder(a: seq<real>, b: seq<real>)
    requires multiset(a) == multiset(b)
    ensures SortBy(a, Identity) == SortBy(b, Identity)
  {
    SortedIsUnique(SortBy(a, Identity), SortBy(b, Identity));
  }
}

=== FILE: time_sync.dfy ===
/**
 * The trusted-time gate: every configured NTP server is asked once, the
 * transmit-timestamp seconds of each usable answer are collected, and their
 * median is accepted only when enough servers answered and the local clock
 * agrees with it within the allowed skew.
 *
 * The socket exchange is abstract: each server's exchange is an `NtpReply`,
 * either no usable answer at all (timeout, DNS or socket error) or the
 * datagram that came back. The local clock reading is a parameter.
 */
module TimeSync {
  import opened Base
  import opened Sorting

  newtype byte = x: int | 0 <= x < 256

  /** The size of an NTP header without extensions (section 7.3 of RFC 5905). */
  const PacketSize: nat := 48
  /** Seconds from the NTP prime epoch 1900-01-01 to the Unix epoch 1970-01-01. */
  const NtpEpochOffset: int := 2208988800
  /** The 32-bit word, counting from 0, holding the integer seconds of the transmit timestamp. */
  const TransmitSecondsWord: nat := 10
  const Word32: int := 0x1_0000_0000

  /** What came back from one server. */
  datatype NtpReply = NoReply | Datagram(bytes: seq<byte>)

  /** Why one server's answer was not used. */
  datatype QueryError = NoAnswer | ShortReply(length: nat)

  /** Why no trusted time could be produced. */
  datatype SyncError =
    | TooFewResponses(got: nat, needed: real)  // TimeSyncError: not enough servers answered
    | ClockSkew(skew: real, limit: real)         // TimeSyncError: the local clock is off by too much
    | NoSamples                                  // statistics.median of nothing (only when min_success <= 0)

  /** The leap indicator, version number and mode packed into the first header byte (section 7.3 of RFC 5905). */
  function LeapIndicator(b: byte): int { b as int / 64 }
  function VersionNumber(b: byte): int { (b as int / 8) % 8 }
  function Mode(b: byte): int { b as int % 8 }

  /** The client request: one byte 0x1b followed by 47 zero bytes. */
  function RequestPacket(): (p: seq<byte>)
    ensures |p| == PacketSize
  {
    [0x1b] + seq(47, _ => 0)
  }

  /** The request is a version-3 client packet with no leap warning and every other field zero. */
  lemma RequestIsVersion3Client()
    ensures var p := RequestPacket();
      && LeapIndicator(p[0]) == 0 && VersionNumber(p[0]) == 3 && Mode(p[0]) == 3
      && forall i | 1 <= i < |p| :: p[i] == 0
  {
  }

  /** `recvfrom(48)`: a longer datagram is cut to its first 48 bytes. */
  function Received(datagram: seq<byte>): (data: seq<byte>)
    ensures |data| == Min(|datagram|, PacketSize)
    ensures data == datagram[..|data|]
  {
    if |datagram| <= PacketSize then datagram else datagram[..PacketSize]
  }

  /** The unsigned big-endian 32-bit word `i` of `data` (`struct.unpack("!12I", data)[i]`). */
  function WordAt(data: seq<byte>, i: nat): (w: int)
    requires 4 * i + 4 <= |data|
    ensures 0 <= w < Word32
  {
    var k := 4 * i;
    ((data[k] as int * 256 + data[k + 1] as int) * 256 + data[k + 2] as int) * 256 + data[k + 3] as int
  }

  /**
   * The decoding half of `_query_ntp`: fewer than 48 bytes are rejected;
   * otherwise the transmit seconds, moved from the 1900 epoch to the Unix
   * epoch.
   */
  function DecodeReply(data: seq<byte>): (r: Result<real, QueryError>)
    ensures r.Err? <==> |data| < PacketSize
    ensures r.Err? ==> r.error == ShortReply(|data|)
    ensures r.Ok? ==> -NtpEpochOffset as real <= r.value < (Word32 - NtpEpochOffset) as real
  {
    if |data| < PacketSize then Err(ShortReply(|data|))
    else Ok((WordAt(data, TransmitSecondsWord) - NtpEpochOffset) as real)
  }

  /** One server's contribution: its decoded seconds, or why there is none. */
  function QueryNtp(reply: NtpReply): (r: Result<real, QueryError>)
    ensures reply.NoReply? ==> r == Err(NoAnswer)
    ensures reply.Datagram? ==> (r.Err? <==> |reply.bytes| < PacketSize)
  {
    match reply
    case NoReply => Err(NoAnswer)
    case Datagram(bytes) => DecodeReply(Received(bytes))
  }

  /** The four bytes of `w`, most significant first. */
  function BigEndian(w: int): (b: seq<byte>)
    requires 0 <= w < Word32
    ensures |b| == 4
  {
    [(w / 0x100_0000) as byte, (w / 0x1_0000 % 256) as byte, (w / 0x100 % 256) as byte, (w % 256) as byte]
  }

  /**
   * A server reply carrying `seconds` (Unix time) in its transmit timestamp:
   * first byte 0x24 (no leap warning, version 4, server mode), every other
   * byte zero except the transmit seconds word.
   */
  function EncodeReply(seconds: int): (p: seq<byte>)
    requires 0 <= seconds + NtpEpochOffset < Word32
    ensures |p| == PacketSize && Mode(p[0]) == 4 && VersionNumber(p[0]) == 4
  {
    [0x24] + seq(39, _ => 0) + BigEndian(seconds + NtpEpochOffset) + seq(4, _ => 0)
  }

  /** Decoding a reply gives back exactly the seconds encoded into it. */
  lemma DecodeEncode(seconds: int)
    requires 0 <= seconds + NtpEpochOffset < Word32
    ensures DecodeReply(EncodeReply(seconds)) == Ok(seconds as real)
    ensures QueryNtp(Datagram(EncodeReply(seconds))) == Ok(seconds as real)
  {
    var p := EncodeReply(seconds);
    var w := seconds + NtpEpochOffset;
    var b := BigEndian(w);
    assert p[40] == b[0] && p[41] == b[1] && p[42] == b[2] && p[43] == b[3];
    BigEndianRoundTrip(w);
  }

  /** Reading the four bytes back as a big-endian word gives `w`. */
  lemma BigEndianRoundTrip(w: int)
    requires 0 <= w < Word32
    ensures var b := BigEndian(w);
      ((b[0] as int * 256 + b[1] as int) * 256 + b[2] as int) * 256 + b[3] as int == w
  {
    var hi := w / 0x100_0000;
    var w2 := w / 0x1_0000;
    var w1 := w / 0x100;
    assert w2 == hi * 256 + w2 % 256;
    assert w1 == w2 * 256 + w1 % 256;
    assert w == w1 * 256 + w % 256;
  }

  /** The successful samples, in server order: a failed server is skipped and the rest are still asked. */
  function Successes(replies: seq<NtpReply>): (s: seq<real>)
    ensures |s| <= |replies|
  {
    if replies == [] then []
    else
      var rest := Successes(replies[1..]);
      match QueryNtp(replies[0])
      case Ok(t) => [t] + rest
      case Err(_) => rest
  }

  /** Asking two groups of servers one after the other collects both groups' samples, in order. */
  lemma {:induction false} SuccessesAppend(a: seq<NtpReply>, b: seq<NtpReply>)
    ensures Successes(a + b) == Successes(a) + Successes(b)
  {
    if a == [] {
      assert a + b == b;
    } else {
      assert (a + b)[0] == a[0];
      assert (a + b)[1..] == a[1..] + b;
      SuccessesAppend(a[1..], b);
    }
  }

  /** A single server contributes its decoded seconds when it answered usably, and nothing otherwise. */
  lemma SuccessesOfOne(reply: NtpReply)
    ensures Successes([reply]) == (if QueryNtp(reply).Ok? then [QueryNtp(reply).value] else [])
  {
    assert [reply][1..] == [];
  }

  /** Each server is asked once, in order: the samples are exactly the usable answers, server by server. */
  lemma {:induction false} SuccessesAreTheUsableAnswers(replies: seq<NtpReply>)
    ensures forall t | t in Successes(replies) :: exists j | 0 <= j < |replies| :: QueryNtp(replies[j]) == Ok(t)
    ensures (forall j | 0 <= j < |replies| :: QueryNtp(replies[j]).Ok?) ==> |Successes(replies)| == |replies|
  {
    if replies != [] {
      SuccessesAreTheUsableAnswers(replies[1..]);
      assert forall j | 1 <= j < |replies| :: replies[j] == replies[1..][j - 1];
    }
  }

  /** A server that fails contributes nothing and does not stop the servers after it from being asked. */
  lemma FailedServerIsSkipped(a: seq<NtpReply>, failed: NtpReply, b: seq<NtpReply>)
    requires QueryNtp(failed).Err?
    ensures Successes(a + [failed] + b) == Successes(a + b)
  {
    SuccessesAppend(a + [failed], b);
    SuccessesAppend(a, [failed]);
    SuccessesAppend(a, b);
    SuccessesOfOne(failed);
    assert Successes(a) + [] == Successes(a);
  }

  /** `statistics.median`: the middle sample, or the mean of the two middle samples when there is an even number. */
  function Median(samples: seq<real>): (m: real)
    requires |samples| > 0
  {
    MiddleOf(SortBy(samples, Identity))
  }

  /** The middle element of an odd-length sequence, or the mean of the two middle ones. */
  function MiddleOf(s: seq<real>): real
    requires |s| > 0
  {
    var n := |s|;
    if n % 2 == 1 then s[n / 2] else (s[n / 2 - 1] + s[n / 2]) / 2.0
  }

  /** The median lies between the smallest and the largest sample. */
  lemma MedianIsBetweenSamples(samples: seq<real>)
    requires |samples| > 0
    ensures exists i | 0 <= i < |samples| :: samples[i] <= Median(samples)
    ensures exists j | 0 <= j < |samples| :: Median(samples) <= samples[j]
  {
    var s := SortBy(samples, Identity);
    var n := |s|;
    var lo := if n % 2 == 1 then n / 2 else n / 2 - 1;
    var hi := n / 2;
    assert Identity(s[lo]) <= Identity(s[hi]);
    assert s[lo] <= Median(samples) <= s[hi];
    assert s[lo] in multiset(samples) && s[hi] in multiset(samples);
    var i :| 0 <= i < |samples| && samples[i] == s[lo];
    var j :| 0 <= j < |samples| && samples[j] == s[hi];
  }

  /** The median depends only on which samples there are, not on the order the servers answered in. */
  lemma MedianIgnoresOrder(a: seq<real>, b: seq<real>)
    requires |a| > 0 && multiset(a) == multiset(b)
    ensures |b| > 0 && Median(a) == Median(b)
  {
    assert |a| == |multiset(a)| == |b|;
    SortIgnoresOrder(a, b);
  }

  /** For samples already in order, the median is read off the middle position(s). */
  lemma MedianOfSorted(s: seq<real>)
    requires |s| > 0 && SortedBy(s, Identity)
    ensures Median(s) == if |s| % 2 == 1 then s[|s| / 2] else (s[|s| / 2 - 1] + s[|s| / 2]) / 2.0
  {
    SortedIsUnique(SortBy(s, Identity), s);
  }

  /**
   * One wild server among three cannot drag the median: whatever order the
   * three answers arrive in and however far the largest one is off, the
   * median is the middle answer.
   */
  lemma MedianResistsOneOutlier(answers: seq<real>, low: real, mid: real, wild: real)
    requires low <= mid <= wild && multiset(answers) == multiset{low, mid, wild}
    ensures |answers| == 3 && Median(answers) == mid
  {
    assert |answers| == |multiset(answers)| == 3;
    var sorted := SortBy(answers, Identity);
    MiddleOfThree(sorted, low, mid, wild);
  }

  /** Three values in ascending order that are `low <= mid <= wild` have `mid` in the middle. */
  lemma MiddleOfThree(s: seq<real>, low: real, mid: real, wild: real)
    requires low <= mid <= wild && multiset(s) == multiset{low, mid, wild}
    requires SortedBy(s, Identity)
    ensures |s| == 3 && s[1] == mid
  {
    var expected := [low, mid, wild];
    assert multiset(expected) == multiset(s);
    assert SortedBy(expected, Identity);
    SortedIsUnique(s, expected);
  }

  /**
   * `get_trusted_time`: too few usable answers, or a median the local clock
   * disagrees with by more than `maxSkew`, is refused; otherwise the median
   * is the trusted time.
   */
  function TrustedTime(replies: seq<NtpReply>, maxSkew: real, minSuccess: real, localNow: Time): (r: Result<Time, SyncError>)
    ensures var s := Successes(replies);
      && (r.Ok? <==> |s| as real >= minSuccess && |s| > 0 && Abs(Median(s) - localNow) <= maxSkew)
      && (r.Ok? ==> r.value == Median(s))
      && (r.Err? && r.error.TooFewResponses? <==> (|s| as real) < minSuccess)
      && (r == Err(NoSamples) <==> |s| == 0 && minSuccess <= 0.0)
  {
    Gate(Successes(replies), maxSkew, minSuccess, localNow)
  }

  /** The checks `get_trusted_time` applies to the collected samples, in its order: quorum, then skew. */
  function Gate(samples: seq<real>, maxSkew: real, minSuccess: real, localNow: Time): (r: Result<Time, SyncError>)
    ensures r.Ok? <==> |samples| as real >= minSuccess && |samples| > 0 && Abs(Median(samples) - localNow) <= maxSkew
    ensures r.Ok? ==> r.value == Median(samples)
    ensures r.Err? && r.error.TooFewResponses? <==> (|samples| as real) < minSuccess
    ensures r == Err(NoSamples) <==> |samples| == 0 && minSuccess <= 0.0
  {
    if (|samples| as real) < minSuccess then Err(TooFewResponses(|samples|, minSuccess))
    else if |samples| == 0 then Err(NoSamples)
    else
      var m := Median(samples);
      var skew := Abs(m - localNow);
      if skew > maxSkew then Err(ClockSkew(skew, maxSkew)) else Ok(m)
  }

  /** Whatever time the gate lets through is within `maxSkew` of the local clock. */
  lemma TrustedTimeIsNearLocalClock(replies: seq<NtpReply>, maxSkew: real, minSuccess: real, localNow: Time)
    requires TrustedTime(replies, maxSkew, minSuccess, localNow).Ok?
    ensures var t := TrustedTime(replies, maxSkew, minSuccess, localNow).value;
      localNow - maxSkew <= t <= localNow + maxSkew
  {
  }

  /** Agreement is not enough: with fewer answering servers than required the gate refuses, whatever they say. */
  lemma QuorumComesFirst(replies: seq<NtpReply>, maxSkew: real, minSuccess: real, localNow: Time)
    requires (|Successes(replies)| as real) < minSuccess
    ensures TrustedTime(replies, maxSkew, minSuccess, localNow) == Err(TooFewResponses(|Successes(replies)|, minSuccess))
  {
  }
}
